=== FILE: README.md ===
# Dice automation plugin, modelled in Dafny

The plugin sits between a hotel game client and its server. It watches the
dice packets a user's client exchanges with the server, keeps a registry of
the user's dice, and plays dice games on chat commands: poker (roll every
die and name the hand), tri (three dice, summed), 21 and 13 (roll, then keep
hitting one more die until the running sum reaches 15 or 7), close (close
every die), `@` (announce an amount), verify (repeat the last sum), and a
help screen. It speaks two wire dialects: the Flash client's binary packets
(4-byte big-endian die ids, the face in the last byte) and the Origins
client's text packets (decimal fields separated by spaces, the face offset by
38 times the die id). Results go to an activity log of at most 100 lines and,
when chat announcements are on and the user is not muted, to the room chat.

The model is a set of pure functions over one immutable `Session.State`:
the registry, the seven flow flags, the chat switches, the running sum and
hit cursor, the log, and the list of packets sent so far. Each packet
handler, chat command and flow step is a function from one state to the
next. The client variant is a parameter (`Common.Variant`). Go's 64-bit
`int` is modelled by `Common.Wrap64` and the `uint32` cast by
`Wire.Truncate32`.

Modules, in dependency order:

- `Common`: option type, bytes, variants, 64-bit wrap-around.
- `Decimal`, `Wire`, `Text`, `Sorting`: the library calls the core uses. These are
  `strconv.Itoa`/`Atoi`, big-endian `PutUint32`/`Uint32`, `strings.Fields`,
  `TrimPrefix`, `TrimSpace`, and `sort.Slice` on runes and on ints.
- `Dice`: a die's `Roll`/`Close` and the packets they send.
- `Protocol`: decoding the three inbound packets for each variant.
- `Registry`: the dice list and the three handlers' effect on it.
- `LogRing`: `AddLogMsg`'s 100-line log.
- `Session`: the state, reset, the packet handlers, the announcement rule.
- `Commands`, `Dispatch`: the chat command table, `onChatMessage`, `HandleAction`.
- `Batch`: rolling or closing a list of registry positions in turn.
- `Flows`: the poker, tri, 21 and 13 flows, verify, `@`, help, close-all.
- `Hand`: the poker evaluator, hand comparison, sums, the tri result, the
  21/13 threshold step.
- `HandFacts`: the poker evaluator's behaviour on five dice with faces 1 to 6,
  proved case by case.

## Model

| member | source | states |
|---|---|---|
| Common.MaxDice | main.go:743-746 | A registry holds 3 dice on Flash and 5 on Origins, and 3 exactly when the variant is Flash. |
| Common.Wrap64 | hand.go:224-227 | Go's `int` arithmetic: the result is in the signed 64-bit range, congruent to the exact value modulo 2^64, and equal to it when that fits. |
| Common.Wrap64Add | hand.go:225-227 | Wrapping after every addition gives the same sum as wrapping once at the end. |
| Common.Wrap64Congruent | hand.go:225-227 | Values congruent modulo 2^64 wrap to the same `int`. |
| Decimal.DigitValue | hand.go:318 | `c - '0'` of a digit is below 10 and maps back to the same digit. |
| Decimal.NatToDigits | hand.go:228 | Non-empty digits with no leading zero, starting with '0' exactly for zero. |
| Decimal.DigitsValueOfNat | hand.go:228 | Reading the decimal digits of `n` back gives `n`. |
| Decimal.Itoa | hand.go:228 | `strconv.Itoa`: a non-empty numeral, starting with '-' exactly for negative numbers and with a digit otherwise. It is canonical: no leading zero, and no "-0". |
| Decimal.Atoi | main.go:328 | `strconv.Atoi`: a parsed value is in the 64-bit range, and the empty string is an error. A text that parses is all ASCII digits, except for one leading sign. |
| Decimal.AtoiItoa | main.go:328 | `Atoi` reads back every 64-bit value `Itoa` writes. |
| Decimal.AtoiDigits | main.go:328 | A run of digits reads as its value, and with a '-' in front as its negation, whenever that is a 64-bit value. |
| Decimal.ItoaInjective | hand.go:228 | Distinct 64-bit values print differently. |
| Decimal.CanonicalNatDigits | hand.go:228 | Digits without a leading zero are exactly the decimal text `Itoa` writes for their value. |
| Decimal.CanonicalIsItoa | hand.go:228 | A canonical numeral that parses is the `Itoa` text of its value. |
| Decimal.CanonicalUnique | hand.go:228 | Two canonical numerals with the same value are the same text, so "canonical and reads back as v" determines the text. |
| Wire.Truncate32 | dice.go:31 | `uint32(id)`: the result is below 2^32, congruent to the id modulo 2^32, and equal to it when it fits. |
| Wire.PutUint32 | dice.go:29-31 | A 32-bit value is written as exactly four bytes. |
| Wire.Uint32 | main.go:312 | Four bytes read as a value below 2^32. |
| Wire.Uint32PutUint32 | dice.go:29-31 | Reading back the four bytes written for `n` gives `n`. |
| Wire.PutUint32Uint32 | main.go:385 | Writing the value read from four bytes gives the same four bytes. |
| Wire.DecodeRune | main.go:318-321 | `utf8.DecodeRune`: takes 1 to 4 bytes. The rune is ASCII exactly when the first byte is, and then it is that byte. Malformed, overlong, surrogate and truncated sequences read as U+FFFD taking one byte. |
| Wire.TextOf | main.go:318-321 | `string(packet.Data)`, read rune by rune as `strings.Fields` reads it: never more characters than bytes. |
| Wire.BytesOf | dice.go:36 | `[]byte(s)` of an ASCII string: one ASCII byte per character, with the same code. |
| Wire.TextOfBytesOf | main.go:318 | Reading the bytes of an ASCII string back as text gives the string. |
| Wire.TextOfAscii | main.go:318 | ASCII bytes are read one character per byte, with the same code. |
| Wire.TextOfAsciiIff | main.go:318-328 | The text is ASCII exactly when the payload bytes are. |
| Text.WordLength | main.go:321 | The first word is the longest prefix free of `unicode.IsSpace` white space: it is followed by white space or by the end. |
| Text.Fields | main.go:321 | `strings.Fields`: every field is non-empty and free of white space. That the fields are exactly the maximal runs, in order, is stated by `FieldsSplit` and `FieldsOfInterleave`. |
| Text.FieldsOfWord | main.go:321-327 | A single space-free word splits into exactly that word. |
| Text.FieldsOfTwoWords | main.go:457-471 | Two words joined by a space split into exactly those two words. |
| Text.FieldsAfterSpace | main.go:321 | Leading white space does not change the fields. |
| Text.FieldsOfWordThen | main.go:321 | A word followed by white space, or by nothing, is the first field, and the rest are the fields of what follows. |
| Text.FieldsOfInterleave | main.go:321 | Non-empty words laid out between white-space gaps, with every inner gap non-empty, are exactly the fields of the text. |
| Text.FieldsSplit | main.go:321 | Every text is its fields laid out between white-space gaps, with every inner gap non-empty. With `FieldsOfInterleave`, this means `Fields` returns exactly the maximal runs free of white space. |
| Text.TrimPrefix | main.go:230 | With the prefix present, prefix + result is the input; without it, the input is unchanged. |
| Text.TrimLeft | main.go:268 | Only leading white space is removed, and the result does not start with white space. |
| Text.TrimRight | main.go:268 | Only trailing white space is removed, and the result does not end with white space. |
| Text.TrimSpace | main.go:268 | The input is white space, then the result, then white space. The result neither starts nor ends with white space, and an input free of white space is unchanged. |
| Text.NoBreakSpaceSplits | main.go:321 | "5", a no-break space, "7" splits into the two fields "5" and "7": U+00A0 is white space for `strings.Fields`. |
| Sorting.Insert | hand.go:294-296 | Inserting into a sorted sequence keeps it sorted and adds exactly that element. |
| Sorting.SortBy | hand.go:294-296 | The result is sorted by the key and is a permutation of the input. |
| Sorting.SortedUnique | hand.go:294-296 | For an injective key, two sorted permutations of the same elements are equal, so the sort's result is unique. |
| Sorting.SortByMultiset | hand.go:294-296 | Sorting depends only on the multiset of the input. |
| Sorting.SortBySorted | hand.go:294-296 | Sorting a sorted sequence leaves it unchanged. |
| Sorting.SortRunes | hand.go:293-297 | The sorted digit string is ascending and a permutation of the input. |
| Sorting.SortDescending | hand.go:331-332 | The tiebreakers are descending and a permutation of the values. |
| Sorting.SortRunesMultiset | hand.go:293-297 | Strings with the same characters sort to the same string. |
| Sorting.SortDescendingMultiset | hand.go:410-411 | Value lists with the same elements sort to the same list. |
| Sorting.SortDescendingIs | hand.go:331-332 | Any descending permutation of the input is the sort's result. |
| Sorting.SortRunesIs | hand.go:293-297 | Any ascending permutation of the string is the sort's result. |
| Dice.IdPayload | dice.go:27-37 | A die id is sent as 4 bytes on Flash, or as its decimal text on Origins. |
| Dice.Roll | dice.go:21-41 | Rolling fails exactly for id 0, sending nothing. Otherwise it sends one throw packet carrying the id, and the die is rolling and open with id and face kept. |
| Dice.Close | dice.go:44-62 | Closing fails exactly for id 0. Otherwise it sends one dice-off packet carrying the id, and the die is closed with its rolling flag kept. |
| Dice.CloseTwice | dice.go:44-62 | Closing a closed die changes nothing further. |
| Dice.CloseChangesOnlyClosed | dice.go:60 | Closing leaves a die as it was exactly when it was already closed. |
| Dice.RollThenClose | dice.go:38-61 | A die rolled and then closed is closed and still marked rolling. |
| Protocol.DecodeThrowId | main.go:309-333 | Flash: an id exists exactly when there are at least 4 bytes, and it is the last four read big-endian. Origins: the id is `Atoi` of the first field, and a packet with no field is rejected. |
| Protocol.DecodeOffId | main.go:382-400 | Flash: an id exists exactly when there are at least 4 bytes, and it is the first four. Origins: the id is `Atoi` of the whole text, and a payload with any non-ASCII byte is rejected. |
| Protocol.Adjust | main.go:479-482 | The Origins face is the raw value minus 38 times the id, wrapped to 64 bits. |
| Protocol.DecodeResult | main.go:438-482 | Flash: a reading exists exactly when there are at least 5 bytes and the last is not 255 or 100. It is the first four bytes as id and the last byte as face. Origins: a reading exists exactly when there are at least two fields and both parse. The id is the first field and the face is the second, adjusted. |
| Protocol.FlashIdRoundTrip | main.go:309-316 | A Flash throw or off packet built by `Roll`/`Close` decodes to the id truncated to 32 bits. |
| Protocol.OriginsIdRoundTrip | main.go:317-333 | An Origins throw or off packet decodes to exactly the id sent. |
| Protocol.PacketRoundTrip | dice.go:27-37 | For ids between 1 and 2^32 - 1, a rolled die's packet decodes back to its id on both variants. |
| Protocol.OriginsResultRoundTrip | main.go:454-482 | "id raw" decodes to that id with the adjusted face. |
| Protocol.OriginsFaceRecovered | main.go:479-482 | A raw value of face + 38·id decodes to the face itself. |
| Protocol.OriginsResultExample | main.go:457-482 | The bytes of "2 78" decode to die 2 showing 2. |
| Protocol.NoBreakSpaceExample | main.go:318-328 | The bytes 0x37 0xC2 0xA0 read as "7" and a no-break space. `strings.Fields` splits on that space, so the throw id is 7. |
| Registry.Find | main.go:341-347 | The lookup finds a die exactly when one has the id, and it finds the first such die. |
| Registry.AddIfAbsent | main.go:349-373 | A new die is appended exactly when its id is absent and there is room; otherwise the registry is unchanged. The registry fills exactly when the append reaches the maximum. |
| Registry.OnThrow | main.go:349-373 | A throw packet adds a rolling, open die with face 0, and does so exactly when its id is not listed and the registry is below the variant's capacity. Otherwise the registry is unchanged. |
| Registry.OnOff | main.go:408-426 | An off packet adds a closed, not-rolling die with face 0, and does so exactly when its id is not listed and the registry is below the variant's capacity. Otherwise the registry is unchanged. |
| Registry.AddKeepsWellFormed | main.go:349-373 | The registry keeps unique ids and stays within the maximum. The id is listed afterwards exactly when it was listed before or there was room. |
| Registry.AddNeverReplaces | main.go:422-426 | An add never drops or reorders dice already registered. |
| Registry.HandleThrow | main.go:303-374 | A packet that does not decode changes nothing; one that does is `OnThrow` of its id. |
| Registry.HandleOff | main.go:377-427 | A packet that does not decode changes nothing; one that does is `OnOff` of its id. |
| Registry.RecordResult | main.go:491-507 | An unknown id changes nothing. Otherwise only the first die with the id changes: it takes the face and is closed exactly when the face is 0. Its roll completes exactly when it was rolling and a flow is active. A log line is written exactly when a flow is active. |
| Registry.RecordKeepsWellFormed | main.go:491-507 | Recording a result never changes ids or length. |
| Registry.HandleResult | main.go:430-509 | An undecodable result changes nothing; a decodable one is recorded. |
| Registry.StillRollingIgnored | main.go:445-448 | A Flash result whose last byte is a placeholder changes nothing and logs nothing. |
| Registry.CompletedOnce | main.go:493-496 | The same result applied twice completes the roll only once. |
| LogRing.Append | main.go:1028-1031 | The new line is last. The log grows by one, or loses its oldest line once it holds 100. Within capacity its length is min(n + 1, 100). |
| LogRing.AppendAllKeepsNewest | main.go:1028-1031 | After any number of appends, the log is exactly the newest min(total, 100) lines, in order. |
| Session.Announce | hand.go:25-39 | The result line is always logged. The text is shouted exactly when chat is on and the user not muted. Nothing else changes. |
| Session.Reset | main.go:295-301 | The registry is empty and every flag is clear; nothing else changes. |
| Session.OnThrowPacket | main.go:349-373 | The registry follows `HandleThrow`. The setup line is logged exactly when this packet filled the registry. A packet that adds nothing changes nothing. |
| Session.OnOffPacket | main.go:377-427 | Only the registry changes, as `HandleOff` says. |
| Session.OnResultPacket | main.go:490-508 | The registry follows `HandleResult`. With no flow active nothing is logged and no roll completes. An undecodable packet changes nothing. |
| Session.PacketsKeepInvariant | main.go:337-426 | Throw and off packets keep the registry well formed and the log within 100 lines. |
| Session.ResultKeepsInvariant | main.go:490-508 | Result packets and reset keep the same invariant. |
| Commands.Parse | main.go:230-282 | The `switch` of `onChatMessage`. The `@` case carries the trimmed text after the '@'. |
| Commands.FirstMatchIsFirst | main.go:231-282 | Scanning the command table finds nothing exactly when no row matches. Otherwise it finds the first matching row. |
| Commands.ParseIsFirstMatch | main.go:231-282 | The switch selects the first row of the command table in priority order (reset, roll, tri, close, 21, 13, @, verify, commands, chaton, chatoff) that matches. |
| Commands.AtTwentyOneIsTwentyOne | main.go:254-269 | "@21" ends with "21", so it starts a 21 game, not an `@` announcement. |
| Commands.ParseAt | main.go:231-269 | A command that starts with '@' and ends with none of reset, roll, tri, close, 21, 13 is an announcement of the trimmed text after the '@'. |
| Commands.TrimNoBreakSpace | main.go:268 | `strings.TrimSpace` removes a leading space and a trailing no-break space: " 5" plus U+00A0 trims to "5". |
| Commands.AtTrimsNoBreakSpace | main.go:266-269 | "@ 5" followed by a no-break space announces "5". |
| Dispatch.Begin | main.go:232-281 | Every matched command is blocked. `reset` is `Session.Reset` and starts nothing. `roll`, `tri`, `21` and `13` each raise only their own flag, log their opening line ("Poker Roll:", "Tri Roll:", "21 Roll:", "13 Roll:") and start their own flow; poker is the Flash flow on Flash. `close`, `@`, `verify` and `commands` change nothing and start their flow, with `@` carrying its text. `chaton` and `chatoff` only set the chat switch. |
| Dispatch.BeginFrame | main.go:232-281 | No branch sends anything or touches the sum, cursor or mute flag. The registry is kept or emptied, and the log stays within 100 lines. A game flow starts only with its flag raised. |
| Dispatch.OnChat | main.go:218-284 | A message without ':' passes untouched. While any flag is set, every ':' message is blocked and nothing changes. Otherwise a ':' message is blocked exactly when a command matches it. A game flow starts only with its flag raised. |
| Dispatch.DispatchFollowsTable | main.go:222-282 | With no flow running, a ':' message does exactly what the first matching table row says. |
| Dispatch.AtTwentyOneStartsTwentyOne | main.go:254-259 | ":@21" starts the 21 flow with its flag raised. |
| Dispatch.StartedFlowBlocksCommands | main.go:224-227 | Once a game flow has started, the next ':' message is blocked and changes nothing. |
| Dispatch.ResetIsIdle | main.go:232-234 | Any ':…reset' message resets: the registry is empty and no flag is set. |
| Dispatch.OnAction | main.go:933-973 | The buttons do nothing while busy or for an unknown action, and they never block a packet. |
| Dispatch.ParseGameWords | main.go:235-265 | "roll", "tri", "21" and "13" parse to their games. |
| Dispatch.ActionAgreesWithChat | main.go:942-968 | Each button leaves the same state and starts the same flow as its chat command. |
| Dispatch.DispatchKeepsInvariant | main.go:218-284 | Dispatch keeps the registry well formed and the log within 100 lines. |
| Batch.Apply | dice.go:21-62 | A batch step fails exactly for a die with id 0. |
| Batch.ApplyOne | main.go:542-547 | One die of the loop. Only that position changes, keeping id and face. It ends rolling or closed unless it is invalid, in which case nothing happens. It sends one packet carrying its id. |
| Batch.ApplyAt | main.go:672-681 | The loop `for _, index := range … { diceList[index].Roll() }` keeps ids, faces and length. Every valid listed die ends in the call's state, and nothing else changes. At most one packet goes out per position, each with the call's header. With all listed dice valid, packet k carries the k-th listed die's id. |
| Batch.Indices | main.go:542 | `range diceList`: every position, once, in order. |
| Batch.ApplyAtKeepsWellFormed | main.go:542-547 | A batch keeps the registry well formed. |
| Flows.Values | hand.go:285-288 | The values of the dice in registry order. |
| Flows.RollAt | main.go:672-681 | Rolling listed positions changes only the registry and the sent packets, as `ApplyAt` says. |
| Flows.RollAtRolls | main.go:542-547 | Rolled positions are rolling and open, others untouched. Only throw packets are added, one per listed die when all are valid. |
| Flows.StartPoker | main.go:529-547 | With too few dice the poker flag drops and nothing else changes. Otherwise every valid die ends rolling and open, and invalid dice are untouched. Ids, faces and every other field are kept. Only throws are sent, one per die when all dice are valid. |
| Flows.RerollFlash | main.go:605-609 | The Flash poker re-roll throws dice 0 and 1 again: one throw each when both are valid, and nothing but throws is sent. Only the registry and the sent packets change. |
| Flows.StartTri | main.go:646-682 | With too few dice the tri flag drops. Otherwise the tri positions (0, 1, 2 on Flash; 0, 2, 4 on Origins) are rolled and only the registry and the sent packets change. Only throws are sent, three when all three dice are valid. |
| Flows.Stopped | main.go:756-757 | Stopping a game clears both its rolling and its hitting flag. |
| Flows.StartGame | main.go:694-725 | With too few dice only the game's rolling flag drops: nothing else changes and nothing is thrown. Otherwise the sum is reset and the cursor set (0 for 21, 2 for 13). The opening dice (0, 1, 2 for 21; 0, 1 for 13) are thrown, one packet each. Only the registry, the packets, the sum and the cursor change. |
| Flows.AccumulateIsWrappedSum | main.go:731-733 | Adding faces into the running sum one by one equals the 64-bit wrapped total. |
| Flows.FacesAt | main.go:731-733 | The faces of the listed positions, in order. |
| Flows.TakeOpening | main.go:730-734 | The running sum becomes the previous sum plus the opening faces, wrapped; nothing else changes. |
| Flows.FirstUnrolled | main.go:765-780 | The scan finds the first position from the start whose die shows 0, or reports that none does. |
| Flows.ChooseHit | main.go:765-797 | If a die from the start position shows 0, the first one is hit and the cursor is kept. Otherwise the cursor's die (modulo the dice count) is hit and the cursor advances by one. |
| Flows.HitGame | main.go:740-797 | With too few dice the game stops. Otherwise the die `ChooseHit` picks is rolled and the cursor becomes `ChooseHit`'s. A valid die sends exactly one throw, which decodes to that die's id when the id fits 32 bits; an invalid one sends nothing. Only the registry, the packets and the cursor change. |
| Flows.EvaluateGame | hand.go:74-123 | Below the threshold, another die is hit. At or above it, "21/13 Result: <sum>" is logged, and the sum is shouted when announcing and nothing is sent otherwise. The game's two flags are cleared, and nothing else changes. |
| Flows.AfterHit | main.go:791-793 | The hit die's face is added to the running sum, wrapped to 64 bits. |
| Flows.FlashTwentyOneRerolls | main.go:743-797 | On Flash a 21 hit never finds an unrolled die: it re-rolls die `next mod 3` and advances the cursor. |
| Flows.GameReportsOnlyAtThreshold | hand.go:83-93 | After the opening throw, the game reports exactly when the opening sum reaches the threshold. |
| Flows.EvaluateTri | hand.go:176-207 | With the variant's own tri positions (the corrected reading, see Findings): a result exists exactly when the registry is full. "Tri Result: <text>" is logged, where the text is the canonical decimal of the wrapped sum of the three tri dice. It is shouted when announcing and nothing is sent otherwise. Only the tri flag is cleared, and nothing else changes. |
| Flows.EvaluatePoker | hand.go:24-47 | A result exists exactly when the hand evaluates. A missing or undecodable configuration file first logs `LoadConfig`'s line, then "Poker Result: <text>" is logged. The text is shouted when announcing and nothing is sent otherwise. Only the poker flag is cleared, nothing else changes, and the log stays within capacity. |
| Flows.PokerHandsEvaluate | hand.go:262-419 | Five dice with faces 1 to 6 always evaluate, to the ranking their counts call for. |
| Flows.ConfigNote | main.go:84-112 | `LoadConfig` adds a line to the log exactly when it did not read the settings file: the file is missing (line 89) or did not decode (line 106). |
| Flows.VerifySum | main.go:921-931 | Exactly one shout goes out, with the variant's shout header. Its text is a canonical numeral that reads back as the running sum. |
| Flows.EvalAt | main.go:286-292 | "@" + amount is shouted and logged; nothing else changes. |
| Flows.ShowHelp | main.go:1011-1016 | The help text is broadcast with the variant's broadcast header; nothing else changes. |
| Flows.CloseAllDice | main.go:512-526 | Every valid die is closed and invalid dice are untouched. Ids, faces and rolling flags are kept, and the closing flag ends clear. Earlier packets are kept, and every new packet is a dice-off packet of the variant, at most one per die. When all dice are valid, packet k carries die k's id. |
| Flows.BatchThrowsCarryIds | dice.go:27-37 | Each throw of a batch decodes, on the receiving side, to the id of the die it was sent for. |
| Flows.RollAtThrowsCarryIds | main.go:672-675 | The throws a roll appends decode to the rolled dice's ids, in order. |
| Flows.RollOneCarries | main.go:765-785 | Rolling one valid die whose id fits 32 bits sends exactly one throw, and the throw handler decodes it as that die's id. |
| Flows.OpeningThrowsCarryIds | main.go:721-725 | The opening throws of 21 and 13 decode to the ids of the opening dice, in order. |
| Flows.StartsKeepInvariant | main.go:529-725 | Starting poker, tri, 21 or 13 keeps the registry well formed, the log bounded and the sum in range. |
| Flows.HitsKeepInvariant | main.go:740-803 | A hit, an evaluation step and adding the hit face keep the invariant. |
| Flows.OpeningsKeepInvariant | main.go:556-609 | The Flash re-roll and taking the opening sum keep the invariant. |
| Flows.EvaluationsKeepInvariant | hand.go:24-207 | The tri and poker evaluations keep the invariant. |
| Flows.PokerKeepsInvariant | hand.go:24-47 | The poker evaluation keeps the invariant, whatever line loading the configuration logged. |
| Flows.CommandsKeepInvariant | main.go:921-1017 | Verify, `@`, help and close-all keep the invariant. |
| Hand.Digits | hand.go:289-292 | The concatenated decimal text of the values holds only numeral characters. |
| Hand.Picked | hand.go:321-328 | The keys kept are exactly the candidates whose count is wanted, and they stay in descending order. |
| Hand.Rank | hand.go:299-418 | The rank of any sorted digit string is between 0 and 7. `None` marks the "22" case's index panic. |
| Hand.Evaluate | hand.go:262-419 | `toPokerHandResult` keeps the dice values and ranks between 0 and 7. |
| Hand.FirstDifference | hand.go:464-472 | The scan finds the first position where the tiebreakers differ, or reports that they agree on their common length. |
| Hand.Compare | hand.go:456-475 | A higher rank wins. At equal rank, the first differing tiebreaker decides. With no difference on the common length the game is a tie, and only then. |
| Hand.FirstDifferenceUnique | hand.go:464-472 | The first differing position is unique, and its existence rules out a tie. |
| Hand.ComparePokerHands | hand.go:456-475 | The loop's message is the verdict's message. |
| Hand.SumAppend | hand.go:225-227 | Summing a list with one more element adds that element. |
| Hand.SumHandInt | hand.go:232-238 | The loop's sum is the 64-bit wrap of the exact sum, and equal to it when it fits. |
| Hand.SumHand | hand.go:223-229 | The text is the canonical decimal numeral (as `Itoa` writes it) that reads back as the wrapped sum. |
| Hand.TriResultAsWritten | hand.go:176-182 | As written: a result exists exactly when at least five values exist. It is the canonical numeral of the wrapped sum of positions 0, 2 and 4. |
| Hand.TriIndices | main.go:670-682 | Three tri positions, all within the variant's registry. |
| Hand.TriResult | hand.go:176-207 | A result exists exactly when the registry is full. It is the canonical numeral of the wrapped sum of the variant's tri positions. |
| Hand.TriAsWrittenFailsOnFlash | hand.go:178-182 | On a full Flash registry the as-written tri result fails, while the corrected one exists. |
| Hand.ReadBackWhenInt64 | hand.go:90 | A 64-bit sum printed by `Itoa` reads back as itself. |
| Hand.Settle | hand.go:83-90 | Below the threshold the game hits. At or above it, the report is a canonical numeral that reads back as the sum. |
| HandFacts.TallyOfDigits | hand.go:316-319 | In the digit string of single-digit values, each digit occurs as often as its value does among the dice. |
| HandFacts.PickedOfDigits | hand.go:321-328 | The chosen characters are exactly the digits whose value count is wanted. |
| HandFacts.KeysOfDigits | hand.go:321-341 | The keys are exactly the values with the wanted count, strictly descending. |
| HandFacts.CountsOfDigits | hand.go:321-342 | The count list lines up with the key list: count i is the occurrences of key i. |
| HandFacts.LowStraightCheck | hand.go:299-306 | The sorted string is "12345" exactly when the dice are 1, 2, 3, 4, 5 in some order. |
| HandFacts.HighStraightCheck | hand.go:307-314 | The sorted string is "23456" exactly when the dice are 2, 3, 4, 5, 6 in some order. |
| HandFacts.StraightChecks | hand.go:299-314 | Both straight checks at once. |
| HandFacts.FiveOfAKindCase | hand.go:348-354 | Five equal dice rank 7, with the value as tiebreaker. |
| HandFacts.FourOfAKindCase | hand.go:355-361 | Four equal dice rank 6, with that value as tiebreaker. |
| HandFacts.FullHouseCase | hand.go:370-389 | Three and two rank 5, with the triple then the pair as tiebreakers. |
| HandFacts.ThreeOfAKindCase | hand.go:362-369 | Three without a pair ranks 3: the triple, then the single values in descending order. |
| HandFacts.TwoPairCase | hand.go:390-399 | Two pairs rank 2: the higher pair, the lower pair, then the single kicker. |
| HandFacts.OnePairCase | hand.go:400-408 | One pair ranks 1: the pair, then the single values in descending order. |
| HandFacts.NothingCase | hand.go:330-339 | No repeat and no straight ranks 0, with all values descending as tiebreakers. |
| HandFacts.EvaluateClassified | hand.go:262-419 | Every hand of five faces 1 to 6 evaluates, to the rank and tiebreakers its counts call for, and never falls into the switch's fallback. |
| HandFacts.DigitsMultiset | hand.go:289-292 | Values with the same multiset produce digit strings with the same characters. |
| HandFacts.EvaluateMultiset | hand.go:285-297 | The evaluation depends only on which values were rolled, not on their order: the rank, description and tiebreakers agree. |
| HandFacts.CompareSwap | hand.go:456-475 | Swapping player and dealer keeps a tie a tie and swaps the winner. |

## Left out

- The window and app lifecycle: app.go and `NewApp`, `startup`, `ShowWindow`, `SaveConfig` and `getConfigFilePath` are not part of this model.
- `LoadConfig`'s file system and JSON decoding are left out, because they are I/O. What the load met is the `Flows.ConfigLoad` parameter of `Flows.EvaluatePoker`, and the line it logs is modelled (`Flows.ConfigNote`). Its `fmt.Println` on the fallback path goes to standard output, not to the log, so it is not modelled.
- Timing: every `time.Sleep` and random delay is left out, because delays do not change any state the model tracks.
- Concurrency is left out. The model does not include goroutines, the mutexes or the `resultsWaitGroup`. A flow is modelled as separate steps (start, results arriving, evaluate, hit), each a function of the state. A result only reports whether it completes a roll a flow waits for.
- The interleaving of `go a.closeAllDice()` with the start of `rollBjDice` and `roll13Dice` is left out: `Flows.CloseAllDice` and `Flows.StartGame` are separate steps, because the outcome depends on scheduling.
- Reading the flow flags without the mutex is left out, because it is a data race with no sequential meaning.
- An undetected client variant (`isFlash` nil) is left out. It dereferences nil in `handleThrowDice` and `rollTriDice`, and the variant is a fixed parameter here.
- Log timestamps and the UI event `EventsEmit` are left out, because they depend on the clock and the UI. Log lines are stored without the time prefix.
- Debug output (`log.Printf`, `logrus`) is left out, because it changes no state.
- Muting is left out. The mute timer, `handleMutePacket`, `handleMuteEnd` and `handleTalk` depend on the clock and server packets, so `muted` is a state field the model never changes. The commented-out message queue is not modelled.
- `evaluatePokerRound` and `DiceString` are left out. They are never reached from a command, and they are built from `Hand.Evaluate` and `Hand.ComparePokerHands`, which are modelled.
- `evaluatePokerHandFlash` is left out: `rollPokerDiceFlash` calls it, but it is not defined in the source, so the Flash poker flow is modelled up to its re-roll (`Flows.RerollFlash`).
- `toPokerString` is left out, because it only returns `Hand.Evaluate`'s description.
- Flows.EvaluatePoker: the description templates are a `render` parameter, because they come from the user's configuration file. The model does not tie `render` to the `ConfigLoad` case. A missing file uses `LoadConfig`'s defaults, whose pair templates end in "%ss". An undecodable file uses `toPokerHandResult`'s defaults, which end in "%s". `Hand.Description` records which template was chosen and the text filled into `%s`.
- Flows.EvaluateTri: uses the corrected tri positions of `Hand.TriResult`. As written, the source panics on a full Flash registry (see Findings, `Hand.TriAsWrittenFailsOnFlash`).
- Flows.ShowHelp: the help text is a parameter, because it is a fixed literal. That text says 21 reports "when > 15" and 13 "when > 8", while the code reports at sums of at least 15 and at least 7.
- Hand.Evaluate: the kickers come from Go map iteration over the digit counts. `kickersForCount` sorts them, and the model takes them in the same descending order. `kickerForPairs` returns the first digit met that occurs once, and the model returns the highest such digit. On five faces 1 to 6 exactly one digit occurs once in a two-pair hand, so both agree. With multi-digit faces they need not agree: for [1, 1, 2, 2, 34] the digits 3 and 4 each occur once, Go returns either, and the model returns 4.
- Hand.Evaluate: its own contract only keeps the values and bounds the rank. The full classification is proved, in `HandFacts.EvaluateClassified`, only for five dice with faces 1 to 6. It is not proved for other lengths or for multi-digit or negative faces, whose digit strings the source also ranks.
- Hand.Rank: the same. Its content is proved through `HandFacts`, for five faces 1 to 6.
- `isHitting` and `is13Hitting` are never set by the source, only cleared and read. The model keeps them as flags that no step raises.
- The packets of `sendMessageWithDelay` and `evalAt` use the Origins shout header on either variant, as the source does. What a Flash client does with them is not modelled.

## Findings

| source | as written | input that shows it | evidently intended | confidence | as-written member | corrected member |
|---|---|---|---|---|---|---|
| hand.go:178-182 | `evaluateTriHand` sums the dice at positions 0, 2 and 4 on both variants | a Flash registry of three dice: position 4 is out of range and the flow panics. `rollTriDice` rolls positions 0, 1 and 2 on Flash (main.go:678). | sum the positions the flow rolled: 0, 1, 2 on Flash and 0, 2, 4 on Origins | not executed | Hand.TriAsWrittenFailsOnFlash | Hand.TriResult |

=== FILE: batch.dfy ===
/**
  Rolling or closing several dice of the registry in turn, as the flows do
  with `for _, index := range ... { diceList[index].Roll() }`. The error a
  die with id 0 returns is ignored: that die is skipped and sends nothing.
 */
module Batch {
  import opened Common
  import opened Dice
  import opened Registry

  datatype Act = RollAct | CloseAct

  function Apply(v: Variant, act: Act, d: Die): (r: Option<Sent>)
    ensures r.None? <==> !IsValid(d)
  {
    if act.RollAct? then Roll(v, d) else Close(v, d)
  }

  function ActHeader(v: Variant, act: Act): Header {
    if act.RollAct? then ThrowHeader(v) else OffHeader(v)
  }

  /** The state a die is left in by the call. */
  predicate Done(act: Act, d: Die) {
    if act.RollAct? then d.isRolling && !d.isClosed else d.isClosed
  }

  predicate InRange(idx: seq<nat>, n: nat) {
    forall k :: 0 <= k < |idx| ==> idx[k] < n
  }

  predicate AllValidAt(dice: Registry, idx: seq<nat>)
    requires InRange(idx, |dice|)
  {
    forall k :: 0 <= k < |idx| ==> IsValid(dice[idx[k]])
  }

  datatype Outcome = Outcome(dice: Registry, sent: seq<Packet>)

  /** One die of the batch: the registry with that die updated, and what it sent. */
  function ApplyOne(v: Variant, act: Act, dice: Registry, i: nat): (o: Outcome)
    requires i < |dice|
    ensures |o.dice| == |dice|
    ensures forall j :: 0 <= j < |dice| && j != i ==> o.dice[j] == dice[j]
    ensures o.dice[i].id == dice[i].id && o.dice[i].value == dice[i].value
    ensures act.CloseAct? ==> o.dice[i].isRolling == dice[i].isRolling
    ensures IsValid(dice[i]) ==> Done(act, o.dice[i])
    ensures !IsValid(dice[i]) ==> o == Outcome(dice, [])
    ensures IsValid(dice[i]) ==> o.sent == [Packet(ActHeader(v, act), Bytes(IdPayload(v, dice[i].id)))]
  {
    match Apply(v, act, dice[i])
    case None => Outcome(dice, [])
    case Some(x) => Outcome(dice[i := x.die], [x.packet])
  }

  /**
    The dice at the listed positions, in order. The ids, faces and length of
    the registry never change; every valid die listed ends in the call's
    state; nothing else changes; and one packet goes out per valid die,
    carrying its id.
   */
  function ApplyAt(v: Variant, act: Act, dice: Registry, idx: seq<nat>): (o: Outcome)
    requires InRange(idx, |dice|)
    ensures |o.dice| == |dice|
    ensures forall j :: 0 <= j < |dice| ==> o.dice[j].id == dice[j].id && o.dice[j].value == dice[j].value
    ensures forall j :: 0 <= j < |dice| && (j !in idx || !IsValid(dice[j])) ==> o.dice[j] == dice[j]
    ensures act.CloseAct? ==> forall j :: 0 <= j < |dice| ==> o.dice[j].isRolling == dice[j].isRolling
    ensures forall j :: j in idx && IsValid(dice[j]) ==> Done(act, o.dice[j])
    ensures |o.sent| <= |idx|
    ensures forall k :: 0 <= k < |o.sent| ==> o.sent[k].header == ActHeader(v, act)
    ensures AllValidAt(dice, idx) ==>
      |o.sent| == |idx| && forall k :: 0 <= k < |idx| ==> o.sent[k].payload == Bytes(IdPayload(v, dice[idx[k]].id))
    decreases |idx|
  {
    if |idx| == 0 then Outcome(dice, [])
    else
      var first := ApplyOne(v, act, dice, idx[0]);
      var rest := ApplyAt(v, act, first.dice, idx[1..]);
      DiceStep(v, act, dice, idx, first, rest.dice);
      SentStep(v, act, dice, idx, first, rest.sent);
      Outcome(rest.dice, first.sent + rest.sent)
  }

  /** The induction step of `ApplyAt` for the registry: the first die, then the rest of the list. */
  lemma DiceStep(v: Variant, act: Act, dice: Registry, idx: seq<nat>, first: Outcome, after: Registry)
    requires |idx| > 0 && InRange(idx, |dice|)
    requires first == ApplyOne(v, act, dice, idx[0])
    requires |after| == |first.dice|
    requires forall j :: 0 <= j < |first.dice| ==>
      after[j].id == first.dice[j].id && after[j].value == first.dice[j].value
    requires forall j :: 0 <= j < |first.dice| && (j !in idx[1..] || !IsValid(first.dice[j])) ==> after[j] == first.dice[j]
    requires act.CloseAct? ==> forall j :: 0 <= j < |first.dice| ==> after[j].isRolling == first.dice[j].isRolling
    requires forall j :: j in idx[1..] && IsValid(first.dice[j]) ==> Done(act, after[j])
    ensures |after| == |dice|
    ensures forall j :: 0 <= j < |dice| ==> after[j].id == dice[j].id && after[j].value == dice[j].value
    ensures forall j :: 0 <= j < |dice| && (j !in idx || !IsValid(dice[j])) ==> after[j] == dice[j]
    ensures act.CloseAct? ==> forall j :: 0 <= j < |dice| ==> after[j].isRolling == dice[j].isRolling
    ensures forall j :: j in idx && IsValid(dice[j]) ==> Done(act, after[j])
  {
    var i := idx[0];
    assert forall j :: j in idx <==> j == i || j in idx[1..] by {
      assert idx == [i] + idx[1..];
    }
    forall j | 0 <= j < |dice| && !IsValid(dice[j]) ensures after[j] == dice[j] {
      assert first.dice[j] == dice[j];
    }
    forall j | j in idx && IsValid(dice[j]) ensures Done(act, after[j]) {
      if j !in idx[1..] {
        assert after[j] == first.dice[j];
      } else {
        assert IsValid(first.dice[j]);
      }
    }
  }

  /** The induction step of `ApplyAt` for the packets: the first die's, then the rest's. */
  lemma SentStep(v: Variant, act: Act, dice: Registry, idx: seq<nat>, first: Outcome, later: seq<Packet>)
    requires |idx| > 0 && InRange(idx, |dice|)
    requires first == ApplyOne(v, act, dice, idx[0])
    requires |later| <= |idx[1..]|
    requires forall k :: 0 <= k < |later| ==> later[k].header == ActHeader(v, act)
    requires AllValidAt(first.dice, idx[1..]) ==>
      |later| == |idx[1..]|
      && forall k :: 0 <= k < |idx[1..]| ==> later[k].payload == Bytes(IdPayload(v, first.dice[idx[1..][k]].id))
    ensures var all := first.sent + later;
      && |all| <= |idx|
      && (forall k :: 0 <= k < |all| ==> all[k].header == ActHeader(v, act))
      && (AllValidAt(dice, idx) ==>
        |all| == |idx| && forall k :: 0 <= k < |idx| ==> all[k].payload == Bytes(IdPayload(v, dice[idx[k]].id)))
  {
    var all := first.sent + later;
    forall k | 0 <= k < |all| ensures all[k].header == ActHeader(v, act) {
      if k >= |first.sent| {
        assert all[k] == later[k - |first.sent|];
      }
    }
    if AllValidAt(dice, idx) {
      assert AllValidAt(first.dice, idx[1..]) by {
        forall k | 0 <= k < |idx[1..]| ensures IsValid(first.dice[idx[1..][k]]) {
          assert idx[1..][k] == idx[k + 1];
        }
      }
      forall k | 0 <= k < |idx| ensures all[k].payload == Bytes(IdPayload(v, dice[idx[k]].id)) {
        if k > 0 {
          assert idx[1..][k - 1] == idx[k];
          assert all[k] == later[k - 1];
        }
      }
    }
  }

  /** Every position of a registry of length `n`, in order. */
  function Indices(n: nat): (idx: seq<nat>)
    ensures |idx| == n && InRange(idx, n)
    ensures forall j :: 0 <= j < n ==> j in idx
  {
    var idx := seq(n, i requires 0 <= i < n => i as nat);
    forall j | 0 <= j < n ensures j in idx {
      assert idx[j] == j;
    }
    idx
  }

  /** A batch keeps the registry well formed: ids and length are untouched. */
  lemma ApplyAtKeepsWellFormed(v: Variant, act: Act, dice: Registry, idx: seq<nat>)
    requires InRange(idx, |dice|) && WellFormed(v, dice)
    ensures WellFormed(v, ApplyAt(v, act, dice, idx).dice)
  {
    var o := ApplyAt(v, act, dice, idx);
    assert forall j :: 0 <= j < |dice| ==> o.dice[j].id == dice[j].id;
  }
}

=== FILE: commands.dfy ===
/**
  The chat commands: what follows the leading ':' is matched against the
  keywords in a fixed order, and the first match wins.
 */
module Commands {
  import opened Common
  import opened Text

  datatype Command =
    | Reset | Roll | Tri | CloseAll | TwentyOne | Thirteen
    | At(extra: string) | Verify | ShowCommands | ChatOn | ChatOff

  /**
    The `switch` of `onChatMessage`, case by case: suffix "reset", "roll",
    "tri", "close", "21", "13", then prefix "@", then suffix "verify",
    "commands", "chaton", "chatoff". `None` is a message no case matches.
   */
  function Parse(command: string): (r: Option<Command>)
    ensures r.Some? && r.value.At? ==> HasPrefix(command, "@")
    ensures r.Some? && r.value.At? ==> r.value.extra == TrimSpace(command[1..])
  {
    if HasSuffix(command, "reset") then Some(Reset)
    else if HasSuffix(command, "roll") then Some(Roll)
    else if HasSuffix(command, "tri") then Some(Tri)
    else if HasSuffix(command, "close") then Some(CloseAll)
    else if HasSuffix(command, "21") then Some(TwentyOne)
    else if HasSuffix(command, "13") then Some(Thirteen)
    else if HasPrefix(command, "@") then Some(At(TrimSpace(TrimPrefix(command, "@"))))
    else if HasSuffix(command, "verify") then Some(Verify)
    else if HasSuffix(command, "commands") then Some(ShowCommands)
    else if HasSuffix(command, "chaton") then Some(ChatOn)
    else if HasSuffix(command, "chatoff") then Some(ChatOff)
    else None
  }

  /** One row of the command table: a keyword the command must end with, or the '@' prefix. */
  datatype Rule = Suffix(word: string, cmd: Command) | AtPrefix

  /** The number of rows of the command table. */
  const RuleCount: nat := 11

  /** The command table in priority order: row `k` (rows past the last repeat it). */
  function RuleAt(k: nat): Rule {
    if k == 0 then Suffix("reset", Reset)
    else if k == 1 then Suffix("roll", Roll)
    else if k == 2 then Suffix("tri", Tri)
    else if k == 3 then Suffix("close", CloseAll)
    else if k == 4 then Suffix("21", TwentyOne)
    else if k == 5 then Suffix("13", Thirteen)
    else if k == 6 then AtPrefix
    else if k == 7 then Suffix("verify", Verify)
    else if k == 8 then Suffix("commands", ShowCommands)
    else if k == 9 then Suffix("chaton", ChatOn)
    else Suffix("chatoff", ChatOff)
  }

  predicate Matches(rule: Rule, command: string) {
    match rule
    case Suffix(w, _) => HasSuffix(command, w)
    case AtPrefix => HasPrefix(command, "@")
  }

  function Selected(rule: Rule, command: string): Command
    requires Matches(rule, command)
  {
    match rule
    case Suffix(_, c) => c
    case AtPrefix => At(TrimSpace(command[1..]))
  }

  /** The command of the first of rows `i` to `n - 1` of `table` that matches, scanning in order. */
  function FirstMatch(table: nat -> Rule, n: nat, i: nat, command: string): Option<Command>
    decreases n - i
  {
    if i >= n then None
    else if Matches(table(i), command) then Some(Selected(table(i), command))
    else FirstMatch(table, n, i + 1, command)
  }

  /** The scan finds nothing exactly when no row matches, and otherwise the first row that does. */
  lemma {:induction false} FirstMatchIsFirst(table: nat -> Rule, n: nat, i: nat, command: string)
    ensures var r := FirstMatch(table, n, i, command);
      && (r.None? <==> forall k :: i <= k < n ==> !Matches(table(k), command))
      && (r.Some? ==> exists k :: (i <= k < n && Matches(table(k), command)
        && r.value == Selected(table(k), command)
        && forall m :: i <= m < k ==> !Matches(table(m), command)))
    decreases n - i
  {
    if i < n {
      if Matches(table(i), command) {
        assert i <= i < n && Matches(table(i), command)
          && FirstMatch(table, n, i, command).value == Selected(table(i), command);
      } else {
        FirstMatchIsFirst(table, n, i + 1, command);
        var r := FirstMatch(table, n, i + 1, command);
        if r.Some? {
          var k :| i + 1 <= k < n && Matches(table(k), command)
            && r.value == Selected(table(k), command)
            && forall m :: i + 1 <= m < k ==> !Matches(table(m), command);
          assert forall m :: i <= m < k ==> !Matches(table(m), command);
        }
      }
    }
  }

  /** None of the six suffix rows in front of the '@' row. */
  predicate NoEarlySuffix(c: string) {
    !HasSuffix(c, "reset") && !HasSuffix(c, "roll") && !HasSuffix(c, "tri")
    && !HasSuffix(c, "close") && !HasSuffix(c, "21") && !HasSuffix(c, "13")
  }

  lemma ParseEarly(c: string)
    requires !NoEarlySuffix(c)
    ensures Parse(c) == FirstMatch(RuleAt, RuleCount, 0, c)
  {
  }

  lemma ParseLate(c: string)
    requires NoEarlySuffix(c)
    ensures Parse(c) == FirstMatch(RuleAt, RuleCount, 0, c)
  {
  }

  /** The switch is the table: the parsed command is the first row that matches. */
  lemma ParseIsFirstMatch(c: string)
    ensures Parse(c) == FirstMatch(RuleAt, RuleCount, 0, c)
  {
    if NoEarlySuffix(c) {
      ParseLate(c);
    } else {
      ParseEarly(c);
    }
  }

  /** ":@21" ends with "21", which comes before the '@' rule: it starts a 21 game. */
  lemma AtTwentyOneIsTwentyOne()
    ensures Parse("@21") == Some(TwentyOne)
  {
    assert HasSuffix("@21", "21");
  }

  /** `strings.TrimSpace` drops a trailing no-break space too: ":@ 5" followed by U+00A0 announces "5". */
  lemma AtTrimsNoBreakSpace()
    ensures Parse("@ 5\U{A0}") == Some(At("5"))
  {
    var c := "@ 5\U{A0}";
    NoSuffixes(c);
    ParseAt(c);
    assert c[1..] == " 5\U{A0}";
    TrimNoBreakSpace();
  }

  /** A command that starts with '@' and ends with none of the six game keywords is an announcement. */
  lemma ParseAt(c: string)
    requires HasPrefix(c, "@")
    requires !HasSuffix(c, "reset") && !HasSuffix(c, "roll") && !HasSuffix(c, "tri")
    requires !HasSuffix(c, "close") && !HasSuffix(c, "21") && !HasSuffix(c, "13")
    ensures Parse(c) == Some(At(TrimSpace(c[1..])))
  {
  }

  /** "@ 5" followed by U+00A0 ends with a no-break space, so no game keyword matches it. */
  lemma NoSuffixes(c: string)
    requires c == "@ 5\U{A0}"
    ensures !HasSuffix(c, "reset") && !HasSuffix(c, "roll") && !HasSuffix(c, "tri")
    ensures !HasSuffix(c, "close") && !HasSuffix(c, "21") && !HasSuffix(c, "13")
  {
    assert c[|c| - 1] == '\U{A0}';
  }

  /** U+00A0 is white space for `strings.TrimSpace`. */
  lemma TrimNoBreakSpace()
    ensures TrimSpace(" 5\U{A0}") == "5"
  {
    TrimLeadingSpace();
    TrimTrailingNoBreakSpace();
  }

  lemma TrimLeadingSpace()
    ensures TrimLeft(" 5\U{A0}") == "5\U{A0}"
  {
    var s := " 5\U{A0}";
    assert IsSpace(s[0]) && s[1..] == "5\U{A0}";
    assert !IsSpace('5');
  }

  lemma TrimTrailingNoBreakSpace()
    ensures TrimRight("5\U{A0}") == "5"
  {
    var l := "5\U{A0}";
    assert IsSpace(l[1]) && l[..1] == "5";
    assert !IsSpace('5');
  }
}

=== FILE: common.dfy ===
/**
  Shared vocabulary of the dice plugin model: optional values, bytes, the two
  client variants and Go's 64-bit `int`.
 */
module Common {

  /** The conventional Some/None wrapper; `None` stands for a dropped packet or a panic. */
  datatype Option<+T> = None | Some(value: T)

  /** A byte of a packet payload. */
  type byte = x: int | 0 <= x < 256

  /** The two wire encodings: Flash (legacy, binary) and Origins (Shockwave, text). */
  datatype Variant = Flash | Origins

  /** How many dice a registry of the variant holds: 3 for Flash, 5 for Origins. */
  function MaxDice(v: Variant): (n: nat)
    ensures n == 3 || n == 5
    ensures v.Flash? <==> n == 3
  {
    if v.Flash? then 3 else 5
  }

  const Int64Min: int := -0x8000_0000_0000_0000
  const Int64Max: int := 0x7FFF_FFFF_FFFF_FFFF
  const TwoTo32: int := 0x1_0000_0000
  const TwoTo64: int := 0x1_0000_0000_0000_0000

  predicate IsInt64(x: int) {
    Int64Min <= x <= Int64Max
  }

  /** Two's-complement wrap-around of Go's 64-bit `int` arithmetic. */
  function Wrap64(x: int): (r: int)
    ensures IsInt64(r)
    ensures (r - x) % TwoTo64 == 0
    ensures IsInt64(x) ==> r == x
  {
    var m := (x - Int64Min) % TwoTo64;
    m + Int64Min
  }

  lemma Wrap64Add(x: int, y: int)
    ensures Wrap64(Wrap64(x) + y) == Wrap64(x + y)
  {
    var w := Wrap64(x);
    assert (w - x) % TwoTo64 == 0;
    var a, b := Wrap64(w + y), Wrap64(x + y);
    assert (a - (w + y)) % TwoTo64 == 0;
    assert (b - (x + y)) % TwoTo64 == 0;
    Congruent64(a, b, (a - (w + y)) / TwoTo64 - (b - (x + y)) / TwoTo64 + (w - x) / TwoTo64);
  }

  /** Two 64-bit integers congruent modulo 2^64 are equal. */
  lemma Congruent64(a: int, b: int, k: int)
    requires IsInt64(a) && IsInt64(b)
    requires a - b == k * TwoTo64
    ensures a == b
  {
  }

  /** Integers congruent modulo 2^64 wrap to the same 64-bit value. */
  lemma Wrap64Congruent(a: int, b: int)
    requires (a - b) % TwoTo64 == 0
    ensures Wrap64(a) == Wrap64(b)
  {
    var ra, rb := Wrap64(a), Wrap64(b);
    assert (ra - a) % TwoTo64 == 0;
    assert (rb - b) % TwoTo64 == 0;
    Congruent64(ra, rb, (ra - a) / TwoTo64 - (rb - b) / TwoTo64 + (a - b) / TwoTo64);
  }
}

=== FILE: decimal.dfy ===
/**
  Decimal text of Go integers: `strconv.Itoa` / `fmt.Sprintf("%d")` and
  `strconv.Atoi`, with the round trip between them.
 */
module Decimal {
  import opened Common

  predicate IsDigit(c: char) {
    '0' <= c <= '9'
  }

  predicate AllDigits(s: string) {
    forall i :: 0 <= i < |s| ==> IsDigit(s[i])
  }

  /** The characters decimal text of an integer is made of. */
  predicate IsNumeralChar(c: char) {
    IsDigit(c) || c == '-'
  }

  function DigitChar(d: nat): (c: char)
    requires d < 10
    ensures IsDigit(c)
    ensures c as int - '0' as int == d
  {
    ('0' as int + d) as char
  }

  function DigitValue(c: char): (d: nat)
    requires IsDigit(c)
    ensures d < 10
    ensures DigitChar(d) == c
  {
    c as int - '0' as int
  }

  /** Digits without leading zeros: the decimal text of a natural number. */
  predicate IsCanonicalNat(s: string) {
    |s| >= 1 && AllDigits(s) && (|s| > 1 ==> s[0] != '0')
  }

  /** Decimal text as `strconv.Itoa` writes it: a '-' only before a non-zero magnitude. */
  predicate IsCanonical(s: string) {
    if |s| > 0 && s[0] == '-' then IsCanonicalNat(s[1..]) && s[1..] != "0" else IsCanonicalNat(s)
  }

  /** Decimal digits of a natural number, without leading zeros ("0" for zero). */
  function NatToDigits(n: nat): (s: string)
    ensures IsCanonicalNat(s)
    ensures s[0] == '0' <==> n == 0
    decreases n
  {
    if n < 10 then [DigitChar(n)] else NatToDigits(n / 10) + [DigitChar(n % 10)]
  }

  /** `strconv.Itoa`: an optional minus sign followed by the digits of the magnitude. */
  function Itoa(n: int): (s: string)
    ensures |s| >= 1
    ensures forall i :: 0 <= i < |s| ==> IsNumeralChar(s[i])
    ensures n >= 0 <==> IsDigit(s[0])
    ensures n < 0 <==> s[0] == '-'
    ensures IsCanonical(s)
  {
    if n < 0 then "-" + NatToDigits(-n) else NatToDigits(n)
  }

  /** The value of a string of digits read most significant first. */
  function DigitsValue(s: string): (v: nat)
    requires AllDigits(s)
    decreases |s|
  {
    if |s| == 0 then 0 else DigitsValue(s[..|s| - 1]) * 10 + DigitValue(s[|s| - 1])
  }

  /**
    `strconv.Atoi` on a 64-bit platform: an optional '+' or '-', then one or
    more ASCII digits (leading zeros allowed), the value in int64 range;
    anything else is a parse error (`None`).
   */
  function Atoi(s: string): (r: Option<int>)
    ensures r.Some? ==> IsInt64(r.value)
    ensures |s| == 0 ==> r.None?
    ensures r.Some? ==> forall i :: 0 <= i < |s| ==> IsDigit(s[i]) || (i == 0 && (s[i] == '-' || s[i] == '+'))
  {
    if |s| == 0 then None
    else
      var neg := s[0] == '-';
      var body := if s[0] == '-' || s[0] == '+' then s[1..] else s;
      if |body| == 0 || !AllDigits(body) then None
      else
        var mag: int := DigitsValue(body);
        var v := if neg then -mag else mag;
        if IsInt64(v) then Some(v) else None
  }

  lemma {:induction false} DigitsValueOfNat(n: nat)
    ensures DigitsValue(NatToDigits(n)) == n
    decreases n
  {
    if n >= 10 {
      var s := NatToDigits(n);
      DigitsValueOfNat(n / 10);
      assert s[..|s| - 1] == NatToDigits(n / 10);
    }
  }

  /** Digits read as their value, with or without a minus sign in front. */
  lemma AtoiDigits(body: string, v: int)
    requires |body| >= 1 && AllDigits(body) && v == DigitsValue(body)
    ensures IsInt64(v) ==> Atoi(body) == Some(v)
    ensures IsInt64(-v) ==> Atoi("-" + body) == Some(-v)
  {
    assert body[0] != '-' && body[0] != '+';
    var s := "-" + body;
    assert s[0] == '-' && s[1..] == body;
  }

  /** Reading back the decimal text of any 64-bit integer gives the integer. */
  lemma AtoiItoa(n: int)
    requires IsInt64(n)
    ensures Atoi(Itoa(n)) == Some(n)
  {
    if n < 0 {
      DigitsValueOfNat(-n);
      AtoiDigits(NatToDigits(-n), -n);
    } else {
      DigitsValueOfNat(n);
      AtoiDigits(NatToDigits(n), n);
    }
  }

  /** Different integers have different decimal text. */
  lemma ItoaInjective(a: int, b: int)
    requires IsInt64(a) && IsInt64(b)
    requires Itoa(a) == Itoa(b)
    ensures a == b
  {
    AtoiItoa(a);
    AtoiItoa(b);
  }

  /** Digits that do not start with '0' have a positive value. */
  lemma {:induction false} DigitsValuePositive(s: string)
    requires |s| >= 1 && AllDigits(s) && s[0] != '0'
    ensures DigitsValue(s) >= 1
    decreases |s|
  {
    if |s| > 1 {
      var init := s[..|s| - 1];
      assert init[0] == s[0];
      DigitsValuePositive(init);
    } else {
      assert DigitChar(DigitValue(s[0])) == s[0];
    }
  }

  /** Digits without leading zeros are the decimal text of their value. */
  lemma {:induction false} CanonicalNatDigits(s: string)
    requires IsCanonicalNat(s)
    ensures NatToDigits(DigitsValue(s)) == s
    decreases |s|
  {
    var n := DigitsValue(s);
    var d := DigitValue(s[|s| - 1]);
    if |s| == 1 {
      assert n == d;
    } else {
      var init := s[..|s| - 1];
      assert init[0] == s[0];
      DigitsValuePositive(init);
      CanonicalNatDigits(init);
      var m := DigitsValue(init);
      assert n == m * 10 + d && n >= 10;
      assert n / 10 == m && n % 10 == d;
      assert s == init + [s[|s| - 1]];
    }
  }

  /** Canonical decimal text is the only text `strconv.Itoa` writes for the value it reads as. */
  lemma CanonicalIsItoa(s: string)
    requires IsCanonical(s) && Atoi(s).Some?
    ensures s == Itoa(Atoi(s).value)
  {
    if s[0] == '-' {
      var body := s[1..];
      CanonicalNatDigits(body);
      if |body| == 1 {
        assert body[0] != '0';
      }
      DigitsValuePositive(body);
      assert s == "-" + body;
    } else {
      CanonicalNatDigits(s);
    }
  }

  /** So two canonical texts that read as the same value are the same text. */
  lemma CanonicalUnique(s: string, t: string)
    requires IsCanonical(s) && IsCanonical(t)
    requires Atoi(s).Some? && Atoi(s) == Atoi(t)
    ensures s == t
  {
    CanonicalIsItoa(s);
    CanonicalIsItoa(t);
  }
}

=== FILE: dice.dfy ===
/**
  A die of the booth and the two packets it sends: throw (roll) and off
  (close). Flash sends the id as four big-endian bytes, Origins as its
  decimal text.
 */
module Dice {
  import opened Common
  import opened Decimal
  import opened Wire

  datatype Die = Die(id: int, value: int, isClosed: bool, isRolling: bool)

  /** The outbound packet headers the plugin uses, one per client variant where they differ. */
  datatype Header =
    | FlashThrowDice | OriginsThrowDice
    | FlashDiceOff | OriginsDiceOff
    | FlashShout | OriginsShout
    | FlashBroadcast | OriginsBroadcast

  /** A packet's payload: raw bytes, or a string the client library encodes itself. */
  datatype Payload = Bytes(data: seq<byte>) | Str(text: string)

  datatype Packet = Packet(header: Header, payload: Payload)

  /** `IsValid`: a die with id 0 has not been seen on the wire. */
  predicate IsValid(d: Die) {
    d.id != 0
  }

  function ThrowHeader(v: Variant): Header {
    if v.Flash? then FlashThrowDice else OriginsThrowDice
  }

  function OffHeader(v: Variant): Header {
    if v.Flash? then FlashDiceOff else OriginsDiceOff
  }

  lemma ItoaAscii(n: int)
    ensures IsAscii(Itoa(n))
  {
    var s := Itoa(n);
    forall i | 0 <= i < |s| ensures s[i] as int < 0x80 {
      assert IsNumeralChar(s[i]);
    }
  }

  /** The id as the variant writes it: `uint32(id)` big-endian, or `fmt.Sprintf("%d", id)` as bytes. */
  function IdPayload(v: Variant, id: int): (b: seq<byte>)
    ensures v.Flash? ==> |b| == 4
    ensures v.Origins? ==> |b| == |Itoa(id)|
  {
    if v.Flash? then PutUint32(Truncate32(id))
    else
      ItoaAscii(id);
      BytesOf(Itoa(id))
  }

  /** A die after a call, with the one packet the call sent. */
  datatype Sent = Sent(die: Die, packet: Packet)

  /**
    `Roll`: `None` is the "no dice id" error, on which nothing is sent and the
    die is unchanged; otherwise one throw packet goes out and the die is
    rolling and open.
   */
  function Roll(v: Variant, d: Die): (r: Option<Sent>)
    ensures r.None? <==> !IsValid(d)
    ensures r.Some? ==>
      r.value.die.id == d.id && r.value.die.value == d.value
      && r.value.die.isRolling && !r.value.die.isClosed
    ensures r.Some? ==> r.value.packet.header == ThrowHeader(v)
    ensures r.Some? ==> r.value.packet.payload == Bytes(IdPayload(v, d.id))
  {
    if d.id == 0 then None
    else Some(Sent(d.(isRolling := true, isClosed := false), Packet(ThrowHeader(v), Bytes(IdPayload(v, d.id)))))
  }

  /**
    `Close`: `None` is the "no dice id" error; otherwise one off packet goes
    out and the die is closed, its other fields kept.
   */
  function Close(v: Variant, d: Die): (r: Option<Sent>)
    ensures r.None? <==> !IsValid(d)
    ensures r.Some? ==>
      r.value.die.id == d.id && r.value.die.value == d.value
      && r.value.die.isRolling == d.isRolling && r.value.die.isClosed
    ensures r.Some? ==> r.value.packet.header == OffHeader(v)
    ensures r.Some? ==> r.value.packet.payload == Bytes(IdPayload(v, d.id))
  {
    if d.id == 0 then None
    else Some(Sent(d.(isClosed := true), Packet(OffHeader(v), Bytes(IdPayload(v, d.id)))))
  }

  /** Closing a closed die again leaves it as it was, and sends the same packet again. */
  lemma CloseTwice(v: Variant, d: Die)
    requires IsValid(d)
    ensures Close(v, Close(v, d).value.die).Some?
    ensures Close(v, Close(v, d).value.die) == Close(v, d)
  {
  }

  /** Closing an open die changes it; closing only ever sets the closed flag. */
  lemma CloseChangesOnlyClosed(v: Variant, d: Die)
    requires IsValid(d)
    ensures Close(v, d).value.die == d <==> d.isClosed
  {
  }

  /** Roll then Close: the die ends closed but still marked rolling, each call sending one packet. */
  lemma RollThenClose(v: Variant, d: Die)
    requires IsValid(d)
    ensures var r := Roll(v, d).value.die;
      Close(v, r).Some? && Close(v, r).value.die == Die(d.id, d.value, true, true)
  {
  }
}

=== FILE: dispatch.dfy ===
/**
  The chat dispatcher and the window's action buttons: the busy guard, the
  command table, and what each command does before its flow starts.
 */
module Dispatch {
  import opened Common
  import opened Text
  import opened Session
  import opened LogRing
  import Commands

  /** The flow a command starts in the background (a `go` statement in the plugin). */
  datatype Job =
    | PokerJob | PokerFlashJob | TriJob | CloseJob | TwentyOneJob | ThirteenJob
    | AtJob(extra: string) | VerifyJob | CommandsJob

  /** The flows that raise a flag of their own before they start. */
  predicate StartsGame(j: Job) {
    j.PokerJob? || j.PokerFlashJob? || j.TriJob? || j.TwentyOneJob? || j.ThirteenJob?
  }

  /** The state after a chat message, whether the message was kept from the server, and the flow started. */
  datatype Reaction = Reaction(state: State, blocked: bool, job: Option<Job>)

  /** The poker flow of the variant. */
  function PokerJobOf(v: Variant): Job {
    if v.Origins? then PokerJob else PokerFlashJob
  }

  /** A flow's flag raised and its opening line logged. */
  function Raised(s: State, f: Flags, line: string): (r: State)
    ensures r.flags == f && r.log == Append(s.log, line)
    ensures r.(flags := s.flags, log := s.log) == s
    ensures |s.log| <= LogCapacity ==> |r.log| <= LogCapacity
  {
    s.(flags := f, log := Append(s.log, line))
  }

  /**
    One branch of the dispatch switch: every matched command is blocked.
    `reset` empties the registry and lowers every flag; a game command raises
    its own flag, logs its opening line and starts its flow; `close`, `@`,
    `verify` and `commands` only start their flow; `chaton` / `chatoff` only
    set the chat switch.
   */
  function Begin(s: State, c: Commands.Command): (r: Reaction)
    ensures r.blocked
    ensures c.Reset? ==> r.state == Session.Reset(s) && r.state.log == s.log && r.job.None?
    ensures c.Roll? ==>
      r.state.flags == s.flags.(poker := true) && r.state.log == Append(s.log, "Poker Roll:\n")
      && r.job == Some(if s.variant.Flash? then PokerFlashJob else PokerJob)
    ensures c.Tri? ==>
      r.state.flags == s.flags.(tri := true) && r.state.log == Append(s.log, "Tri Roll:\n") && r.job == Some(TriJob)
    ensures c.TwentyOne? ==>
      r.state.flags == s.flags.(bj := true) && r.state.log == Append(s.log, "21 Roll:\n") && r.job == Some(TwentyOneJob)
    ensures c.Thirteen? ==>
      r.state.flags == s.flags.(thirteen := true) && r.state.log == Append(s.log, "13 Roll:\n")
      && r.job == Some(ThirteenJob)
    ensures c.Roll? || c.Tri? || c.TwentyOne? || c.Thirteen? ==>
      r.state.dice == s.dice && r.state.chatDisabled == s.chatDisabled
    ensures c.CloseAll? || c.At? || c.Verify? || c.ShowCommands? ==> r.state == s
    ensures c.CloseAll? ==> r.job == Some(CloseJob)
    ensures c.At? ==> r.job == Some(AtJob(c.extra))
    ensures c.Verify? ==> r.job == Some(VerifyJob)
    ensures c.ShowCommands? ==> r.job == Some(CommandsJob)
    ensures c.ChatOn? ==> r.state == s.(chatDisabled := false) && r.job.None?
    ensures c.ChatOff? ==> r.state == s.(chatDisabled := true) && r.job.None?
  {
    match c
    case Reset => Reaction(Session.Reset(s), true, None)
    case Roll => Reaction(Raised(s, s.flags.(poker := true), "Poker Roll:\n"), true, Some(PokerJobOf(s.variant)))
    case Tri => Reaction(Raised(s, s.flags.(tri := true), "Tri Roll:\n"), true, Some(TriJob))
    case CloseAll => Reaction(s, true, Some(CloseJob))
    case TwentyOne => Reaction(Raised(s, s.flags.(bj := true), "21 Roll:\n"), true, Some(TwentyOneJob))
    case Thirteen => Reaction(Raised(s, s.flags.(thirteen := true), "13 Roll:\n"), true, Some(ThirteenJob))
    case At(extra) => Reaction(s, true, Some(AtJob(extra)))
    case Verify => Reaction(s, true, Some(VerifyJob))
    case ShowCommands => Reaction(s, true, Some(CommandsJob))
    case ChatOn => Reaction(s.(chatDisabled := false), true, None)
    case ChatOff => Reaction(s.(chatDisabled := true), true, None)
  }

  /**
    What every branch of the switch shares: nothing is sent, the sum, the
    next slot and the mute flag are kept, the registry is kept or emptied,
    the log stays within capacity, and a game flow starts only with its flag
    raised.
   */
  lemma {:induction false} BeginFrame(s: State, c: Commands.Command)
    ensures var r := Begin(s, c);
      && r.state.sent == s.sent && r.state.variant == s.variant
      && r.state.sum == s.sum && r.state.next == s.next && r.state.muted == s.muted
      && (r.state.dice == s.dice || r.state.dice == [])
      && (|s.log| <= LogCapacity ==> |r.state.log| <= LogCapacity)
      && (r.job.Some? && StartsGame(r.job.value) ==> Busy(r.state.flags))
  {
    var r := Begin(s, c);
    match c
    case Reset =>
    case Roll => AppendWithin(s.log, "Poker Roll:\n");
    case Tri => AppendWithin(s.log, "Tri Roll:\n");
    case TwentyOne => AppendWithin(s.log, "21 Roll:\n");
    case Thirteen => AppendWithin(s.log, "13 Roll:\n");
    case _ =>
  }

  /**
    `onChatMessage`: a message without the leading ':' passes untouched; while
    any flow flag is set every ':' message is blocked and nothing changes;
    otherwise the command after the ':' is looked up, and a message no
    command matches passes untouched. The dispatcher itself sends nothing.
   */
  function OnChat(s: State, msg: string): (r: Reaction)
    ensures !HasPrefix(msg, ":") ==> r == Reaction(s, false, None)
    ensures HasPrefix(msg, ":") && Busy(s.flags) ==> r == Reaction(s, true, None)
    ensures HasPrefix(msg, ":") && !Busy(s.flags) ==> (r.blocked <==> Commands.Parse(TrimPrefix(msg, ":")).Some?)
    ensures !r.blocked ==> r.state == s && r.job.None?
    ensures r.state.sent == s.sent && r.state.variant == s.variant
    ensures r.state.dice == s.dice || r.state.dice == []
    ensures r.state.sum == s.sum && (|s.log| <= LogCapacity ==> |r.state.log| <= LogCapacity)
    ensures r.job.Some? && StartsGame(r.job.value) ==> Busy(r.state.flags)
  {
    if !HasPrefix(msg, ":") then Reaction(s, false, None)
    else if Busy(s.flags) then Reaction(s, true, None)
    else
      match Commands.Parse(TrimPrefix(msg, ":"))
      case None => Reaction(s, false, None)
      case Some(c) => BeginFrame(s, c); Begin(s, c)
  }

  /** With no flow running, a ':' message does what the first matching row of the command table says. */
  lemma DispatchFollowsTable(s: State, msg: string)
    requires HasPrefix(msg, ":") && !Busy(s.flags)
    ensures var m := Commands.FirstMatch(Commands.RuleAt, Commands.RuleCount, 0, msg[1..]);
      OnChat(s, msg) == if m.None? then Reaction(s, false, None) else Begin(s, m.value)
  {
    Commands.ParseIsFirstMatch(msg[1..]);
  }

  /** ":@21" starts the 21 game: its "21" suffix is matched before the '@' prefix. */
  lemma AtTwentyOneStartsTwentyOne(s: State)
    requires !Busy(s.flags)
    ensures OnChat(s, ":@21").job == Some(TwentyOneJob)
    ensures OnChat(s, ":@21").state.flags.bj
  {
    assert HasPrefix(":@21", ":");
    assert ":@21"[1..] == "@21";
    Commands.AtTwentyOneIsTwentyOne();
  }

  /** Starting a game flow raises a flag, so every ':' message after it is blocked until the flow ends. */
  lemma StartedFlowBlocksCommands(s: State, msg: string, next: string)
    requires HasPrefix(next, ":")
    requires OnChat(s, msg).job.Some? && StartsGame(OnChat(s, msg).job.value)
    ensures OnChat(OnChat(s, msg).state, next) == Reaction(OnChat(s, msg).state, true, None)
  {
  }

  /** `:reset` ends every flow and empties the registry, however it is spelt before the "reset". */
  lemma ResetIsIdle(s: State, msg: string)
    requires HasPrefix(msg, ":") && HasSuffix(msg, "reset") && !Busy(s.flags)
    ensures OnChat(s, msg).state == Session.Reset(s)
    ensures !Busy(OnChat(s, msg).state.flags) && OnChat(s, msg).state.dice == []
  {
    assert msg[0] == ':' && msg[|msg| - 5] == 'r';
    assert HasSuffix(msg[1..], "reset") by {
      assert msg[1..][|msg[1..]| - 5..] == msg[|msg| - 5..];
    }
  }

  /**
    `HandleAction`, the window's buttons: ignored while busy; "poker", "tri",
    "21" and "13" start their flows as the chat commands do; any other action does nothing. Nothing is blocked: there is no packet.
   */
  function OnAction(s: State, action: string): (r: Reaction)
    ensures Busy(s.flags) ==> r == Reaction(s, false, None)
    ensures action !in {"poker", "tri", "21", "13"} ==> r == Reaction(s, false, None)
    ensures !r.blocked
  {
    if Busy(s.flags) then Reaction(s, false, None)
    else if action == "poker" then Begin(s, Commands.Roll).(blocked := false)
    else if action == "tri" then Begin(s, Commands.Tri).(blocked := false)
    else if action == "21" then Begin(s, Commands.TwentyOne).(blocked := false)
    else if action == "13" then Begin(s, Commands.Thirteen).(blocked := false)
    else Reaction(s, false, None)
  }

  lemma ParseGameWords()
    ensures Commands.Parse("roll") == Some(Commands.Roll)
    ensures Commands.Parse("tri") == Some(Commands.Tri)
    ensures Commands.Parse("21") == Some(Commands.TwentyOne)
    ensures Commands.Parse("13") == Some(Commands.Thirteen)
  {
    assert HasSuffix("roll", "roll");
    assert HasSuffix("tri", "tri");
    assert HasSuffix("21", "21");
    assert !HasSuffix("13", "21") by {
      assert "13"[0] != "21"[0];
    }
    assert HasSuffix("13", "13");
  }

  /** A button and the matching chat command leave the same state and start the same flow. */
  lemma ActionAgreesWithChat(s: State, action: string, msg: string)
    requires !Busy(s.flags)
    requires (action, msg) in {("poker", ":roll"), ("tri", ":tri"), ("21", ":21"), ("13", ":13")}
    ensures OnAction(s, action).state == OnChat(s, msg).state
    ensures OnAction(s, action).job == OnChat(s, msg).job
  {
    ParseGameWords();
    assert HasPrefix(msg, ":");
    assert TrimPrefix(msg, ":") == msg[1..];
    assert ":roll"[1..] == "roll" && ":tri"[1..] == "tri" && ":21"[1..] == "21" && ":13"[1..] == "13";
  }

  /** Dispatch keeps the registry well formed and the log within capacity. */
  lemma DispatchKeepsInvariant(s: State, msg: string)
    requires Invariant(s)
    ensures Invariant(OnChat(s, msg).state)
  {
  }
}

=== FILE: flows.dfy ===
/**
  The background flows between their waits: the dice-count guards, which
  dice each flow rolls, the 21/13 hit loop, and the evaluations that log and
  announce a result. A flow's wait for results is the gap between two of
  these functions; the results themselves arrive through
  `Session.OnResultPacket`.
 */
module Flows {
  import opened Common
  import opened Decimal
  import opened Dice
  import opened Registry
  import opened LogRing
  import opened Batch
  import opened Session
  import Hand
  import HandFacts

  /** The guard every flow starts with: the registry holds the variant's full set of dice. */
  predicate Full(s: State) {
    |s.dice| >= MaxDice(s.variant)
  }

  /** The values of the dice, in registry order. */
  function Values(dice: Registry): (vs: seq<int>)
    ensures |vs| == |dice| && forall i :: 0 <= i < |dice| ==> vs[i] == dice[i].value
  {
    seq(|dice|, i requires 0 <= i < |dice| => dice[i].value)
  }

  /** The dice at `idx` rolled, one after another. */
  function RollAt(s: State, idx: seq<nat>): (r: State)
    requires InRange(idx, |s.dice|)
    ensures var o := ApplyAt(s.variant, RollAct, s.dice, idx);
      r.dice == o.dice && r.sent == s.sent + o.sent
    ensures r.(dice := s.dice, sent := s.sent) == s
  {
    var o := ApplyAt(s.variant, RollAct, s.dice, idx);
    s.(dice := o.dice, sent := s.sent + o.sent)
  }

  /** Every packet sent after the first `n` is a throw packet of the variant. */
  predicate ThrowsOnlyAfter(s: State, n: nat) {
    n <= |s.sent| && forall k :: n <= k < |s.sent| ==> s.sent[k].header == ThrowHeader(s.variant)
  }

  /** The dice a flow rolled: every valid die listed is rolling and open, every other die as it was. */
  predicate RolledAt(before: Registry, after: Registry, idx: seq<nat>) {
    |after| == |before|
    && (forall j :: 0 <= j < |before| && j !in idx ==> after[j] == before[j])
    && (forall j :: 0 <= j < |before| && j in idx && IsValid(before[j]) ==> after[j].isRolling && !after[j].isClosed)
    && (forall j :: 0 <= j < |before| ==> after[j].id == before[j].id && after[j].value == before[j].value)
  }

  lemma RollAtRolls(s: State, idx: seq<nat>)
    requires InRange(idx, |s.dice|)
    ensures RolledAt(s.dice, RollAt(s, idx).dice, idx)
    ensures ThrowsOnlyAfter(RollAt(s, idx), |s.sent|)
    ensures |RollAt(s, idx).sent| <= |s.sent| + |idx|
    ensures AllValidAt(s.dice, idx) ==> |RollAt(s, idx).sent| == |s.sent| + |idx|
  {
    var o := ApplyAt(s.variant, RollAct, s.dice, idx);
    var r := RollAt(s, idx);
    forall k | |s.sent| <= k < |r.sent| ensures r.sent[k].header == ThrowHeader(s.variant) {
      assert r.sent[k] == o.sent[k - |s.sent|];
    }
  }

  /**
    `rollPokerDice` / `rollPokerDiceFlash` up to their first wait: too few
    dice clears the poker flag and rolls nothing; otherwise every die is
    rolled, in order.
   */
  function StartPoker(s: State): (r: State)
    ensures !Full(s) ==> r == s.(flags := s.flags.(poker := false))
    ensures Full(s) ==> |r.dice| == |s.dice| && ThrowsOnlyAfter(r, |s.sent|)
    ensures Full(s) ==> forall j :: 0 <= j < |s.dice| ==>
      r.dice[j].id == s.dice[j].id && r.dice[j].value == s.dice[j].value
      && (IsValid(s.dice[j]) ==> r.dice[j].isRolling && !r.dice[j].isClosed)
      && (!IsValid(s.dice[j]) ==> r.dice[j] == s.dice[j])
    ensures Full(s) ==> r.flags == s.flags && r.log == s.log
    ensures Full(s) ==> r.(dice := s.dice, sent := s.sent) == s
    ensures Full(s) && AllValidAt(s.dice, Indices(|s.dice|)) ==> |r.sent| == |s.sent| + |s.dice|
  {
    if !Full(s) then s.(flags := s.flags.(poker := false))
    else
      var idx := Indices(|s.dice|);
      RollAtRolls(s, idx);
      var r := RollAt(s, idx);
      assert forall j :: 0 <= j < |s.dice| && !IsValid(s.dice[j]) ==> r.dice[j] == s.dice[j];
      r
  }

  /** The second throw of the Flash poker flow: dice 0 and 1 again, for the fourth and fifth values. */
  function RerollFlash(s: State): (r: State)
    requires Full(s)
    ensures RolledAt(s.dice, r.dice, [0, 1]) && ThrowsOnlyAfter(r, |s.sent|)
    ensures r.flags == s.flags && r.log == s.log
    ensures r.(dice := s.dice, sent := s.sent) == s
    ensures AllValidAt(s.dice, [0, 1]) ==> |r.sent| == |s.sent| + 2
  {
    RollAtRolls(s, [0, 1]);
    RollAt(s, [0, 1])
  }

  /** `rollTriDice` up to its wait: the variant's three Tri positions are rolled. */
  function StartTri(s: State): (r: State)
    ensures !Full(s) ==> r == s.(flags := s.flags.(tri := false))
    ensures Full(s) ==> RolledAt(s.dice, r.dice, Hand.TriIndices(s.variant))
    ensures Full(s) ==> r.flags == s.flags && ThrowsOnlyAfter(r, |s.sent|)
    ensures Full(s) ==> r.(dice := s.dice, sent := s.sent) == s
    ensures Full(s) && AllValidAt(s.dice, Hand.TriIndices(s.variant)) ==> |r.sent| == |s.sent| + 3
  {
    if !Full(s) then s.(flags := s.flags.(tri := false))
    else
      RollAtRolls(s, Hand.TriIndices(s.variant));
      RollAt(s, Hand.TriIndices(s.variant))
  }

  /** The two sum games. */
  datatype Game = TwentyOne | Thirteen

  /** The sum at which the game stops hitting and reports. */
  function Threshold(g: Game): int {
    if g.TwentyOne? then Hand.Threshold21 else Hand.Threshold13
  }

  /** The first position a hit looks at for a die still showing 0. */
  function HitFrom(g: Game): nat {
    if g.TwentyOne? then 3 else 2
  }

  /** The dice thrown when the game starts. */
  function Opening(g: Game): seq<nat> {
    if g.TwentyOne? then [0, 1, 2] else [0, 1]
  }

  /** Where the re-roll cursor starts. */
  function OpeningCursor(g: Game): nat {
    if g.TwentyOne? then 0 else 2
  }

  function ResultPrefix(g: Game): string {
    if g.TwentyOne? then "21 Result: " else "13 Result: "
  }

  /** The game's flags: its rolling flag and its hitting flag. */
  predicate Playing(f: Flags, g: Game) {
    if g.TwentyOne? then f.bj || f.hitting else f.thirteen || f.thirteenHitting
  }

  function Stopped(f: Flags, g: Game): (r: Flags)
    ensures !Playing(r, g)
  {
    if g.TwentyOne? then f.(bj := false, hitting := false)
    else f.(thirteen := false, thirteenHitting := false)
  }

  /**
    `rollBjDice` / `roll13Dice` up to their wait: too few dice clears the
    game's rolling flag and rolls nothing; otherwise the sum is zeroed, the
    cursor set, and the opening dice thrown.
   */
  function StartGame(s: State, g: Game): (r: State)
    ensures !Full(s) ==> r.dice == s.dice && r.sent == s.sent && r.sum == s.sum
    ensures !Full(s) ==> if g.TwentyOne? then !r.flags.bj else !r.flags.thirteen
    ensures !Full(s) ==> r == s.(flags := if g.TwentyOne? then s.flags.(bj := false) else s.flags.(thirteen := false))
    ensures Full(s) ==> r.sum == 0 && r.next == OpeningCursor(g) && r.flags == s.flags
    ensures Full(s) ==> RolledAt(s.dice, r.dice, Opening(g)) && ThrowsOnlyAfter(r, |s.sent|)
    ensures Full(s) && AllValidAt(s.dice, Opening(g)) ==> |r.sent| == |s.sent| + |Opening(g)|
    ensures Full(s) ==> r.(dice := s.dice, sent := s.sent, sum := s.sum, next := s.next) == s
    ensures r.log == s.log
  {
    if !Full(s) then
      if g.TwentyOne? then s.(flags := s.flags.(bj := false)) else s.(flags := s.flags.(thirteen := false))
    else
      var s1 := s.(sum := 0, next := OpeningCursor(g));
      RollAtRolls(s1, Opening(g));
      RollAt(s1, Opening(g))
  }

  /** Go's `+=` on 64-bit `int`, one value after another. */
  function Accumulate(sum: int, values: seq<int>): int
    decreases |values|
  {
    if |values| == 0 then sum else Accumulate(Wrap64(sum + values[0]), values[1..])
  }

  /** Adding the values one at a time with wrap-around is wrapping the total once. */
  lemma {:induction false} AccumulateIsWrappedSum(sum: int, values: seq<int>)
    requires IsInt64(sum)
    ensures Accumulate(sum, values) == Wrap64(sum + Hand.Sum(values))
    decreases |values|
  {
    if |values| > 0 {
      var w := Wrap64(sum + values[0]);
      AccumulateIsWrappedSum(w, values[1..]);
      Wrap64Add(sum + values[0], Hand.Sum(values[1..]));
      assert sum + values[0] + Hand.Sum(values[1..]) == sum + Hand.Sum(values);
    }
  }

  /** The faces of the dice at `idx`. */
  function FacesAt(dice: Registry, idx: seq<nat>): (fs: seq<int>)
    requires InRange(idx, |dice|)
    ensures |fs| == |idx| && forall k :: 0 <= k < |idx| ==> fs[k] == dice[idx[k]].value
  {
    seq(|idx|, k requires 0 <= k < |idx| => dice[idx[k]].value)
  }

  /** After the opening wait: the opening dice's faces are added to the sum. */
  function TakeOpening(s: State, g: Game): (r: State)
    requires Full(s) && IsInt64(s.sum)
    ensures r.sum == Wrap64(s.sum + Hand.Sum(FacesAt(s.dice, Opening(g))))
    ensures r.(sum := s.sum) == s
  {
    var faces := FacesAt(s.dice, Opening(g));
    AccumulateIsWrappedSum(s.sum, faces);
    s.(sum := Accumulate(s.sum, faces))
  }

  /** A hit's choice: the die to roll, and the cursor afterwards. */
  datatype Pick = Pick(index: nat, next: nat)

  /** The first position in `[from, max)` whose die still shows 0, scanning upwards. */
  function FirstUnrolled(dice: Registry, from: nat, max: nat): (r: Option<nat>)
    requires max <= |dice|
    ensures r.Some? ==> from <= r.value < max && dice[r.value].value == 0
    ensures r.Some? ==> forall j :: from <= j < r.value ==> dice[j].value != 0
    ensures r.None? ==> forall j :: from <= j < max ==> dice[j].value != 0
    decreases max - from
  {
    if from >= max then None
    else if dice[from].value == 0 then Some(from)
    else FirstUnrolled(dice, from + 1, max)
  }

  /**
    The choice in `hitBjDice` / `hit13Dice`: the first die from `from` on that
    still shows 0, leaving the cursor alone; when every one shows a face,
    the die under the cursor, and the cursor moves on by one, modulo `max`.
   */
  function ChooseHit(dice: Registry, from: nat, max: nat, next: nat): (p: Pick)
    requires 0 < max <= |dice|
    ensures p.index < max
    ensures (exists j :: from <= j < max && dice[j].value == 0) ==>
      from <= p.index && dice[p.index].value == 0 && p.next == next
      && forall j :: from <= j < p.index ==> dice[j].value != 0
    ensures (forall j :: from <= j < max ==> dice[j].value != 0) ==>
      p.index == next % max && p.next == (next + 1) % max
  {
    match FirstUnrolled(dice, from, max)
    case Some(i) => Pick(i, next)
    case None => Pick(next % max, (next + 1) % max)
  }

  /** A game's state after a step: and the die it hit, whose result it now waits for. */
  datatype Turn = Turn(state: State, hit: Option<nat>)

  /**
    `hitBjDice` / `hit13Dice` up to their wait: too few dice stops the game;
    otherwise the chosen die is rolled and the cursor updated.
   */
  function HitGame(s: State, g: Game): (t: Turn)
    ensures !Full(s) ==> t == Turn(s.(flags := Stopped(s.flags, g)), None)
    ensures Full(s) ==> t.hit.Some? && t.hit.value < MaxDice(s.variant)
    ensures Full(s) ==> t.state.log == s.log && t.state.sum == s.sum && t.state.flags == s.flags
    ensures Full(s) ==> RolledAt(s.dice, t.state.dice, [t.hit.value]) && ThrowsOnlyAfter(t.state, |s.sent|)
    ensures Full(s) ==> |t.state.sent| <= |s.sent| + 1
    ensures Full(s) ==> t.state.next < MaxDice(s.variant) || t.state.next == s.next
    ensures Full(s) ==> var p := ChooseHit(s.dice, HitFrom(g), MaxDice(s.variant), s.next);
      t.hit == Some(p.index) && t.state.next == p.next
    ensures Full(s) ==> t.state.(dice := s.dice, sent := s.sent, next := s.next) == s
    ensures Full(s) && IsValid(s.dice[t.hit.value]) ==> |t.state.sent| == |s.sent| + 1
    ensures Full(s) && IsValid(s.dice[t.hit.value]) && IdsFit(s.dice, [t.hit.value]) ==>
      CarriesThrow(s.variant, t.state.sent[|s.sent|], s.dice[t.hit.value].id)
  {
    if !Full(s) then Turn(s.(flags := Stopped(s.flags, g)), None)
    else
      var p := ChooseHit(s.dice, HitFrom(g), MaxDice(s.variant), s.next);
      var s1 := s.(next := p.next);
      RollAtRolls(s1, [p.index]);
      RollOneCarries(s1, p.index);
      Turn(RollAt(s1, [p.index]), Some(p.index))
  }

  /**
    `evaluateBlackjackHand` / `evaluate13Hand`: below the threshold the game
    hits and nothing is logged or shouted; at or above it the decimal sum is
    logged (and shouted when chat is on and the user not muted) and the game
    stops.
   */
  function EvaluateGame(s: State, g: Game): (t: Turn)
    ensures s.sum < Threshold(g) ==> t == HitGame(s, g)
    ensures s.sum < Threshold(g) ==> t.state.log == s.log && t.state.sum == s.sum && ThrowsOnlyAfter(t.state, |s.sent|)
    ensures s.sum >= Threshold(g) ==>
      && t.hit.None?
      && t.state.log == Append(s.log, ResultPrefix(g) + Itoa(s.sum) + "\n")
      && t.state.dice == s.dice && t.state.sum == s.sum
      && (Announces(s) ==> t.state.sent == s.sent + [Packet(OriginsShout, Str(Itoa(s.sum)))])
      && (!Announces(s) ==> t.state.sent == s.sent)
    ensures s.sum >= Threshold(g) ==> t.state.(log := s.log, sent := s.sent) == s.(flags := Stopped(s.flags, g))
    ensures t.hit.None? ==> !Playing(t.state.flags, g)
  {
    match Hand.Settle(s.sum, Threshold(g))
    case Hit => HitGame(s, g)
    case Report(text) =>
      var line := ResultPrefix(g) + text + "\n";
      Turn(Announce(s, line, text).(flags := Stopped(s.flags, g)), None)
  }

  /**
    After a hit's result: the hit die's face is added to the sum (in 64-bit
    `int`). The face it replaced is never subtracted, so with faces of 0 or
    more the sum never goes down.
   */
  function AfterHit(s: State, i: nat): (r: State)
    requires i < |s.dice|
    ensures IsInt64(r.sum)
    ensures IsInt64(s.sum + s.dice[i].value) ==> r.sum == s.sum + s.dice[i].value
    ensures IsInt64(s.sum + s.dice[i].value) && s.dice[i].value >= 0 ==> r.sum >= s.sum
    ensures r.(sum := s.sum) == s
  {
    s.(sum := Wrap64(s.sum + s.dice[i].value))
  }

  /** A Flash registry has no position from 3 on, so every 21 hit re-rolls the die under the cursor. */
  lemma FlashTwentyOneRerolls(s: State)
    requires s.variant.Flash? && Full(s)
    ensures HitGame(s, TwentyOne).hit == Some(s.next % 3)
    ensures HitGame(s, TwentyOne).state.next == (s.next + 1) % 3
  {
  }

  /**
    A full round of a game, from its start to its first evaluation, on a
    full registry: the opening dice are thrown, their faces summed, and a
    result is reported exactly when that sum reaches the threshold.
   */
  lemma GameReportsOnlyAtThreshold(s: State, g: Game)
    requires Full(s)
    ensures var dealt := TakeOpening(StartGame(s, g), g);
      var t := EvaluateGame(dealt, g);
      t.hit.None? <==> dealt.sum >= Threshold(g)
  {
    var started := StartGame(s, g);
    var dealt := TakeOpening(started, g);
    var t := EvaluateGame(dealt, g);
    assert Full(dealt);
  }

  /**
    `evaluateTriHand`, with the variant's own Tri positions: defined exactly
    when the registry is full; the logged (and possibly shouted) text is the
    decimal sum of the three dice the Tri flow rolled.
   */
  function EvaluateTri(s: State): (r: Option<State>)
    ensures r.Some? <==> Full(s)
    ensures r.Some? ==>
      var ix := Hand.TriIndices(s.variant);
      exists text ::
        && IsCanonical(text)
        && Atoi(text) == Some(Wrap64(s.dice[ix[0]].value + s.dice[ix[1]].value + s.dice[ix[2]].value))
        && r.value.log == Append(s.log, "Tri Result: " + text + "\n")
        && (Announces(s) ==> r.value.sent == s.sent + [Packet(OriginsShout, Str(text))])
        && (!Announces(s) ==> r.value.sent == s.sent)
    ensures r.Some? ==> !r.value.flags.tri && r.value.dice == s.dice && r.value.sum == s.sum
    ensures r.Some? ==> r.value.(log := s.log, sent := s.sent) == s.(flags := s.flags.(tri := false))
  {
    match Hand.TriResult(s.variant, Values(s.dice))
    case None => None
    case Some(text) =>
      var ix := Hand.TriIndices(s.variant);
      assert Values(s.dice)[ix[0]] == s.dice[ix[0]].value;
      assert Values(s.dice)[ix[1]] == s.dice[ix[1]].value;
      assert Values(s.dice)[ix[2]] == s.dice[ix[2]].value;
      Some(Announce(s, "Tri Result: " + text + "\n", text).(flags := s.flags.(tri := false)))
  }

  /** What `LoadConfig` met: a settings file it read, no file, or a file that did not decode (with the decoder's message). */
  datatype ConfigLoad = Loaded | Missing | Undecodable(error: string)

  /** The line `LoadConfig` adds to the log: none when the file was read. */
  function ConfigNote(c: ConfigLoad): (note: Option<string>)
    ensures note.None? <==> c.Loaded?
  {
    match c
    case Loaded => None
    case Missing => Some("Config file not found, loading default values")
    case Undecodable(e) => Some("Error decoding config file: " + e)
  }

  /**
    `evaluatePokerHand`: the hand of the registry's values, its description
    rendered by the templates of the configuration in use (`render`), logged
    after whatever line loading the configuration logged, and announced; the
    poker flag is cleared.
   */
  function EvaluatePoker(s: State, config: ConfigLoad, render: Hand.Description -> string): (r: Option<State>)
    ensures r.Some? <==> Hand.Evaluate(Values(s.dice)).Some?
    ensures r.Some? ==>
      var line := "Poker Result: " + render(Hand.Evaluate(Values(s.dice)).value.description) + "\n";
      && (config.Loaded? ==> r.value.log == Append(s.log, line))
      && (!config.Loaded? ==> r.value.log == Append(Append(s.log, ConfigNote(config).value), line))
    ensures r.Some? ==>
      var text := render(Hand.Evaluate(Values(s.dice)).value.description);
      && (Announces(s) ==> r.value.sent == s.sent + [Packet(OriginsShout, Str(text))])
      && (!Announces(s) ==> r.value.sent == s.sent)
    ensures r.Some? ==> r.value.flags == s.flags.(poker := false) && r.value.dice == s.dice
    ensures r.Some? ==> r.value.(log := s.log, sent := s.sent, flags := s.flags) == s
    ensures r.Some? && |s.log| <= LogCapacity ==> |r.value.log| <= LogCapacity
  {
    match Hand.Evaluate(Values(s.dice))
    case None => None
    case Some(h) =>
      var text := render(h.description);
      var noted := if config.Loaded? then s else Logged(s, ConfigNote(config).value);
      var line := "Poker Result: " + text + "\n";
      AppendWithin(s.log, if config.Loaded? then line else ConfigNote(config).value);
      AppendWithin(noted.log, line);
      Some(Announce(noted, line, text).(flags := s.flags.(poker := false)))
  }

  /** Five dice showing faces always produce a poker result, of the rank their counts call for. */
  lemma PokerHandsEvaluate(s: State, config: ConfigLoad, render: Hand.Description -> string)
    requires HandFacts.IsHand(Values(s.dice))
    ensures EvaluatePoker(s, config, render).Some?
    ensures var h := Hand.Evaluate(Values(s.dice)).value;
      HandFacts.Classified(Values(s.dice), h.rank, h.tiebreakers)
  {
    HandFacts.EvaluateClassified(Values(s.dice));
  }

  /** `verifyResult`: the decimal sum is shouted, with the shout header of the variant. */
  function VerifySum(s: State): (r: State)
    ensures |r.sent| == |s.sent| + 1 && r.sent[..|s.sent|] == s.sent
    ensures r.sent[|s.sent|].header == (if s.variant.Flash? then FlashShout else OriginsShout)
    ensures r.sent[|s.sent|].payload.Str?
    ensures IsInt64(s.sum) ==> Atoi(r.sent[|s.sent|].payload.text) == Some(s.sum)
    ensures IsCanonical(r.sent[|s.sent|].payload.text)
    ensures r.(sent := s.sent) == s
  {
    Hand.ReadBackWhenInt64(s.sum);
    Sending(s, Packet(if s.variant.Flash? then FlashShout else OriginsShout, Str(Itoa(s.sum))))
  }

  /** `evalAt`: "@" and the amount are shouted (Origins header) and logged. */
  function EvalAt(s: State, extra: string): (r: State)
    ensures r.sent == s.sent + [Packet(OriginsShout, Str("@" + extra))]
    ensures r.log == Append(s.log, "@" + extra)
    ensures r.(sent := s.sent, log := s.log) == s
  {
    Logged(Sending(s, Packet(OriginsShout, Str("@" + extra))), "@" + extra)
  }

  /** `ShowCommands`: the help text goes to the client as a broadcast of the variant. */
  function ShowHelp(s: State, help: string): (r: State)
    ensures r.sent == s.sent + [Packet(if s.variant.Flash? then FlashBroadcast else OriginsBroadcast, Str(help))]
    ensures r.(sent := s.sent) == s
  {
    Sending(s, Packet(if s.variant.Flash? then FlashBroadcast else OriginsBroadcast, Str(help)))
  }

  /**
    `closeAllDice`, run to its end: every valid die is closed (rolling state,
    id and face kept), one off packet per valid die, and the closing flag
    is down again.
   */
  function CloseAllDice(s: State): (r: State)
    ensures |r.dice| == |s.dice| && !r.flags.closing
    ensures forall j :: 0 <= j < |s.dice| ==>
      r.dice[j].id == s.dice[j].id && r.dice[j].value == s.dice[j].value
      && r.dice[j].isRolling == s.dice[j].isRolling
      && (IsValid(s.dice[j]) ==> r.dice[j].isClosed)
      && (!IsValid(s.dice[j]) ==> r.dice[j] == s.dice[j])
    ensures r.flags == s.flags.(closing := false) && r.log == s.log
    ensures r.(dice := s.dice, sent := s.sent, flags := s.flags) == s
    ensures |s.sent| <= |r.sent| <= |s.sent| + |s.dice| && r.sent[..|s.sent|] == s.sent
    ensures forall k :: |s.sent| <= k < |r.sent| ==> r.sent[k].header == OffHeader(s.variant)
    ensures AllValidAt(s.dice, Indices(|s.dice|)) ==>
      |r.sent| == |s.sent| + |s.dice|
      && forall k :: 0 <= k < |s.dice| ==> r.sent[|s.sent| + k].payload == Bytes(IdPayload(s.variant, s.dice[k].id))
  {
    var idx := Indices(|s.dice|);
    var o := ApplyAt(s.variant, CloseAct, s.dice, idx);
    var r := s.(dice := o.dice, sent := s.sent + o.sent, flags := s.flags.(closing := false));
    assert forall k :: |s.sent| <= k < |r.sent| ==> r.sent[k] == o.sent[k - |s.sent|];
    assert forall k :: 0 <= k < |idx| ==> idx[k] == k;
    r
  }

  /** The ids at the listed positions are real dice ids: non-zero, 32-bit and 64-bit. */
  predicate IdsFit(dice: Registry, idx: seq<nat>)
    requires InRange(idx, |dice|)
  {
    forall k :: 0 <= k < |idx| ==> var id := dice[idx[k]].id; 0 < id < TwoTo32 && IsInt64(id)
  }

  /** A throw packet of the variant whose payload the throw handler decodes as `id`. */
  predicate CarriesThrow(v: Variant, p: Packet, id: int) {
    p.header == ThrowHeader(v) && p.payload.Bytes? && Protocol.DecodeThrowId(v, p.payload.data) == Some(id)
  }

  /** The packets of a batch roll, one per listed die, each carrying its die's id. */
  lemma BatchThrowsCarryIds(v: Variant, dice: Registry, idx: seq<nat>)
    requires InRange(idx, |dice|) && AllValidAt(dice, idx) && IdsFit(dice, idx)
    ensures var o := ApplyAt(v, RollAct, dice, idx);
      |o.sent| == |idx| && forall k :: 0 <= k < |idx| ==> CarriesThrow(v, o.sent[k], dice[idx[k]].id)
  {
    var o := ApplyAt(v, RollAct, dice, idx);
    forall k | 0 <= k < |idx| ensures CarriesThrow(v, o.sent[k], dice[idx[k]].id) {
      IdPacketDecodes(v, dice[idx[k]].id, o.sent[k]);
    }
  }

  /** Packets appended after `pre` keep what they carry, shifted by `|pre|`. */
  lemma ShiftedCarries(v: Variant, pre: seq<Packet>, post: seq<Packet>, dice: Registry, idx: seq<nat>)
    requires InRange(idx, |dice|) && |post| == |idx|
    requires forall k :: 0 <= k < |idx| ==> CarriesThrow(v, post[k], dice[idx[k]].id)
    ensures forall k :: 0 <= k < |idx| ==> CarriesThrow(v, (pre + post)[|pre| + k], dice[idx[k]].id)
  {
    forall k | 0 <= k < |idx| ensures (pre + post)[|pre| + k] == post[k] {
    }
  }

  /** The throw packets of a batch roll read back, through the throw handler's decoding, as the ids rolled, in order. */
  lemma RollAtThrowsCarryIds(s: State, idx: seq<nat>)
    requires InRange(idx, |s.dice|) && AllValidAt(s.dice, idx) && IdsFit(s.dice, idx)
    ensures var r := RollAt(s, idx);
      |r.sent| == |s.sent| + |idx|
      && forall k :: 0 <= k < |idx| ==> CarriesThrow(s.variant, r.sent[|s.sent| + k], s.dice[idx[k]].id)
  {
    var o := ApplyAt(s.variant, RollAct, s.dice, idx);
    BatchThrowsCarryIds(s.variant, s.dice, idx);
    ShiftedCarries(s.variant, s.sent, o.sent, s.dice, idx);
  }

  /** Rolling one valid die whose id fits sends one throw that decodes to its id. */
  lemma RollOneCarries(s: State, i: nat)
    requires i < |s.dice|
    ensures AllValidAt(s.dice, [i]) && IdsFit(s.dice, [i]) ==>
      |RollAt(s, [i]).sent| == |s.sent| + 1 && CarriesThrow(s.variant, RollAt(s, [i]).sent[|s.sent|], s.dice[i].id)
  {
    if AllValidAt(s.dice, [i]) && IdsFit(s.dice, [i]) {
      RollAtThrowsCarryIds(s, [i]);
    }
  }

  /**
    The throw packets a game opens with each read back, through the throw
    handler's decoding, as the id of the die thrown, in the order thrown.
   */
  lemma OpeningThrowsCarryIds(s: State, g: Game)
    requires Full(s) && AllValidAt(s.dice, Opening(g)) && IdsFit(s.dice, Opening(g))
    ensures var r := StartGame(s, g);
      |r.sent| == |s.sent| + |Opening(g)|
      && forall k :: 0 <= k < |Opening(g)| ==>
        CarriesThrow(s.variant, r.sent[|s.sent| + k], s.dice[Opening(g)[k]].id)
  {
    var s1 := s.(sum := 0, next := OpeningCursor(g));
    RollAtThrowsCarryIds(s1, Opening(g));
  }

  /** A packet carrying a die's id payload reads back as that id. */
  lemma IdPacketDecodes(v: Variant, id: int, p: Packet)
    requires 0 < id < TwoTo32 && IsInt64(id) && p.payload == Bytes(IdPayload(v, id))
    ensures p.payload.Bytes? && Protocol.DecodeThrowId(v, p.payload.data) == Some(id)
  {
    Protocol.PacketRoundTrip(v, Die(id, 0, false, false));
  }

  /** A registry with the same ids in the same places is as well formed as before. */
  lemma SameIdsWellFormed(v: Variant, a: Registry, b: Registry)
    requires WellFormed(v, a) && |b| == |a|
    requires forall j :: 0 <= j < |a| ==> b[j].id == a[j].id
    ensures WellFormed(v, b)
  {
    forall i, j | 0 <= i < j < |b| ensures b[i].id != b[j].id {
      assert a[i].id != a[j].id;
    }
  }

  /** The flow starts keep the registry well formed, the log within capacity and the sum a 64-bit value. */
  lemma StartsKeepInvariant(s: State, g: Game)
    requires Invariant(s)
    ensures Invariant(StartPoker(s)) && Invariant(StartTri(s)) && Invariant(StartGame(s, g))
  {
    if Full(s) {
      RollAtRolls(s, Indices(|s.dice|));
      SameIdsWellFormed(s.variant, s.dice, StartPoker(s).dice);
      SameIdsWellFormed(s.variant, s.dice, StartTri(s).dice);
      SameIdsWellFormed(s.variant, s.dice, StartGame(s, g).dice);
    }
  }

  /** So do the hit loop's steps. */
  lemma HitsKeepInvariant(s: State, g: Game, i: nat)
    requires Invariant(s) && i < |s.dice|
    ensures Invariant(HitGame(s, g).state) && Invariant(EvaluateGame(s, g).state) && Invariant(AfterHit(s, i))
  {
    if Full(s) {
      SameIdsWellFormed(s.variant, s.dice, HitGame(s, g).state.dice);
    }
  }

  /** And so do the flash reroll and the opening sum. */
  lemma OpeningsKeepInvariant(s: State, g: Game)
    requires Invariant(s) && Full(s)
    ensures Invariant(RerollFlash(s)) && Invariant(TakeOpening(s, g))
  {
    SameIdsWellFormed(s.variant, s.dice, RerollFlash(s).dice);
  }

  /** So do the Tri and poker evaluations. */
  lemma EvaluationsKeepInvariant(s: State, config: ConfigLoad, render: Hand.Description -> string)
    requires Invariant(s)
    ensures EvaluateTri(s).Some? ==> Invariant(EvaluateTri(s).value)
    ensures EvaluatePoker(s, config, render).Some? ==> Invariant(EvaluatePoker(s, config, render).value)
  {
    var t := EvaluateTri(s);
    if t.Some? {
      assert t.value.dice == s.dice && t.value.sum == s.sum;
    }
    PokerKeepsInvariant(s, config, render);
  }

  /** The poker evaluation keeps the invariant, whatever the configuration load logged. */
  lemma PokerKeepsInvariant(s: State, config: ConfigLoad, render: Hand.Description -> string)
    requires Invariant(s)
    ensures EvaluatePoker(s, config, render).Some? ==> Invariant(EvaluatePoker(s, config, render).value)
  {
    var p := EvaluatePoker(s, config, render);
    if p.Some? {
      var q := p.value;
      assert q.dice == s.dice && q.variant == s.variant && q.sum == s.sum;
      assert WellFormed(q.variant, q.dice);
    }
  }

  /** So do the close and the commands that only send or log. */
  lemma CommandsKeepInvariant(s: State, extra: string, help: string)
    requires Invariant(s)
    ensures Invariant(VerifySum(s)) && Invariant(EvalAt(s, extra)) && Invariant(ShowHelp(s, help))
    ensures Invariant(CloseAllDice(s))
  {
    SameIdsWellFormed(s.variant, s.dice, CloseAllDice(s).dice);
  }
}

=== FILE: hand.dfy ===
/**
  The hand evaluator of the dice games: poker ranking of the dice values
  (built, as the plugin builds it, from the sorted string of their decimal
  digits), comparison of two poker results, and the sum scores used by the
  21, 13 and Tri games.
 */
module Hand {
  import opened Common
  import opened Decimal
  import opened Sorting

  /** The configurable description templates; their text is a parameter of the plugin. */
  datatype Kind =
    | FiveOfAKind | FourOfAKind | FullHouse | HighStraight | LowStraight
    | ThreeOfAKind | TwoPair | OnePair | Nothing

  /**
    A hand's description: a template used as is, a template with its `%s`
    filled in, or (in the switch's fallback) the digits of the repeated keys.
   */
  datatype Description = Fixed(kind: Kind) | Filled(kind: Kind, arg: string) | Raw(text: string)

  datatype PokerHandResult = PokerHandResult(
    rank: int,
    description: Description,
    tiebreakers: seq<int>,
    diceValues: seq<int>)

  /** Concatenated decimal text of the dice values. */
  function Digits(values: seq<int>): (s: string)
    ensures forall i :: 0 <= i < |s| ==> IsNumeralChar(s[i])
  {
    if |values| == 0 then "" else Itoa(values[0]) + Digits(values[1..])
  }

  /** Every character decimal text can hold, by descending key `c - '0'`. */
  const Candidates: string := "9876543210-"

  /** The map key of a digit-string character: `int(c - '0')`. */
  function KeyOf(c: char): int {
    c as int - '0' as int
  }

  /** How often the character occurs in the digit string (the `mapCount` entry). */
  function Tally(s: string, c: char): nat {
    multiset(s)[c]
  }

  /** Which map entries a scan of `mapCount` keeps. */
  datatype Want = Repeated | Once | Exactly(n: nat)

  predicate Wants(w: Want, n: nat) {
    match w
    case Repeated => n > 1
    case Once => n == 1
    case Exactly(m) => n == m
  }

  predicate StrictlyDescendingChars(s: string) {
    forall i, j :: 0 <= i < j < |s| ==> s[i] > s[j]
  }

  /** The characters of `cands`, in order, whose tally in `s` is wanted. */
  function Picked(s: string, cands: string, w: Want): (r: string)
    ensures forall c :: c in r <==> c in cands && Wants(w, Tally(s, c))
    ensures StrictlyDescendingChars(cands) ==> StrictlyDescendingChars(r)
    ensures |r| <= |cands|
    decreases |cands|
  {
    if |cands| == 0 then ""
    else
      var rest := Picked(s, cands[1..], w);
      assert forall c :: c in cands <==> c == cands[0] || c in cands[1..] by {
        assert cands == [cands[0]] + cands[1..];
      }
      if Wants(w, Tally(s, cands[0])) then
        var r := [cands[0]] + rest;
        assert StrictlyDescendingChars(cands) ==> StrictlyDescendingChars(r) by {
          if StrictlyDescendingChars(cands) {
            assert StrictlyDescendingChars(cands[1..]);
            forall i, j | 0 <= i < j < |r| ensures r[i] > r[j] {
              if i == 0 {
                assert r[j] in cands[1..];
                var k :| 0 <= k < |cands[1..]| && cands[1..][k] == r[j];
                assert cands[k + 1] == r[j];
              }
            }
          }
        }
        r
      else rest
  }

  /** Keys of the map entries whose count is wanted, in descending order. */
  function Keys(s: string, w: Want): (ks: seq<int>)
  {
    var p := Picked(s, Candidates, w);
    seq(|p|, i requires 0 <= i < |p| => KeyOf(p[i]))
  }

  /** The first wanted key, or 0 when there is none (Go's zero value). */
  function FirstKey(s: string, w: Want): int {
    var ks := Keys(s, w);
    if |ks| > 0 then ks[0] else 0
  }

  /** The counts greater than one, listed with their keys. */
  function RepeatCounts(s: string): seq<int> {
    var p := Picked(s, Candidates, Repeated);
    seq(|p|, i requires 0 <= i < |p| => Tally(s, p[i]) as int)
  }

  /** Decimal text of a list of integers run together (`fmt.Sprint`, spaces and brackets removed). */
  function JoinDecimal(xs: seq<int>): string {
    if |xs| == 0 then "" else Itoa(xs[0]) + JoinDecimal(xs[1..])
  }

  /** The count pattern the switch matches on: repeated counts, descending, run together. */
  function Pattern(s: string): string {
    JoinDecimal(SortDescending(RepeatCounts(s)))
  }

  /** `formatKindSuffix`: the value followed by "s". */
  function KindSuffix(v: int): string {
    Itoa(v) + "s"
  }

  /** What the switch decides: the rank, the description and the tie-breakers. */
  datatype Ranking = Ranking(rank: int, description: Description, tiebreakers: seq<int>)

  /**
    The body of `toPokerHandResult`, given the sorted digit string `s` and the
    values sorted high to low. `None` is the index-out-of-range panic of the
    "22" case when no count equals 2 (a single value occurring 22 times).
   */
  function Rank(s: string, sorted: seq<int>): (r: Option<Ranking>)
    ensures r.Some? ==> 0 <= r.value.rank <= 7
  {
    if s == "12345" then
      Some(Ranking(4, Fixed(LowStraight), [5]))
    else if s == "23456" then
      Some(Ranking(4, Fixed(HighStraight), [6]))
    else
      var keys := Keys(s, Repeated);
      if |keys| == 0 then
        Some(Ranking(0, Fixed(Nothing), sorted))
      else
        var c := Pattern(s);
        if c == "5" then
          Some(Ranking(7, Filled(FiveOfAKind, KindSuffix(keys[0])), [keys[0]]))
        else if c == "4" then
          Some(Ranking(6, Filled(FourOfAKind, KindSuffix(keys[0])), [keys[0]]))
        else if c == "3" then
          Some(Ranking(3, Filled(ThreeOfAKind, KindSuffix(keys[0])), [keys[0]] + Keys(s, Once)))
        else if c == "32" then
          var three := FirstKey(s, Exactly(3));
          var pair := FirstKey(s, Exactly(2));
          Some(Ranking(5, Filled(FullHouse, KindSuffix(three) + KindSuffix(pair)), [three, pair]))
        else if c == "22" then
          var pairs := Keys(s, Exactly(2));
          if |pairs| < 2 then None
          else
            var kicker := FirstKey(s, Once);
            Some(Ranking(2, Filled(TwoPair, KindSuffix(pairs[0]) + KindSuffix(pairs[1])),
                         [pairs[0], pairs[1], kicker]))
        else if c == "2" then
          Some(Ranking(1, Filled(OnePair, KindSuffix(keys[0])), [keys[0]] + Keys(s, Once)))
        else
          Some(Ranking(0, Raw(JoinDecimal(keys)), sorted))
  }

  /** `toPokerHandResult` on the values of the dice, in registry order. */
  function Evaluate(values: seq<int>): (r: Option<PokerHandResult>)
    ensures r.Some? ==> r.value.diceValues == values
    ensures r.Some? ==> 0 <= r.value.rank <= 7
  {
    match Rank(SortRunes(Digits(values)), SortDescending(values))
    case None => None
    case Some(k) => Some(PokerHandResult(k.rank, k.description, k.tiebreakers, values))
  }

  /** `rankName`: the name of a rank; anything not 1..7 is "High Card". */
  function RankName(rank: int): string {
    match rank
    case 7 => "Five of a Kind"
    case 6 => "Four of a Kind"
    case 5 => "Full House"
    case 4 => "Straight"
    case 3 => "Three of a Kind"
    case 2 => "Two Pair"
    case 1 => "Pair"
    case _ => "High Card"
  }

  datatype Winner = Player | Dealer

  /** The outcome of a comparison, with the winner's rank first. */
  datatype Verdict = Beats(winner: Winner, winnerRank: int, loserRank: int) | Tie

  /** `a` and `b` agree before position `i` and differ at it. */
  predicate DiffersFirstAt(a: seq<int>, b: seq<int>, i: nat) {
    i < |a| && i < |b| && a[..i] == b[..i] && a[i] != b[i]
  }

  /** `a` and `b` agree on every position both have. */
  predicate AgreeOnCommon(a: seq<int>, b: seq<int>) {
    forall i :: 0 <= i < |a| && i < |b| ==> a[i] == b[i]
  }

  /** The first position, from `from` on, where the tie-break lists differ. */
  function FirstDifference(a: seq<int>, b: seq<int>, from: nat): (r: Option<nat>)
    requires from <= |a| && from <= |b| ==> a[..from] == b[..from]
    ensures r.Some? ==> from <= r.value && DiffersFirstAt(a, b, r.value)
    ensures r.None? && from <= |a| && from <= |b| ==> AgreeOnCommon(a, b)
    decreases |a| - from
  {
    if from >= |a| || from >= |b| then None
    else if a[from] != b[from] then Some(from)
    else
      assert a[..from + 1] == a[..from] + [a[from]];
      assert b[..from + 1] == b[..from] + [b[from]];
      FirstDifference(a, b, from + 1)
  }

  /** `comparePokerHands` as a verdict: rank first, then the first differing tie-breaker. */
  function Compare(player: PokerHandResult, dealer: PokerHandResult): (v: Verdict)
    ensures player.rank > dealer.rank ==> v == Beats(Player, player.rank, dealer.rank)
    ensures player.rank < dealer.rank ==> v == Beats(Dealer, dealer.rank, player.rank)
    ensures player.rank == dealer.rank ==>
      forall i: nat :: DiffersFirstAt(player.tiebreakers, dealer.tiebreakers, i) ==>
        v == Beats(if player.tiebreakers[i] > dealer.tiebreakers[i] then Player else Dealer,
                   player.rank, dealer.rank)
    ensures player.rank == dealer.rank ==>
      (v == Tie <==> AgreeOnCommon(player.tiebreakers, dealer.tiebreakers))
  {
    if player.rank > dealer.rank then Beats(Player, player.rank, dealer.rank)
    else if player.rank < dealer.rank then Beats(Dealer, dealer.rank, player.rank)
    else
      var a, b := player.tiebreakers, dealer.tiebreakers;
      match FirstDifference(a, b, 0)
      case None => Tie
      case Some(i) =>
        FirstDifferenceUnique(a, b, i);
        Beats(if a[i] > b[i] then Player else Dealer, player.rank, dealer.rank)
  }

  lemma FirstDifferenceUnique(a: seq<int>, b: seq<int>, i: nat)
    requires DiffersFirstAt(a, b, i)
    ensures forall j: nat :: DiffersFirstAt(a, b, j) ==> j == i
    ensures !AgreeOnCommon(a, b)
  {
  }

  /** The chat line of a verdict. */
  function VerdictMessage(v: Verdict): string {
    match v
    case Tie => "Tie game."
    case Beats(w, winner, loser) =>
      RankName(winner) + " beats " + RankName(loser) + ", "
        + (if w == Player then "Player" else "Dealer") + " wins."
  }

  /**
    `comparePokerHands` as the plugin runs it: rank first, then a scan of the
    common prefix of the tie-break lists.
   */
  method ComparePokerHands(player: PokerHandResult, dealer: PokerHandResult) returns (msg: string)
    ensures msg == VerdictMessage(Compare(player, dealer))
  {
    if player.rank != dealer.rank {
      if player.rank > dealer.rank {
        return VerdictMessage(Beats(Player, player.rank, dealer.rank));
      }
      return VerdictMessage(Beats(Dealer, dealer.rank, player.rank));
    }
    var a, b := player.tiebreakers, dealer.tiebreakers;
    var i := 0;
    while i < |a| && i < |b|
      invariant 0 <= i <= |a| && i <= |b|
      invariant a[..i] == b[..i]
    {
      if a[i] != b[i] {
        assert DiffersFirstAt(a, b, i);
        if a[i] > b[i] {
          return VerdictMessage(Beats(Player, player.rank, dealer.rank));
        }
        return VerdictMessage(Beats(Dealer, dealer.rank, player.rank));
      }
      assert a[..i + 1] == a[..i] + [a[i]];
      assert b[..i + 1] == b[..i] + [b[i]];
      i := i + 1;
    }
    assert AgreeOnCommon(a, b) by {
      forall j | 0 <= j < |a| && j < |b| ensures a[j] == b[j] {
        assert a[..i][j] == b[..i][j];
      }
    }
    return "Tie game.";
  }

  /** The plain arithmetic sum of the values. */
  function Sum(values: seq<int>): int {
    if |values| == 0 then 0 else values[0] + Sum(values[1..])
  }

  lemma {:induction false} SumAppend(values: seq<int>, x: int)
    ensures Sum(values + [x]) == Sum(values) + x
    decreases |values|
  {
    if |values| > 0 {
      assert (values + [x])[1..] == values[1..] + [x];
      SumAppend(values[1..], x);
    } else {
      assert values + [x] == [x];
    }
  }

  /**
    `sumHandInt`: the sum of the values in Go's 64-bit `int`, which wraps
    around on overflow; for dice values it is the plain sum.
   */
  method SumHandInt(values: seq<int>) returns (sum: int)
    ensures sum == Wrap64(Sum(values))
    ensures IsInt64(Sum(values)) ==> sum == Sum(values)
  {
    sum := 0;
    var i := 0;
    while i < |values|
      invariant 0 <= i <= |values|
      invariant sum == Wrap64(Sum(values[..i]))
    {
      assert values[..i + 1] == values[..i] + [values[i]];
      SumAppend(values[..i], values[i]);
      Wrap64Add(Sum(values[..i]), values[i]);
      sum := Wrap64(sum + values[i]);
      i := i + 1;
    }
    assert values[..i] == values;
  }

  /** `sumHand`: the decimal text of the (64-bit) sum. */
  function SumHand(values: seq<int>): (text: string)
    ensures Atoi(text) == Some(Wrap64(Sum(values)))
    ensures IsCanonical(text)
  {
    AtoiItoa(Wrap64(Sum(values)));
    Itoa(Wrap64(Sum(values)))
  }

  lemma SumOfThree(x: int, y: int, z: int)
    ensures Sum([x, y, z]) == x + y + z
  {
    assert [x, y, z][1..] == [y, z];
    assert [y, z][1..] == [z];
    assert Sum([z]) == z;
  }

  /** Positions `evaluateTriHand` reads: 0, 2 and 4, whatever the variant. */
  const TriIndicesAsWritten: seq<nat> := [0, 2, 4]

  /**
    `evaluateTriHand` as written: the sum of the values at positions 0, 2 and 4;
    `None` is the index-out-of-range panic when fewer than five dice are listed.
   */
  function TriResultAsWritten(values: seq<int>): (r: Option<string>)
    ensures r.Some? <==> |values| >= 5
    ensures r.Some? ==> Atoi(r.value) == Some(Wrap64(values[0] + values[2] + values[4]))
    ensures r.Some? ==> IsCanonical(r.value)
  {
    if |values| < 5 then None
    else
      SumOfThree(values[0], values[2], values[4]);
      Some(SumHand([values[0], values[2], values[4]]))
  }

  /** The positions `rollTriDice` rolls: a triangle 0, 2, 4 for Origins, 0, 1, 2 for Flash. */
  function TriIndices(v: Variant): (ix: seq<nat>)
    ensures |ix| == 3
    ensures forall k :: 0 <= k < 3 ==> ix[k] < MaxDice(v)
  {
    if v.Flash? then [0, 1, 2] else [0, 2, 4]
  }

  /**
    The Tri score with the variant's own positions: the sum of exactly the
    three dice the Tri flow rolled, defined whenever the registry is full.
   */
  function TriResult(v: Variant, values: seq<int>): (r: Option<string>)
    ensures r.Some? <==> |values| >= MaxDice(v)
    ensures r.Some? ==>
      var ix := TriIndices(v);
      Atoi(r.value) == Some(Wrap64(values[ix[0]] + values[ix[1]] + values[ix[2]]))
    ensures r.Some? ==> IsCanonical(r.value)
  {
    if |values| < MaxDice(v) then None
    else
      var ix := TriIndices(v);
      var picked := [values[ix[0]], values[ix[1]], values[ix[2]]];
      SumOfThree(values[ix[0]], values[ix[1]], values[ix[2]]);
      Some(SumHand(picked))
  }

  /** A full Flash registry holds three dice, so the Tri evaluation as written panics on it. */
  lemma TriAsWrittenFailsOnFlash(values: seq<int>)
    requires |values| == MaxDice(Flash)
    ensures TriResultAsWritten(values).None?
    ensures TriResult(Flash, values).Some?
  {
  }

  lemma ReadBackWhenInt64(n: int)
    ensures IsInt64(n) ==> Atoi(Itoa(n)) == Some(n)
  {
    if IsInt64(n) {
      AtoiItoa(n);
    }
  }

  /** The sum at which the 21 game stops hitting. */
  const Threshold21: int := 15
  /** The sum at which the 13 game stops hitting. */
  const Threshold13: int := 7

  datatype Decision = Hit | Report(text: string)

  /**
    The threshold step of `evaluateBlackjackHand` / `evaluate13Hand`: below
    the threshold another die is hit; at or above it the decimal sum is reported.
   */
  function Settle(sum: int, threshold: int): (d: Decision)
    ensures d.Hit? <==> sum < threshold
    ensures d.Report? ==> IsInt64(sum) ==> Atoi(d.text) == Some(sum)
    ensures d.Report? ==> IsCanonical(d.text)
  {
    if sum < threshold then Hit
    else
      ReadBackWhenInt64(sum);
      Report(Itoa(sum))
  }
}

=== FILE: hand_facts.dfy ===
/**
  What the poker evaluator computes on a real hand — five face values 1..6 —
  stated against an occurrence-count specification, and the facts that make
  its result depend only on the multiset of the values.
 */
module HandFacts {
  import opened Common
  import opened Decimal
  import opened Sorting
  import opened Hand

  predicate IsFace(v: int) {
    1 <= v <= 6
  }

  /** Five dice showing faces 1..6. */
  predicate IsHand(h: seq<int>) {
    |h| == 5 && forall i :: 0 <= i < |h| ==> IsFace(h[i])
  }

  /** How often the value occurs in the hand. */
  function Occ(h: seq<int>, k: int): nat {
    multiset(h)[k]
  }

  function Ind(b: bool): nat {
    if b then 1 else 0
  }

  lemma OccOfFive(h: seq<int>)
    requires |h| == 5
    ensures forall k :: Occ(h, k) == Ind(h[0] == k) + Ind(h[1] == k) + Ind(h[2] == k) + Ind(h[3] == k) + Ind(h[4] == k)
  {
    assert h == [h[0]] + [h[1]] + [h[2]] + [h[3]] + [h[4]];
    assert multiset(h) == multiset{h[0]} + multiset{h[1]} + multiset{h[2]} + multiset{h[3]} + multiset{h[4]};
  }

  predicate SingleDigits(h: seq<int>) {
    forall i :: 0 <= i < |h| ==> 0 <= h[i] <= 9
  }

  /** The first value's digit, then the rest: as multisets. */
  lemma DigitsHead(h: seq<int>)
    requires SingleDigits(h) && |h| > 0
    ensures multiset(h) == multiset{h[0]} + multiset(h[1..])
    ensures multiset(Digits(h)) == multiset{DigitChar(h[0])} + multiset(Digits(h[1..]))
  {
    assert h == [h[0]] + h[1..];
    assert Itoa(h[0]) == [DigitChar(h[0])];
    assert Digits(h) == [DigitChar(h[0])] + Digits(h[1..]);
  }

  lemma DigitCharKey(d: int, c: char)
    requires 0 <= d <= 9
    ensures IsDigit(c) ==> (DigitChar(d) == c <==> d == KeyOf(c))
    ensures !IsDigit(c) ==> DigitChar(d) != c
  {
  }

  /** For single-digit values, the digit string tallies each character as the values occur. */
  lemma {:induction false} TallyOfDigits(h: seq<int>)
    requires SingleDigits(h)
    ensures forall c :: Tally(Digits(h), c) == if IsDigit(c) then Occ(h, KeyOf(c)) else 0
    decreases |h|
  {
    if |h| > 0 {
      TallyOfDigits(h[1..]);
      DigitsHead(h);
      forall c ensures Tally(Digits(h), c) == if IsDigit(c) then Occ(h, KeyOf(c)) else 0 {
        DigitCharKey(h[0], c);
      }
    }
  }

  predicate StrictlyDescending(s: seq<int>) {
    forall i, j :: 0 <= i < j < |s| ==> s[i] > s[j]
  }

  /** A strictly descending sequence is determined by its elements. */
  lemma {:induction false} DescendingBySet(a: seq<int>, b: seq<int>)
    requires StrictlyDescending(a) && StrictlyDescending(b)
    requires forall k :: k in a <==> k in b
    ensures a == b
    decreases |a|
  {
    assert |a| > 0 ==> a[0] in a && a[0] in b;
    assert |b| > 0 ==> b[0] in b && b[0] in a;
    if |a| > 0 {
      assert a[0] in b && b[0] in a;
      var i :| 0 <= i < |b| && b[i] == a[0];
      var j :| 0 <= j < |a| && a[j] == b[0];
      assert a[0] >= b[0] && b[0] >= a[0];
      assert forall k :: k in a[1..] <==> k in b[1..] by {
        forall k ensures k in a[1..] <==> k in b[1..] {
          assert a == [a[0]] + a[1..];
          assert b == [b[0]] + b[1..];
          if k in a[1..] {
            var x :| 0 <= x < |a[1..]| && a[1..][x] == k;
            assert a[x + 1] == k && a[0] > a[x + 1];
            assert k in b && k != b[0];
          }
          if k in b[1..] {
            var x :| 0 <= x < |b[1..]| && b[1..][x] == k;
            assert b[x + 1] == k && b[0] > b[x + 1];
            assert k in a && k != a[0];
          }
        }
      }
      DescendingBySet(a[1..], b[1..]);
      assert a == [a[0]] + a[1..];
      assert b == [b[0]] + b[1..];
    }
  }

  /** The digit string the evaluator works on. */
  function HandString(h: seq<int>): string {
    SortRunes(Digits(h))
  }

  lemma CandidatesDescending()
    ensures StrictlyDescendingChars(Candidates)
    ensures forall c :: c in Candidates <==> IsDigit(c) || c == '-'
  {
  }

  lemma TallyOfHandString(h: seq<int>)
    requires SingleDigits(h)
    ensures forall c :: Tally(HandString(h), c) == if IsDigit(c) then Occ(h, KeyOf(c)) else 0
  {
    TallyOfDigits(h);
    assert multiset(HandString(h)) == multiset(Digits(h));
  }

  /** The characters the evaluator picks from a single-digit hand are digits of wanted values. */
  lemma PickedOfDigits(h: seq<int>, w: Want)
    requires SingleDigits(h)
    requires !Wants(w, 0)
    ensures var p := Picked(HandString(h), Candidates, w);
      StrictlyDescendingChars(p)
      && (forall c :: c in p <==> IsDigit(c) && Wants(w, Occ(h, KeyOf(c))))
  {
    TallyOfHandString(h);
    CandidatesDescending();
  }

  /** The keys are the map keys of the picked characters. */
  lemma KeysArePicked(s: string, w: Want)
    ensures var p := Picked(s, Candidates, w);
      |Keys(s, w)| == |p| && forall i :: 0 <= i < |p| ==> Keys(s, w)[i] == KeyOf(p[i])
  {
  }

  /**
    For single-digit values the keys the evaluator collects are exactly the
    values whose occurrence count is wanted, in strictly descending order.
   */
  lemma KeysOfDigits(h: seq<int>, w: Want)
    requires SingleDigits(h)
    requires !Wants(w, 0)
    ensures forall k :: k in Keys(HandString(h), w) <==> 0 <= k <= 9 && Wants(w, Occ(h, k))
    ensures StrictlyDescending(Keys(HandString(h), w))
  {
    var s := HandString(h);
    var p := Picked(s, Candidates, w);
    PickedOfDigits(h, w);
    var ks := Keys(s, w);
    KeysArePicked(s, w);
    forall k | k in ks ensures 0 <= k <= 9 && Wants(w, Occ(h, k)) {
      var i :| 0 <= i < |ks| && ks[i] == k;
      assert p[i] in p;
    }
    forall k | 0 <= k <= 9 && Wants(w, Occ(h, k)) ensures k in ks {
      var c := DigitChar(k);
      assert KeyOf(c) == k;
      assert c in p;
      var i :| 0 <= i < |p| && p[i] == c;
      assert ks[i] == k;
    }
    forall i, j | 0 <= i < j < |ks| ensures ks[i] > ks[j] {
      assert p[i] > p[j];
    }
  }

  /** The repeated counts are listed alongside their keys. */
  lemma CountsOfDigits(h: seq<int>)
    requires SingleDigits(h)
    ensures
      var ks := Keys(HandString(h), Repeated);
      var cs := RepeatCounts(HandString(h));
      |cs| == |ks| && forall i :: 0 <= i < |ks| ==> cs[i] == Occ(h, ks[i])
  {
    var s := HandString(h);
    TallyOfHandString(h);
    var p := Picked(s, Candidates, Repeated);
    PickedOfDigits(h, Repeated);
    forall i | 0 <= i < |p| ensures Tally(s, p[i]) == Occ(h, KeyOf(p[i])) {
      assert p[i] in p;
    }
  }

  /** The values that occur exactly once, each listed once, highest first. */
  ghost predicate Kickers(h: seq<int>, ks: seq<int>) {
    StrictlyDescending(ks) && forall k :: k in ks <==> Occ(h, k) == 1
  }

  /**
    The ranking of a hand by its occurrence counts: the straights first,
    then five, four, full house, three, two pair, one pair, and nothing.
   */
  ghost predicate Classified(h: seq<int>, rank: int, tb: seq<int>) {
    if multiset(h) == multiset{1, 2, 3, 4, 5} then rank == 4 && tb == [5]
    else if multiset(h) == multiset{2, 3, 4, 5, 6} then rank == 4 && tb == [6]
    else if exists k :: Occ(h, k) == 5 then
      rank == 7 && |tb| == 1 && Occ(h, tb[0]) == 5
    else if exists k :: Occ(h, k) == 4 then
      rank == 6 && |tb| == 1 && Occ(h, tb[0]) == 4
    else if exists t :: Occ(h, t) == 3 then
      if exists p :: Occ(h, p) == 2 then
        rank == 5 && |tb| == 2 && Occ(h, tb[0]) == 3 && Occ(h, tb[1]) == 2
      else
        rank == 3 && |tb| >= 1 && Occ(h, tb[0]) == 3 && Kickers(h, tb[1..])
    else if exists p, q :: p > q && Occ(h, p) == 2 && Occ(h, q) == 2 then
      rank == 2 && |tb| == 3 && tb[0] > tb[1]
        && Occ(h, tb[0]) == 2 && Occ(h, tb[1]) == 2 && Occ(h, tb[2]) == 1
    else if exists p :: Occ(h, p) == 2 then
      rank == 1 && |tb| >= 1 && Occ(h, tb[0]) == 2 && Kickers(h, tb[1..])
    else
      rank == 0 && Descending(tb) && multiset(tb) == multiset(h)
  }

  /** The values of a hand are faces. */
  lemma OccOutsideFaces(h: seq<int>)
    requires IsHand(h)
    ensures forall k :: Occ(h, k) > 0 ==> 1 <= k <= 6
  {
    forall k | Occ(h, k) > 0 ensures 1 <= k <= 6 {
      assert k in multiset(h);
      assert k in h;
    }
  }

  /** The digit string of a hand has the runes `lit` when its values form the multiset `m`. */
  lemma DigitsMultisetIs(h: seq<int>, lit: string, m: multiset<int>)
    requires IsHand(h)
    requires forall c :: multiset(lit)[c] == if IsDigit(c) then m[KeyOf(c)] else 0
    requires multiset(h) == m
    ensures multiset(Digits(h)) == multiset(lit)
  {
    assert SingleDigits(h);
    TallyOfDigits(h);
    forall c ensures multiset(Digits(h))[c] == multiset(lit)[c] {
      assert Tally(Digits(h), c) == multiset(Digits(h))[c];
    }
  }

  /** Conversely, the runes of the digit string fix the multiset of the values. */
  lemma ValuesMultisetIs(h: seq<int>, lit: string, m: multiset<int>)
    requires IsHand(h)
    requires forall c :: multiset(lit)[c] == if IsDigit(c) then m[KeyOf(c)] else 0
    requires forall k :: m[k] > 0 ==> 0 <= k <= 9
    requires multiset(Digits(h)) == multiset(lit)
    ensures multiset(h) == m
  {
    assert SingleDigits(h);
    TallyOfDigits(h);
    OccOutsideFaces(h);
    forall k ensures multiset(h)[k] == m[k] {
      if 0 <= k <= 9 {
        var c := DigitChar(k);
        assert KeyOf(c) == k;
        assert Tally(Digits(h), c) == multiset(lit)[c];
      } else {
        assert Occ(h, k) == 0;
      }
    }
  }

  /** The ascending digit string of a hand is `lit` exactly when its values form the multiset `m`. */
  lemma SortedStringIs(h: seq<int>, lit: string, m: multiset<int>)
    requires IsHand(h)
    requires forall i, j :: 0 <= i < j < |lit| ==> lit[i] <= lit[j]
    requires forall c :: multiset(lit)[c] == if IsDigit(c) then m[KeyOf(c)] else 0
    requires forall k :: m[k] > 0 ==> 0 <= k <= 9
    ensures HandString(h) == lit <==> multiset(h) == m
  {
    if multiset(h) == m {
      DigitsMultisetIs(h, lit, m);
      SortRunesIs(Digits(h), lit);
    }
    if HandString(h) == lit {
      assert multiset(Digits(h)) == multiset(lit);
      ValuesMultisetIs(h, lit, m);
    }
  }

  lemma LowStraightRune(c: char)
    ensures multiset{'1', '2', '3', '4', '5'}[c] == if IsDigit(c) then multiset{1, 2, 3, 4, 5}[KeyOf(c)] else 0
  {
    if c == '1' {} else if c == '2' {} else if c == '3' {} else if c == '4' {} else if c == '5' {}
    else if IsDigit(c) {
      assert KeyOf(c) !in {1, 2, 3, 4, 5};
    }
  }

  lemma HighStraightRune(c: char)
    ensures multiset{'2', '3', '4', '5', '6'}[c] == if IsDigit(c) then multiset{2, 3, 4, 5, 6}[KeyOf(c)] else 0
  {
    if c == '2' {} else if c == '3' {} else if c == '4' {} else if c == '5' {} else if c == '6' {}
    else if IsDigit(c) {
      assert KeyOf(c) !in {2, 3, 4, 5, 6};
    }
  }

  lemma LowLiteral()
    ensures multiset("12345") == multiset{'1', '2', '3', '4', '5'}
  {
    assert "12345" == ['1'] + ['2'] + ['3'] + ['4'] + ['5'];
  }

  lemma HighLiteral()
    ensures multiset("23456") == multiset{'2', '3', '4', '5', '6'}
  {
    assert "23456" == ['2'] + ['3'] + ['4'] + ['5'] + ['6'];
  }

  lemma LowStraightRunes()
    ensures forall c :: multiset("12345")[c] == if IsDigit(c) then multiset{1, 2, 3, 4, 5}[KeyOf(c)] else 0
  {
    LowLiteral();
    forall c ensures multiset("12345")[c] == if IsDigit(c) then multiset{1, 2, 3, 4, 5}[KeyOf(c)] else 0 {
      LowStraightRune(c);
    }
  }

  lemma HighStraightRunes()
    ensures forall c :: multiset("23456")[c] == if IsDigit(c) then multiset{2, 3, 4, 5, 6}[KeyOf(c)] else 0
  {
    HighLiteral();
    forall c ensures multiset("23456")[c] == if IsDigit(c) then multiset{2, 3, 4, 5, 6}[KeyOf(c)] else 0 {
      HighStraightRune(c);
    }
  }

  lemma LowStraightCheck(h: seq<int>)
    requires IsHand(h)
    ensures HandString(h) == "12345" <==> multiset(h) == multiset{1, 2, 3, 4, 5}
  {
    LowStraightRunes();
    assert forall i, j :: 0 <= i < j < |"12345"| ==> "12345"[i] <= "12345"[j];
    assert forall k :: multiset{1, 2, 3, 4, 5}[k] > 0 ==> 0 <= k <= 9;
    SortedStringIs(h, "12345", multiset{1, 2, 3, 4, 5});
  }

  lemma HighStraightCheck(h: seq<int>)
    requires IsHand(h)
    ensures HandString(h) == "23456" <==> multiset(h) == multiset{2, 3, 4, 5, 6}
  {
    HighStraightRunes();
    assert forall i, j :: 0 <= i < j < |"23456"| ==> "23456"[i] <= "23456"[j];
    assert forall k :: multiset{2, 3, 4, 5, 6}[k] > 0 ==> 0 <= k <= 9;
    SortedStringIs(h, "23456", multiset{2, 3, 4, 5, 6});
  }

  /** The straight checks of the evaluator fire exactly on the two straights. */
  lemma StraightChecks(h: seq<int>)
    requires IsHand(h)
    ensures HandString(h) == "12345" <==> multiset(h) == multiset{1, 2, 3, 4, 5}
    ensures HandString(h) == "23456" <==> multiset(h) == multiset{2, 3, 4, 5, 6}
  {
    LowStraightCheck(h);
    HighStraightCheck(h);
  }

  lemma DecimalFacts()
    ensures JoinDecimal([5]) == "5" && JoinDecimal([4]) == "4" && JoinDecimal([3]) == "3"
    ensures JoinDecimal([2]) == "2" && JoinDecimal([3, 2]) == "32" && JoinDecimal([2, 2]) == "22"
  {
    assert Itoa(5) == "5" && Itoa(4) == "4" && Itoa(3) == "3" && Itoa(2) == "2";
    assert [3, 2][1..] == [2];
    assert [2, 2][1..] == [2];
  }

  /** The setup every non-straight case shares. */
  lemma CaseSetup(h: seq<int>)
    requires IsHand(h)
    ensures SingleDigits(h)
    ensures forall k :: Occ(h, k) == Ind(h[0] == k) + Ind(h[1] == k) + Ind(h[2] == k) + Ind(h[3] == k) + Ind(h[4] == k)
    ensures forall k :: k in Keys(HandString(h), Repeated) <==> 0 <= k <= 9 && Occ(h, k) > 1
    ensures StrictlyDescending(Keys(HandString(h), Repeated))
    ensures
      var ks := Keys(HandString(h), Repeated);
      var cs := RepeatCounts(HandString(h));
      |cs| == |ks| && forall i :: 0 <= i < |ks| ==> cs[i] == Occ(h, ks[i])
    ensures HandString(h) == "12345" <==> multiset(h) == multiset{1, 2, 3, 4, 5}
    ensures HandString(h) == "23456" <==> multiset(h) == multiset{2, 3, 4, 5, 6}
  {
    assert SingleDigits(h);
    OccOfFive(h);
    KeysOfDigits(h, Repeated);
    CountsOfDigits(h);
    StraightChecks(h);
    DecimalFacts();
  }

  /** One value occurs four or five times: it is the only key, with its count. */
  lemma OneRepeated(h: seq<int>, k: int)
    requires IsHand(h) && Occ(h, k) >= 4
    ensures Keys(HandString(h), Repeated) == [k]
    ensures RepeatCounts(HandString(h)) == [Occ(h, k)]
  {
    forall j | j != k ensures !Wants(Repeated, Occ(h, j)) {
      OccPairBound(h, k, j);
    }
    OneWanted(h, Repeated, k);
    RepeatedKeys(h);
  }

  lemma RankFive(s: string, d: seq<int>, k: int)
    requires s != "12345" && s != "23456" && Keys(s, Repeated) == [k] && Pattern(s) == "5"
    ensures Rank(s, d) == Some(Ranking(7, Filled(FiveOfAKind, KindSuffix(k)), [k]))
  {
  }

  lemma RankFour(s: string, d: seq<int>, k: int)
    requires s != "12345" && s != "23456" && Keys(s, Repeated) == [k] && Pattern(s) == "4"
    ensures Rank(s, d) == Some(Ranking(6, Filled(FourOfAKind, KindSuffix(k)), [k]))
  {
    assert Pattern(s) != "5";
  }

  lemma FiveOfAKindCase(h: seq<int>, k: int)
    requires IsHand(h) && Occ(h, k) == 5
    ensures Evaluate(h) == Some(PokerHandResult(7, Filled(FiveOfAKind, KindSuffix(k)), [k], h))
  {
    var s := HandString(h);
    NotStraight(h, k);
    OneRepeated(h, k);
    PatternIs(s, [5]);
    DecimalFacts();
    RankFive(s, SortDescending(h), k);
    EvaluateIs(h, Ranking(7, Filled(FiveOfAKind, KindSuffix(k)), [k]));
  }

  lemma FourOfAKindCase(h: seq<int>, k: int)
    requires IsHand(h) && Occ(h, k) == 4
    ensures Evaluate(h) == Some(PokerHandResult(6, Filled(FourOfAKind, KindSuffix(k)), [k], h))
  {
    var s := HandString(h);
    NotStraight(h, k);
    OneRepeated(h, k);
    PatternIs(s, [4]);
    DecimalFacts();
    RankFour(s, SortDescending(h), k);
    EvaluateIs(h, Ranking(6, Filled(FourOfAKind, KindSuffix(k)), [k]));
  }

  /** Distinct values share the hand's dice. */
  lemma {:induction false} OccPairBound(h: seq<int>, a: int, b: int)
    requires a != b
    ensures Occ(h, a) + Occ(h, b) <= |h|
    decreases |h|
  {
    if |h| > 0 {
      OccPairBound(h[1..], a, b);
      assert h == [h[0]] + h[1..];
      assert multiset(h) == multiset{h[0]} + multiset(h[1..]);
    }
  }

  lemma {:induction false} OccTripleBound(h: seq<int>, a: int, b: int, c: int)
    requires a != b && b != c && a != c
    ensures Occ(h, a) + Occ(h, b) + Occ(h, c) <= |h|
    decreases |h|
  {
    if |h| > 0 {
      OccTripleBound(h[1..], a, b, c);
      assert h == [h[0]] + h[1..];
      assert multiset(h) == multiset{h[0]} + multiset(h[1..]);
    }
  }

  /** A value with no die off the listed ones occurs on some die. */
  lemma OccOfPresent(h: seq<int>, i: nat)
    requires i < |h|
    ensures Occ(h, h[i]) >= 1
  {
    assert h[i] in multiset(h);
  }

  /** Neither straight, since `k` occurs more than once. */
  lemma NotStraight(h: seq<int>, k: int)
    requires IsHand(h) && Occ(h, k) > 1
    ensures HandString(h) != "12345" && HandString(h) != "23456"
  {
    StraightChecks(h);
    assert multiset{1, 2, 3, 4, 5}[k] <= 1 && multiset{2, 3, 4, 5, 6}[k] <= 1;
  }

  /** The repeated keys and their counts, in candidate order. */
  lemma RepeatedKeys(h: seq<int>)
    requires IsHand(h)
    ensures forall k :: k in Keys(HandString(h), Repeated) <==> 1 <= k <= 6 && Occ(h, k) > 1
    ensures StrictlyDescending(Keys(HandString(h), Repeated))
    ensures
      var ks := Keys(HandString(h), Repeated);
      var cs := RepeatCounts(HandString(h));
      |cs| == |ks| && forall i :: 0 <= i < |ks| ==> cs[i] == Occ(h, ks[i])
  {
    KeysOfDigits(h, Repeated);
    CountsOfDigits(h);
    OccOutsideFaces(h);
  }

  /** The keys a hand's string lists for `w`, as a set of faces. */
  lemma WantedKeys(h: seq<int>, w: Want)
    requires IsHand(h) && !Wants(w, 0)
    ensures forall k :: k in Keys(HandString(h), w) <==> 1 <= k <= 6 && Wants(w, Occ(h, k))
    ensures StrictlyDescending(Keys(HandString(h), w))
  {
    KeysOfDigits(h, w);
    OccOutsideFaces(h);
  }

  /** The evaluation of a hand is the ranking of its sorted digit string. */
  lemma EvaluateIs(h: seq<int>, k: Ranking)
    requires Rank(HandString(h), SortDescending(h)) == Some(k)
    ensures Evaluate(h) == Some(PokerHandResult(k.rank, k.description, k.tiebreakers, h))
  {
  }

  lemma RankFullHouse(s: string, d: seq<int>, t: int, p: int)
    requires s != "12345" && s != "23456" && |Keys(s, Repeated)| > 0 && Pattern(s) == "32"
    requires Keys(s, Exactly(3)) == [t] && Keys(s, Exactly(2)) == [p]
    ensures Rank(s, d) == Some(Ranking(5, Filled(FullHouse, KindSuffix(t) + KindSuffix(p)), [t, p]))
  {
    assert Pattern(s) != "5" && Pattern(s) != "4" && Pattern(s) != "3";
  }

  lemma RankThree(s: string, d: seq<int>, t: int)
    requires s != "12345" && s != "23456" && Keys(s, Repeated) == [t] && Pattern(s) == "3"
    ensures Rank(s, d) == Some(Ranking(3, Filled(ThreeOfAKind, KindSuffix(t)), [t] + Keys(s, Once)))
  {
    assert Pattern(s) != "5" && Pattern(s) != "4";
  }

  lemma RankTwoPair(s: string, d: seq<int>, p: int, q: int, e: int)
    requires s != "12345" && s != "23456" && |Keys(s, Repeated)| > 0 && Pattern(s) == "22"
    requires Keys(s, Exactly(2)) == [p, q] && Keys(s, Once) == [e]
    ensures Rank(s, d) == Some(Ranking(2, Filled(TwoPair, KindSuffix(p) + KindSuffix(q)), [p, q, e]))
  {
    assert Pattern(s) != "5" && Pattern(s) != "4" && Pattern(s) != "3" && Pattern(s) != "32";
  }

  lemma RankOnePair(s: string, d: seq<int>, p: int)
    requires s != "12345" && s != "23456" && Keys(s, Repeated) == [p] && Pattern(s) == "2"
    ensures Rank(s, d) == Some(Ranking(1, Filled(OnePair, KindSuffix(p)), [p] + Keys(s, Once)))
  {
    assert Pattern(s) != "5" && Pattern(s) != "4" && Pattern(s) != "3";
    assert Pattern(s) != "32" && Pattern(s) != "22";
  }

  /** Exactly two values repeat: they are the keys, highest first, with their counts. */
  lemma TwoRepeated(h: seq<int>, a: int, b: int)
    requires IsHand(h) && a > b && Occ(h, a) > 1 && Occ(h, b) > 1
    requires forall k :: k != a && k != b ==> Occ(h, k) <= 1
    ensures Keys(HandString(h), Repeated) == [a, b]
    ensures RepeatCounts(HandString(h)) == [Occ(h, a), Occ(h, b)]
  {
    TwoWanted(h, Repeated, a, b);
    RepeatedKeys(h);
    var cs := RepeatCounts(HandString(h));
    assert |cs| == 2 && cs[0] == Occ(h, a) && cs[1] == Occ(h, b);
  }

  /** The count pattern of a string whose repeated counts are a permutation of `d`. */
  lemma PatternIs(s: string, d: seq<int>)
    requires Descending(d) && multiset(RepeatCounts(s)) == multiset(d)
    ensures Pattern(s) == JoinDecimal(d)
  {
    SortDescendingIs(RepeatCounts(s), d);
  }

  /** The only value whose count is wanted is the single key. */
  lemma OneWanted(h: seq<int>, w: Want, k: int)
    requires IsHand(h) && !Wants(w, 0) && Wants(w, Occ(h, k))
    requires forall j :: j != k ==> !Wants(w, Occ(h, j))
    ensures Keys(HandString(h), w) == [k]
  {
    var ks := Keys(HandString(h), w);
    WantedKeys(h, w);
    OccOutsideFaces(h);
    assert forall j :: j in ks <==> j in [k];
    DescendingBySet(ks, [k]);
  }

  /** The only two values whose counts are wanted are the keys, highest first. */
  lemma TwoWanted(h: seq<int>, w: Want, a: int, b: int)
    requires IsHand(h) && !Wants(w, 0) && a > b && Wants(w, Occ(h, a)) && Wants(w, Occ(h, b))
    requires forall j :: j != a && j != b ==> !Wants(w, Occ(h, j))
    ensures Keys(HandString(h), w) == [a, b]
  {
    var ks := Keys(HandString(h), w);
    WantedKeys(h, w);
    OccOutsideFaces(h);
    assert forall j :: j in ks <==> j in [a, b];
    DescendingBySet(ks, [a, b]);
  }

  /** Three and two cover the hand: nothing else occurs. */
  lemma FullHouseRest(h: seq<int>, t: int, p: int)
    requires IsHand(h) && Occ(h, t) == 3 && Occ(h, p) == 2
    ensures forall k :: k != t && k != p ==> Occ(h, k) == 0
  {
    forall k | k != t && k != p ensures Occ(h, k) == 0 {
      OccTripleBound(h, t, p, k);
    }
  }

  /** Counts three and two, in either order, make the pattern "32". */
  lemma ThreeTwoPattern(s: string)
    requires RepeatCounts(s) == [3, 2] || RepeatCounts(s) == [2, 3]
    ensures Pattern(s) == "32"
  {
    assert multiset([2, 3]) == multiset([3, 2]);
    PatternIs(s, [3, 2]);
    DecimalFacts();
  }

  lemma FullHousePattern(h: seq<int>, t: int, p: int)
    requires IsHand(h) && Occ(h, t) == 3 && Occ(h, p) == 2
    requires forall k :: k != t && k != p ==> Occ(h, k) == 0
    ensures |Keys(HandString(h), Repeated)| == 2 && Pattern(HandString(h)) == "32"
  {
    if t > p {
      TwoRepeated(h, t, p);
    } else {
      TwoRepeated(h, p, t);
    }
    ThreeTwoPattern(HandString(h));
  }

  lemma FullHouseCase(h: seq<int>, t: int, p: int)
    requires IsHand(h) && Occ(h, t) == 3 && Occ(h, p) == 2
    ensures Evaluate(h) == Some(PokerHandResult(5, Filled(FullHouse, KindSuffix(t) + KindSuffix(p)), [t, p], h))
  {
    var s := HandString(h);
    NotStraight(h, t);
    FullHouseRest(h, t, p);
    FullHousePattern(h, t, p);
    OneWanted(h, Exactly(3), t);
    OneWanted(h, Exactly(2), p);
    RankFullHouse(s, SortDescending(h), t, p);
    EvaluateIs(h, Ranking(5, Filled(FullHouse, KindSuffix(t) + KindSuffix(p)), [t, p]));
  }

  lemma ThreeOfAKindCase(h: seq<int>, t: int)
    requires IsHand(h) && Occ(h, t) == 3
    requires forall p :: Occ(h, p) != 2
    ensures Evaluate(h) == Some(PokerHandResult(3, Filled(ThreeOfAKind, KindSuffix(t)),
                                                [t] + Keys(HandString(h), Once), h))
    ensures Kickers(h, Keys(HandString(h), Once))
  {
    var s := HandString(h);
    NotStraight(h, t);
    assert forall k :: k != t ==> Occ(h, k) <= 1 by {
      forall k | k != t ensures Occ(h, k) <= 1 {
        OccPairBound(h, t, k);
        assert Occ(h, k) != 2;
      }
    }
    OneWanted(h, Repeated, t);
    RepeatedKeys(h);
    assert RepeatCounts(s) == [3];
    assert Pattern(s) == "3" by {
      PatternIs(s, [3]);
      DecimalFacts();
    }
    WantedKeys(h, Once);
    OccOutsideFaces(h);
    RankThree(s, SortDescending(h), t);
    EvaluateIs(h, Ranking(3, Filled(ThreeOfAKind, KindSuffix(t)), [t] + Keys(s, Once)));
  }

  /** Two pairs and the kicker cover the hand. */
  lemma TwoPairRest(h: seq<int>, p: int, q: int, e: int)
    requires IsHand(h) && p != q && Occ(h, p) == 2 && Occ(h, q) == 2
    requires e != p && e != q && Occ(h, e) >= 1
    ensures Occ(h, e) == 1
    ensures forall k :: k != p && k != q && k != e ==> Occ(h, k) == 0
  {
    OccTripleBound(h, p, q, e);
    forall k | k != p && k != q && k != e ensures Occ(h, k) == 0 {
      OccQuadBound(h, p, q, e, k);
    }
  }

  lemma {:induction false} OccQuadBound(h: seq<int>, a: int, b: int, c: int, d: int)
    requires a != b && a != c && a != d && b != c && b != d && c != d
    ensures Occ(h, a) + Occ(h, b) + Occ(h, c) + Occ(h, d) <= |h|
    decreases |h|
  {
    if |h| > 0 {
      OccQuadBound(h[1..], a, b, c, d);
      assert h == [h[0]] + h[1..];
      assert multiset(h) == multiset{h[0]} + multiset(h[1..]);
    }
  }

  lemma TwoPairCase(h: seq<int>, p: int, q: int) returns (kicker: int)
    requires IsHand(h) && p > q && Occ(h, p) == 2 && Occ(h, q) == 2
    ensures Occ(h, kicker) == 1
    ensures Evaluate(h) == Some(PokerHandResult(2, Filled(TwoPair, KindSuffix(p) + KindSuffix(q)),
                                                [p, q, kicker], h))
  {
    var s := HandString(h);
    NotStraight(h, p);
    kicker := Kicker(h, p, q);
    TwoPairRest(h, p, q, kicker);
    TwoRepeated(h, p, q);
    assert Pattern(s) == "22" by {
      PatternIs(s, [2, 2]);
      DecimalFacts();
    }
    TwoWanted(h, Exactly(2), p, q);
    OneWanted(h, Once, kicker);
    RankTwoPair(s, SortDescending(h), p, q, kicker);
    EvaluateIs(h, Ranking(2, Filled(TwoPair, KindSuffix(p) + KindSuffix(q)), [p, q, kicker]));
  }

  /** A die showing neither `p` nor `q`, when they cover only four of the five dice. */
  lemma Kicker(h: seq<int>, p: int, q: int) returns (e: int)
    requires IsHand(h) && p != q && Occ(h, p) == 2 && Occ(h, q) == 2
    ensures e != p && e != q && Occ(h, e) >= 1
  {
    OccOfFive(h);
    var i :| 0 <= i < 5 && h[i] != p && h[i] != q;
    e := h[i];
    OccOfPresent(h, i);
  }

  lemma OnePairCase(h: seq<int>, p: int)
    requires IsHand(h) && Occ(h, p) == 2
    requires forall k :: k != p ==> Occ(h, k) <= 1
    ensures Evaluate(h) == Some(PokerHandResult(1, Filled(OnePair, KindSuffix(p)),
                                                [p] + Keys(HandString(h), Once), h))
    ensures Kickers(h, Keys(HandString(h), Once))
  {
    var s := HandString(h);
    NotStraight(h, p);
    RepeatedKeys(h);
    var ks := Keys(s, Repeated);
    assert ks == [p] by {
      DescendingBySet(ks, [p]);
    }
    assert RepeatCounts(s) == [2];
    assert Pattern(s) == "2" by {
      SortDescendingIs([2], [2]);
      DecimalFacts();
    }
    WantedKeys(h, Once);
    OccOutsideFaces(h);
    RankOnePair(s, SortDescending(h), p);
    EvaluateIs(h, Ranking(1, Filled(OnePair, KindSuffix(p)), [p] + Keys(s, Once)));
  }

  lemma NothingCase(h: seq<int>)
    requires IsHand(h)
    requires forall k :: Occ(h, k) <= 1
    requires multiset(h) != multiset{1, 2, 3, 4, 5} && multiset(h) != multiset{2, 3, 4, 5, 6}
    ensures Evaluate(h) == Some(PokerHandResult(0, Fixed(Nothing), SortDescending(h), h))
  {
    CaseSetup(h);
    var s := HandString(h);
    var ks := Keys(s, Repeated);
    assert ks == [] by {
      DescendingBySet(ks, []);
    }
    EvaluateIs(h, Ranking(0, Fixed(Nothing), SortDescending(h)));
  }

  /** No value occurs more often than there are dice. */
  lemma OccAtMostFive(h: seq<int>)
    requires IsHand(h)
    ensures forall k :: Occ(h, k) <= 5
  {
    forall k ensures Occ(h, k) <= 5 {
      OccPairBound(h, k, k + 1);
    }
  }

  /** The evaluator's result exists, is classified as the counts say, and is not the raw fallback. */
  ghost predicate EvaluatesAsClassified(h: seq<int>) {
    Evaluate(h).Some?
    && Classified(h, Evaluate(h).value.rank, Evaluate(h).value.tiebreakers)
    && !Evaluate(h).value.description.Raw?
  }

  /** A value occurring more than once rules out both straights. */
  lemma NotStraightSet(h: seq<int>, k: int)
    requires Occ(h, k) > 1
    ensures multiset(h) != multiset{1, 2, 3, 4, 5} && multiset(h) != multiset{2, 3, 4, 5, 6}
  {
    assert multiset{1, 2, 3, 4, 5}[k] <= 1 && multiset{2, 3, 4, 5, 6}[k] <= 1;
  }

  lemma ClassifiedStraight(h: seq<int>)
    requires IsHand(h)
    requires multiset(h) == multiset{1, 2, 3, 4, 5} || multiset(h) == multiset{2, 3, 4, 5, 6}
    ensures EvaluatesAsClassified(h)
  {
    StraightChecks(h);
    assert multiset{1, 2, 3, 4, 5} != multiset{2, 3, 4, 5, 6} by {
      assert multiset{1, 2, 3, 4, 5}[1] == 1;
    }
    if multiset(h) == multiset{1, 2, 3, 4, 5} {
      EvaluateIs(h, Ranking(4, Fixed(LowStraight), [5]));
    } else {
      EvaluateIs(h, Ranking(4, Fixed(HighStraight), [6]));
    }
  }

  lemma ClassifiedFive(h: seq<int>, k: int)
    requires IsHand(h) && Occ(h, k) == 5
    ensures EvaluatesAsClassified(h)
  {
    NotStraightSet(h, k);
    FiveOfAKindCase(h, k);
  }

  lemma ClassifiedFour(h: seq<int>, k: int)
    requires IsHand(h) && Occ(h, k) == 4
    requires forall j :: Occ(h, j) != 5
    ensures EvaluatesAsClassified(h)
  {
    NotStraightSet(h, k);
    FourOfAKindCase(h, k);
  }

  lemma ClassifiedFullHouse(h: seq<int>, t: int, p: int)
    requires IsHand(h) && Occ(h, t) == 3 && Occ(h, p) == 2
    requires forall j :: Occ(h, j) != 5 && Occ(h, j) != 4
    ensures EvaluatesAsClassified(h)
  {
    NotStraightSet(h, t);
    FullHouseCase(h, t, p);
  }

  lemma ClassifiedThree(h: seq<int>, t: int)
    requires IsHand(h) && Occ(h, t) == 3
    requires forall j :: Occ(h, j) != 5 && Occ(h, j) != 4 && Occ(h, j) != 2
    ensures EvaluatesAsClassified(h)
  {
    NotStraightSet(h, t);
    ThreeOfAKindCase(h, t);
    var tb := [t] + Keys(HandString(h), Once);
    assert tb[1..] == Keys(HandString(h), Once);
  }

  lemma ClassifiedTwoPair(h: seq<int>, p: int, q: int)
    requires IsHand(h) && p > q && Occ(h, p) == 2 && Occ(h, q) == 2
    requires forall j :: Occ(h, j) != 5 && Occ(h, j) != 4 && Occ(h, j) != 3
    ensures EvaluatesAsClassified(h)
  {
    NotStraightSet(h, p);
    var kicker := TwoPairCase(h, p, q);
  }

  lemma ClassifiedOnePair(h: seq<int>, p: int)
    requires IsHand(h) && Occ(h, p) == 2
    requires forall j :: Occ(h, j) != 5 && Occ(h, j) != 4 && Occ(h, j) != 3
    requires forall j :: j != p ==> Occ(h, j) != 2
    ensures EvaluatesAsClassified(h)
  {
    NotStraightSet(h, p);
    OccAtMostFive(h);
    assert forall k :: k != p ==> Occ(h, k) <= 1;
    assert !exists a, b :: a > b && Occ(h, a) == 2 && Occ(h, b) == 2;
    OnePairCase(h, p);
    var tb := [p] + Keys(HandString(h), Once);
    assert tb[1..] == Keys(HandString(h), Once);
  }

  lemma ClassifiedNothing(h: seq<int>)
    requires IsHand(h)
    requires multiset(h) != multiset{1, 2, 3, 4, 5} && multiset(h) != multiset{2, 3, 4, 5, 6}
    requires forall j :: Occ(h, j) <= 1
    ensures EvaluatesAsClassified(h)
  {
    NothingCase(h);
  }

  /**
    On every hand of five faces the evaluator returns a result (no panic),
    never falls through to the raw count-pattern description, and ranks the
    hand as the occurrence counts say.
   */
  lemma EvaluateClassified(h: seq<int>)
    requires IsHand(h)
    ensures EvaluatesAsClassified(h)
  {
    OccAtMostFive(h);
    if multiset(h) == multiset{1, 2, 3, 4, 5} || multiset(h) == multiset{2, 3, 4, 5, 6} {
      ClassifiedStraight(h);
    } else if k :| Occ(h, k) == 5 {
      ClassifiedFive(h, k);
    } else if k :| Occ(h, k) == 4 {
      ClassifiedFour(h, k);
    } else if t :| Occ(h, t) == 3 {
      if p :| Occ(h, p) == 2 {
        ClassifiedFullHouse(h, t, p);
      } else {
        ClassifiedThree(h, t);
      }
    } else if p, q :| p > q && Occ(h, p) == 2 && Occ(h, q) == 2 {
      ClassifiedTwoPair(h, p, q);
    } else if p :| Occ(h, p) == 2 {
      assert forall j :: j != p ==> Occ(h, j) != 2;
      ClassifiedOnePair(h, p);
    } else {
      ClassifiedNothing(h);
    }
  }

  lemma {:induction false} DigitsAppend(a: seq<int>, b: seq<int>)
    ensures Digits(a + b) == Digits(a) + Digits(b)
    decreases |a|
  {
    if |a| == 0 {
      assert a + b == b;
    } else {
      assert (a + b)[1..] == a[1..] + b;
      DigitsAppend(a[1..], b);
    }
  }

  /** Digits of `b` with the value at `i` taken out, plus that value's text. */
  lemma DigitsWithout(b: seq<int>, i: nat)
    requires i < |b|
    ensures multiset(Digits(b)) == multiset(Itoa(b[i])) + multiset(Digits(b[..i] + b[i + 1..]))
  {
    SplitAround(b, i);
    DigitsWithoutParts(b[..i], b[i], b[i + 1..]);
  }

  /** A sequence is its part before `i`, its element at `i`, and its part after. */
  lemma SplitAround(b: seq<int>, i: nat)
    requires i < |b|
    ensures b == b[..i] + ([b[i]] + b[i + 1..])
  {
    var c := b[..i] + ([b[i]] + b[i + 1..]);
    forall k | 0 <= k < |b| ensures c[k] == b[k] {
      if k > i {
        assert c[k] == b[i + 1..][k - i - 1];
      }
    }
  }

  /** The same fact for a sequence given as its three parts. */
  lemma DigitsWithoutParts(l: seq<int>, x: int, r: seq<int>)
    ensures multiset(Digits(l + ([x] + r))) == multiset(Itoa(x)) + multiset(Digits(l + r))
  {
    DigitsAround(l, x, r);
    DigitsAppend(l, r);
    ThreeParts(Digits(l), Itoa(x), Digits(r));
  }

  /** The digit string of `l`, then `x`, then `r`. */
  lemma DigitsAround(l: seq<int>, x: int, r: seq<int>)
    ensures Digits(l + ([x] + r)) == Digits(l) + (Itoa(x) + Digits(r))
  {
    DigitsAppend(l, [x] + r);
    assert ([x] + r)[1..] == r;
  }

  /** Taking the middle of three strings out of their multiset. */
  lemma ThreeParts(a: string, x: string, c: string)
    ensures multiset(a + (x + c)) == multiset(x) + multiset(a + c)
  {
    assert multiset(a + (x + c)) == multiset(a) + multiset(x + c);
    assert multiset(x + c) == multiset(x) + multiset(c);
    assert multiset(a + c) == multiset(a) + multiset(c);
  }

  /** Reordering the values reorders the characters of their digit string. */
  lemma {:induction false} DigitsMultiset(a: seq<int>, b: seq<int>)
    requires multiset(a) == multiset(b)
    ensures multiset(Digits(a)) == multiset(Digits(b))
    decreases |a|
  {
    if |a| == 0 {
      assert |multiset(b)| == 0;
      assert b == [];
    } else {
      var x := a[0];
      assert a == [x] + a[1..];
      assert multiset(a) == multiset{x} + multiset(a[1..]);
      assert x in multiset(b);
      var i :| 0 <= i < |b| && b[i] == x;
      var rest := b[..i] + b[i + 1..];
      assert b == b[..i] + [x] + b[i + 1..];
      assert multiset(b) == multiset(b[..i]) + multiset{x} + multiset(b[i + 1..]);
      assert multiset(rest) == multiset(b[..i]) + multiset(b[i + 1..]);
      assert multiset(a[1..]) == multiset(a) - multiset{x};
      assert multiset(rest) == multiset(b) - multiset{x};
      DigitsMultiset(a[1..], rest);
      DigitsWithout(b, i);
      assert Digits(a) == Itoa(x) + Digits(a[1..]);
    }
  }

  /**
    The evaluation depends only on the multiset of the values: dice listed
    in another order give the same outcome, rank, description and tie-breakers.
   */
  lemma EvaluateMultiset(a: seq<int>, b: seq<int>)
    requires multiset(a) == multiset(b)
    ensures Evaluate(a).Some? <==> Evaluate(b).Some?
    ensures Evaluate(a).Some? ==>
      Evaluate(a).value.rank == Evaluate(b).value.rank
      && Evaluate(a).value.description == Evaluate(b).value.description
      && Evaluate(a).value.tiebreakers == Evaluate(b).value.tiebreakers
  {
    DigitsMultiset(a, b);
    SortRunesMultiset(Digits(a), Digits(b));
    SortDescendingMultiset(a, b);
    assert SortRunes(Digits(a)) == SortRunes(Digits(b));
    assert SortDescending(a) == SortDescending(b);
  }

  /** Swapping the two hands swaps the winner and keeps ties. */
  lemma CompareSwap(x: PokerHandResult, y: PokerHandResult)
    ensures Compare(x, y) == Tie <==> Compare(y, x) == Tie
    ensures forall hi, lo :: Compare(x, y) == Beats(Player, hi, lo) <==> Compare(y, x) == Beats(Dealer, hi, lo)
  {
    var a, b := x.tiebreakers, y.tiebreakers;
    if x.rank == y.rank {
      assert AgreeOnCommon(a, b) <==> AgreeOnCommon(b, a);
      if !AgreeOnCommon(a, b) {
        var i := FirstDifference(a, b, 0).value;
        assert DiffersFirstAt(a, b, i);
        assert DiffersFirstAt(b, a, i);
      }
    }
  }
}

=== FILE: log_ring.dfy ===
/**
  The plugin's activity log: at most 100 entries, the newest last. (The
  wall-clock timestamp each entry carries is left to the caller.)
 */
module LogRing {

  const LogCapacity: nat := 100

  function Min(a: int, b: int): int {
    if a <= b then a else b
  }

  /**
    `AddLogMsg`: append the entry, then drop the oldest one if that took the
    log past its capacity.
   */
  function Append(log: seq<string>, entry: string): (r: seq<string>)
    ensures |r| > 0 && r[|r| - 1] == entry
    ensures |r| == |log| + 1 || |r| == |log|
    ensures r == (log + [entry])[|log| + 1 - |r|..]
    ensures |log| <= LogCapacity ==> |r| == Min(|log| + 1, LogCapacity)
  {
    var grown := log + [entry];
    if |grown| > LogCapacity then grown[1..] else grown
  }

  /** One more entry keeps a log within capacity within it. */
  lemma AppendWithin(log: seq<string>, entry: string)
    ensures |log| <= LogCapacity ==> |Append(log, entry)| <= LogCapacity
  {
  }

  /** Appending the entries one after another. */
  function AppendAll(log: seq<string>, entries: seq<string>): seq<string>
    decreases |entries|
  {
    if |entries| == 0 then log else AppendAll(Append(log, entries[0]), entries[1..])
  }

  /**
    However many entries arrive, a log that starts within capacity keeps
    exactly the newest `min(total, 100)` of everything it was given, in order.
   */
  lemma {:induction false} AppendAllKeepsNewest(log: seq<string>, entries: seq<string>)
    requires |log| <= LogCapacity
    ensures var r := AppendAll(log, entries);
      var all := log + entries;
      |r| == Min(|all|, LogCapacity) && r == all[|all| - |r|..]
    decreases |entries|
  {
    if |entries| > 0 {
      var log' := Append(log, entries[0]);
      AppendAllKeepsNewest(log', entries[1..]);
      var drop := AppendStep(log, entries);
      var all, all' := log + entries, log' + entries[1..];
      var r := AppendAll(log', entries[1..]);
      assert |r| == Min(|all|, LogCapacity);
      SuffixOfSuffix(all, drop, |all'| - |r|);
    } else {
      assert log + entries == log;
    }
  }

  /**
    One append, then the remaining entries: the whole history without its
    first `drop` entries, where `drop` is one only for a full log.
   */
  lemma AppendStep(log: seq<string>, entries: seq<string>) returns (drop: nat)
    requires |log| <= LogCapacity && |entries| > 0
    ensures var log' := Append(log, entries[0]);
      && drop <= 1 && (drop == 1 ==> |log| == LogCapacity)
      && drop <= |log + entries|
      && log' + entries[1..] == (log + entries)[drop..]
  {
    var log' := Append(log, entries[0]);
    drop := |log| + 1 - |log'|;
    assert entries == [entries[0]] + entries[1..];
    assert log + entries == (log + [entries[0]]) + entries[1..];
    assert log' == (log + [entries[0]])[drop..];
  }

  lemma SuffixOfSuffix<T>(a: seq<T>, i: nat, j: nat)
    requires i + j <= |a|
    ensures a[i..][j..] == a[i + j..]
  {
  }
}

=== FILE: protocol.dfy ===
/**
  Decoding of the inbound dice packets as the throw, off and result handlers
  read them. `None` is a packet the handler logs and drops.
 */
module Protocol {
  import opened Common
  import opened Decimal
  import opened Wire
  import opened Text
  import opened Dice

  /** The payload of a throw packet: the id in the last four bytes, or the first field of the text. */
  function DecodeThrowId(v: Variant, data: seq<byte>): (r: Option<int>)
    ensures v.Flash? ==> (r.Some? <==> |data| >= 4)
    ensures v.Flash? && r.Some? ==> r.value == Uint32(data[|data| - 4..])
    ensures v.Origins? && r.Some? ==> |Fields(TextOf(data))| > 0
    ensures v.Origins? && r.Some? ==> Atoi(Fields(TextOf(data))[0]) == r
  {
    if v.Flash? then
      if |data| >= 4 then Some(Uint32(data[|data| - 4..])) else None
    else
      var fields := Fields(TextOf(data));
      if |fields| == 0 then None else Atoi(fields[0])
  }

  /** The payload of an off packet: the id in the first four bytes, or the whole text. */
  function DecodeOffId(v: Variant, data: seq<byte>): (r: Option<int>)
    ensures v.Flash? ==> (r.Some? <==> |data| >= 4)
    ensures v.Flash? && r.Some? ==> r.value == Uint32(data[..4])
    ensures v.Origins? ==> r == Atoi(TextOf(data))
    ensures v.Origins? && !IsAsciiBytes(data) ==> r.None?
  {
    if v.Flash? then
      if |data| >= 4 then Some(Uint32(data[..4])) else None
    else
      TextOfAsciiIff(data);
      Atoi(TextOf(data))
  }

  /** A decoded result: the die and its face, after the Origins offset. */
  datatype Reading = Reading(id: int, value: int)

  /** Flash's placeholders for a die still in the air. */
  predicate StillRolling(b: byte) {
    b == 255 || b == 100
  }

  /** The Origins face on the wire is offset by 38 times the die's id (in 64-bit `int`). */
  function Adjust(id: int, raw: int): (value: int)
    ensures IsInt64(value)
    ensures value == Wrap64(raw - id * 38)
    ensures IsInt64(raw - id * 38) ==> value == raw - id * 38
  {
    var offset := Wrap64(id * 38);
    assert ((raw - offset) - (raw - id * 38)) % TwoTo64 == 0 by {
      assert (raw - offset) - (raw - id * 38) == -(offset - id * 38);
    }
    Wrap64Congruent(raw - offset, raw - id * 38);
    Wrap64(raw - offset)
  }

  /**
    The result handler's decoding. Flash: at least five bytes, the id in the
    first four and the face in the last, placeholders dropped. Origins: at
    least two fields, both decimal, the face less the id offset.
   */
  function DecodeResult(v: Variant, data: seq<byte>): (r: Option<Reading>)
    ensures v.Flash? ==> (r.Some? <==> |data| >= 5 && !StillRolling(data[|data| - 1]))
    ensures v.Flash? && r.Some? ==> r.value == Reading(Uint32(data[..4]), data[|data| - 1])
    ensures v.Origins? ==>
      var fs := Fields(TextOf(data));
      (r.Some? <==> |fs| >= 2 && Atoi(fs[0]).Some? && Atoi(fs[1]).Some?)
    ensures v.Origins? && r.Some? ==>
      var fs := Fields(TextOf(data));
      |fs| >= 2 && Atoi(fs[0]) == Some(r.value.id)
      && exists raw :: Atoi(fs[1]) == Some(raw) && r.value.value == Adjust(r.value.id, raw)
  {
    if v.Flash? then
      if |data| >= 5 then
        var value := data[|data| - 1];
        if StillRolling(value) then None else Some(Reading(Uint32(data[..4]), value))
      else None
    else
      var fs := Fields(TextOf(data));
      if |fs| < 2 then None
      else
        match Atoi(fs[0])
        case None => None
        case Some(id) =>
          match Atoi(fs[1])
          case None => None
          case Some(raw) => Some(Reading(id, Adjust(id, raw)))
  }

  lemma Uint32Suffix(b: seq<byte>)
    requires |b| == 4
    ensures b[|b| - 4..] == b && b[..4] == b
  {
  }

  /** A Flash throw or off payload reads back as the id's low 32 bits. */
  lemma FlashIdRoundTrip(id: int)
    ensures DecodeThrowId(Flash, IdPayload(Flash, id)) == Some(Truncate32(id))
    ensures DecodeOffId(Flash, IdPayload(Flash, id)) == Some(Truncate32(id))
  {
    var b := IdPayload(Flash, id);
    Uint32Suffix(b);
    Uint32PutUint32(Truncate32(id));
  }

  /** The decimal text of an integer is one field. */
  lemma ItoaIsWord(n: int)
    ensures |Itoa(n)| > 0 && NoSpace(Itoa(n))
  {
    var s := Itoa(n);
    forall i | 0 <= i < |s| ensures !IsSpace(s[i]) {
      assert IsNumeralChar(s[i]);
    }
  }

  /** An Origins throw or off payload reads back as the id, for every 64-bit id. */
  lemma OriginsIdRoundTrip(id: int)
    requires IsInt64(id)
    ensures DecodeThrowId(Origins, IdPayload(Origins, id)) == Some(id)
    ensures DecodeOffId(Origins, IdPayload(Origins, id)) == Some(id)
  {
    ItoaAscii(id);
    TextOfBytesOf(Itoa(id));
    ItoaIsWord(id);
    FieldsOfWord(Itoa(id));
    AtoiItoa(id);
  }

  /** What a die sends when rolled or closed is read back as its id by the throw and off handlers. */
  lemma PacketRoundTrip(v: Variant, d: Die)
    requires IsValid(d) && 0 < d.id < TwoTo32 && IsInt64(d.id)
    ensures Roll(v, d).value.packet.payload == Bytes(IdPayload(v, d.id))
    ensures DecodeThrowId(v, IdPayload(v, d.id)) == Some(d.id)
    ensures DecodeOffId(v, IdPayload(v, d.id)) == Some(d.id)
  {
    if v.Flash? {
      FlashIdRoundTrip(d.id);
    } else {
      OriginsIdRoundTrip(d.id);
    }
  }

  /** The Origins result text "<id> <raw>" decodes to the id and the offset face. */
  lemma OriginsResultRoundTrip(id: int, raw: int)
    requires IsInt64(id) && IsInt64(raw)
    ensures
      var text := Itoa(id) + " " + Itoa(raw);
      IsAscii(text) && DecodeResult(Origins, BytesOf(text)) == Some(Reading(id, Adjust(id, raw)))
  {
    var text := Itoa(id) + " " + Itoa(raw);
    ItoaAscii(id);
    ItoaAscii(raw);
    assert IsAscii(text) by {
      forall i | 0 <= i < |text| ensures text[i] as int < 0x80 {
        if i < |Itoa(id)| {
          assert text[i] == Itoa(id)[i];
        } else if i > |Itoa(id)| {
          assert text[i] == Itoa(raw)[i - |Itoa(id)| - 1];
        }
      }
    }
    TextOfBytesOf(text);
    ItoaIsWord(id);
    ItoaIsWord(raw);
    FieldsOfTwoWords(Itoa(id), Itoa(raw));
    AtoiItoa(id);
    AtoiItoa(raw);
  }

  /** A face sent with its offset reads back as the face. */
  lemma OriginsFaceRecovered(id: int, face: int)
    requires IsInt64(id) && IsInt64(face) && IsInt64(face + id * 38)
    ensures
      var text := Itoa(id) + " " + Itoa(face + id * 38);
      IsAscii(text) && DecodeResult(Origins, BytesOf(text)) == Some(Reading(id, face))
  {
    OriginsResultRoundTrip(id, face + id * 38);
  }

  lemma SmallDecimals()
    ensures Itoa(2) == "2" && Itoa(78) == "78"
  {
    assert NatToDigits(78) == NatToDigits(7) + [DigitChar(8)];
  }

  lemma ExampleBytes()
    ensures IsAscii("2 78") && BytesOf("2 78") == [50, 32, 55, 56]
  {
  }

  /** Die 2 showing 78 on the wire is a 2: 78 - 2 * 38. */
  lemma OriginsResultExample()
    ensures DecodeResult(Origins, [50, 32, 55, 56]) == Some(Reading(2, 2))
  {
    SmallDecimals();
    ExampleBytes();
    OriginsFaceRecovered(2, 2);
    assert Itoa(2) + " " + Itoa(2 + 2 * 38) == "2 78";
  }

  /** The bytes 0x37 0xC2 0xA0 are "7" and a no-break space, which `strings.Fields` splits on. */
  lemma NoBreakSpaceExample()
    ensures TextOf([0x37, 0xC2, 0xA0]) == ['7', '\U{A0}']
    ensures DecodeThrowId(Origins, [0x37, 0xC2, 0xA0]) == Some(7)
  {
    var data: seq<byte> := [0x37, 0xC2, 0xA0];
    assert DecodeRune(data) == ('7', 1);
    assert data[1..] == [0xC2, 0xA0];
    assert DecodeRune(data[1..]) == ('\U{A0}', 2);
    assert data[1..][2..] == [];
    assert TextOf(data) == ['7'] + (['\U{A0}'] + TextOf([]));
    var text := TextOf(data);
    assert text == "7" + ['\U{A0}'];
    FieldsOfWordThen("7", ['\U{A0}']);
    assert Fields(['\U{A0}']) == [];
    assert Atoi("7") == Some(7) by {
      assert DigitsValue("7") == 7 by {
        assert "7"[..0] == "";
      }
    }
  }
}

=== FILE: registry.dfy ===
/**
  The list of dice at the booth: filled in from throw and off packets up to
  the variant's capacity, and updated in place by result packets.
 */
module Registry {
  import opened Common
  import opened Decimal
  import opened Dice
  import opened Protocol

  type Registry = seq<Die>

  predicate UniqueIds(r: Registry) {
    forall i, j :: 0 <= i < j < |r| ==> r[i].id != r[j].id
  }

  /** What the handlers keep true: no id twice, no more dice than the variant holds. */
  predicate WellFormed(v: Variant, r: Registry) {
    UniqueIds(r) && |r| <= MaxDice(v)
  }

  predicate Listed(r: Registry, id: int) {
    exists i :: 0 <= i < |r| && r[i].id == id
  }

  /** The first position holding the id, as the handlers' search loops find it. */
  function Find(r: Registry, id: int): (i: Option<nat>)
    ensures i.Some? <==> Listed(r, id)
    ensures i.Some? ==> i.value < |r| && r[i.value].id == id
    ensures i.Some? ==> forall j :: 0 <= j < i.value ==> r[j].id != id
    decreases |r|
  {
    if |r| == 0 then None
    else if r[0].id == id then Some(0)
    else
      match Find(r[1..], id)
      case None =>
        assert forall j :: 1 <= j < |r| ==> r[j] == r[1..][j - 1];
        None
      case Some(k) => Some(k + 1)
  }

  /** A registry after an add, and whether the add filled it to capacity. */
  datatype Added = Added(dice: Registry, filled: bool)

  /** Append `d` when its id is absent and there is room; otherwise nothing changes. */
  function AddIfAbsent(v: Variant, r: Registry, d: Die): (a: Added)
    ensures !Listed(r, d.id) && |r| < MaxDice(v) ==> a.dice == r + [d]
    ensures Listed(r, d.id) || |r| >= MaxDice(v) ==> a.dice == r
    ensures a.filled <==> a.dice != r && |a.dice| == MaxDice(v)
  {
    if Find(r, d.id).None? && |r| < MaxDice(v) then
      var r' := r + [d];
      Added(r', |r'| == MaxDice(v))
    else Added(r, false)
  }

  /** `handleThrowDice` after decoding: a new die is open and rolling. */
  function OnThrow(v: Variant, r: Registry, id: int): (a: Added)
    ensures a.dice == r || a.dice == r + [Die(id, 0, false, true)]
    ensures a.dice == r + [Die(id, 0, false, true)] <==> !Listed(r, id) && |r| < MaxDice(v)
  {
    AddIfAbsent(v, r, Die(id, 0, false, true))
  }

  /** `handleDiceOff` after decoding: a new die is closed and not rolling. */
  function OnOff(v: Variant, r: Registry, id: int): (a: Added)
    ensures a.dice == r || a.dice == r + [Die(id, 0, true, false)]
    ensures a.dice == r + [Die(id, 0, true, false)] <==> !Listed(r, id) && |r| < MaxDice(v)
  {
    AddIfAbsent(v, r, Die(id, 0, true, false))
  }

  /** Adding keeps the ids unique and the list within the variant's capacity. */
  lemma AddKeepsWellFormed(v: Variant, r: Registry, d: Die)
    requires WellFormed(v, r)
    ensures WellFormed(v, AddIfAbsent(v, r, d).dice)
    ensures Listed(AddIfAbsent(v, r, d).dice, d.id) <==> Listed(r, d.id) || |r| < MaxDice(v)
  {
    var r' := AddIfAbsent(v, r, d).dice;
    if !Listed(r, d.id) && |r| < MaxDice(v) {
      assert r'[|r|] == d;
      forall i, j | 0 <= i < j < |r'| ensures r'[i].id != r'[j].id {
        if j == |r| {
          assert r'[i] == r[i];
        }
      }
    }
  }

  /** An added die goes to the end, and a die already listed is never replaced. */
  lemma AddNeverReplaces(v: Variant, r: Registry, d: Die)
    ensures |AddIfAbsent(v, r, d).dice| >= |r|
    ensures AddIfAbsent(v, r, d).dice[..|r|] == r
  {
  }

  /** A throw or off packet that does not decode leaves the registry as it was. */
  function HandleThrow(v: Variant, r: Registry, data: seq<byte>): (a: Added)
    ensures DecodeThrowId(v, data).None? ==> a == Added(r, false)
    ensures DecodeThrowId(v, data).Some? ==> a == OnThrow(v, r, DecodeThrowId(v, data).value)
  {
    match DecodeThrowId(v, data)
    case None => Added(r, false)
    case Some(id) => OnThrow(v, r, id)
  }

  function HandleOff(v: Variant, r: Registry, data: seq<byte>): (r': Registry)
    ensures DecodeOffId(v, data).None? ==> r' == r
    ensures DecodeOffId(v, data).Some? ==> r' == OnOff(v, r, DecodeOffId(v, data).value).dice
  {
    match DecodeOffId(v, data)
    case None => r
    case Some(id) => OnOff(v, r, id).dice
  }

  /** A registry after a result, and whether the result finished a roll the flow waits for. */
  datatype Recorded = Recorded(dice: Registry, completed: bool, logLine: Option<string>)

  /** The log line of a recorded result. */
  function RolledLine(id: int, value: int): string {
    "Dice " + Itoa(id) + " rolled: " + Itoa(value) + "\n"
  }

  /**
    `handleDiceResult` after decoding. `active` says some roll or hit flow is
    running (closing alone does not count). The first die with the id takes
    the face, is closed exactly when the face is 0, and stops rolling (and
    counts as completed) only when it was rolling and a flow is active. An
    unknown id changes nothing.
   */
  function RecordResult(r: Registry, reading: Reading, active: bool): (x: Recorded)
    ensures |x.dice| == |r|
    ensures !Listed(r, reading.id) ==> x == Recorded(r, false, None)
    ensures Listed(r, reading.id) ==>
      var i := Find(r, reading.id).value;
      && x.dice[i].id == r[i].id
      && x.dice[i].value == reading.value
      && x.dice[i].isClosed == (reading.value == 0)
      && x.completed == (r[i].isRolling && active)
      && x.dice[i].isRolling == (r[i].isRolling && !active)
      && (forall j :: 0 <= j < |r| && j != i ==> x.dice[j] == r[j])
      && (x.logLine.Some? <==> active)
      && (active ==> x.logLine == Some(RolledLine(reading.id, reading.value)))
  {
    match Find(r, reading.id)
    case None => Recorded(r, false, None)
    case Some(i) =>
      var d := r[i];
      var completed := d.isRolling && active;
      var d' := Die(d.id, reading.value, reading.value == 0, if completed then false else d.isRolling);
      Recorded(r[i := d'], completed, if active then Some(RolledLine(reading.id, reading.value)) else None)
  }

  /** Recording a result keeps the ids and the length, so the registry stays well formed. */
  lemma RecordKeepsWellFormed(v: Variant, r: Registry, reading: Reading, active: bool)
    requires WellFormed(v, r)
    ensures WellFormed(v, RecordResult(r, reading, active).dice)
    ensures forall j :: 0 <= j < |r| ==> RecordResult(r, reading, active).dice[j].id == r[j].id
  {
    var x := RecordResult(r, reading, active);
    forall j | 0 <= j < |r| ensures x.dice[j].id == r[j].id {
    }
  }

  /** The result packet as a whole: one that does not decode changes nothing. */
  function HandleResult(v: Variant, r: Registry, data: seq<byte>, active: bool): (x: Recorded)
    ensures DecodeResult(v, data).None? ==> x == Recorded(r, false, None)
    ensures DecodeResult(v, data).Some? ==> x == RecordResult(r, DecodeResult(v, data).value, active)
  {
    match DecodeResult(v, data)
    case None => Recorded(r, false, None)
    case Some(reading) => RecordResult(r, reading, active)
  }

  /** A Flash "still rolling" packet never touches the registry. */
  lemma StillRollingIgnored(r: Registry, data: seq<byte>, active: bool)
    requires |data| >= 5 && StillRolling(data[|data| - 1])
    ensures HandleResult(Flash, r, data, active) == Recorded(r, false, None)
  {
  }

  /** A die that receives a result is counted as completed at most once. */
  lemma CompletedOnce(r: Registry, reading: Reading, active: bool)
    requires RecordResult(r, reading, active).completed
    ensures !RecordResult(RecordResult(r, reading, active).dice, reading, active).completed
  {
    var x := RecordResult(r, reading, active);
    var i := Find(r, reading.id).value;
    assert Listed(x.dice, reading.id) by {
      assert x.dice[i].id == reading.id;
    }
    var k := Find(x.dice, reading.id).value;
    assert k == i;
  }
}

=== FILE: session.dfy ===
/**
  The plugin's shared state as one value: the registry, the seven flow
  flags, the chat switches, the 21/13 running sum and hit cursor, the
  activity log and the packets sent so far. Every handler is a function
  from one such state to the next.
 */
module Session {
  import opened Common
  import opened Dice
  import opened Protocol
  import opened Registry
  import opened LogRing

  /** The flow flags: poker, tri, 21 and 13 rolling, the two hitting flags, and closing. */
  datatype Flags = Flags(
    poker: bool, tri: bool, bj: bool, thirteen: bool,
    hitting: bool, thirteenHitting: bool, closing: bool)

  const Idle: Flags := Flags(false, false, false, false, false, false, false)

  /** The guard of the chat dispatcher: any of the seven flags. */
  predicate Busy(f: Flags) {
    f.poker || f.tri || f.bj || f.thirteen || f.hitting || f.thirteenHitting || f.closing
  }

  /** The condition under which a result completes a roll: any flag but closing. */
  predicate Active(f: Flags) {
    f.poker || f.tri || f.bj || f.thirteen || f.thirteenHitting || f.hitting
  }

  datatype State = State(
    variant: Variant,
    dice: Registry,
    flags: Flags,
    chatDisabled: bool,
    muted: bool,
    sum: int,
    next: nat,
    log: seq<string>,
    sent: seq<Packet>)

  /** What every handler keeps true. */
  predicate Invariant(s: State) {
    WellFormed(s.variant, s.dice) && |s.log| <= LogCapacity && IsInt64(s.sum)
  }

  /** `AddLogMsg` on the state. */
  function Logged(s: State, line: string): (r: State)
    ensures r == s.(log := Append(s.log, line))
  {
    s.(log := Append(s.log, line))
  }

  function Sending(s: State, p: Packet): State {
    s.(sent := s.sent + [p])
  }

  /** Chat announcements go out only when chat is enabled and the user is not muted. */
  predicate Announces(s: State) {
    !s.chatDisabled && !s.muted
  }

  /**
    A result line: always logged; shouted in chat (with the Origins shout
    header, whatever the variant) only when chat is on and the user is not
    muted. Nothing else changes.
   */
  function Announce(s: State, line: string, text: string): (r: State)
    ensures r.log == Append(s.log, line) && r.log[|r.log| - 1] == line
    ensures Announces(s) ==> r.sent == s.sent + [Packet(OriginsShout, Str(text))]
    ensures !Announces(s) ==> r.sent == s.sent
    ensures r.(log := s.log, sent := s.sent) == s
  {
    var logged := Logged(s, line);
    if Announces(s) then Sending(logged, Packet(OriginsShout, Str(text))) else logged
  }

  /** `resetDiceState`: the registry is emptied and every flag cleared; nothing else changes. */
  function Reset(s: State): (r: State)
    ensures r.dice == [] && !Busy(r.flags)
    ensures r.(dice := s.dice, flags := s.flags) == s
  {
    s.(dice := [], flags := Idle)
  }

  /** The line logged when a throw fills the registry. */
  const SetupLine: string := "Dice setup successful! Run :roll to confirm"

  /**
    `handleThrowDice`: the decoded die is appended when it is new and there
    is room; the setup line is logged exactly when that append filled the
    registry. A packet that does not decode changes nothing.
   */
  function OnThrowPacket(s: State, data: seq<byte>): (r: State)
    ensures r.dice == HandleThrow(s.variant, s.dice, data).dice
    ensures r.log == (if |r.dice| == MaxDice(s.variant) && r.dice != s.dice then Append(s.log, SetupLine) else s.log)
    ensures r.dice == s.dice ==> r == s
    ensures r.(dice := s.dice, log := s.log) == s
  {
    var a := HandleThrow(s.variant, s.dice, data);
    var s1 := s.(dice := a.dice);
    if a.filled then Logged(s1, SetupLine) else s1
  }

  /** `handleDiceOff`: only the registry changes. */
  function OnOffPacket(s: State, data: seq<byte>): (r: State)
    ensures r.dice == HandleOff(s.variant, s.dice, data)
    ensures r.(dice := s.dice) == s
  {
    s.(dice := HandleOff(s.variant, s.dice, data))
  }

  /** A state after a result packet, and whether that result completed a roll a flow waits for. */
  datatype Received = Received(state: State, completed: bool)

  /**
    `handleDiceResult`: the registry records the reading; while a roll or hit
    flow is active the "Dice <id> rolled: <value>" line is logged, and
    nothing is logged otherwise. Flags, chat and packets never change.
   */
  function OnResultPacket(s: State, data: seq<byte>): (r: Received)
    ensures var x := HandleResult(s.variant, s.dice, data, Active(s.flags));
      r.state.dice == x.dice && r.completed == x.completed
    ensures !Active(s.flags) ==> r.state.log == s.log && !r.completed
    ensures DecodeResult(s.variant, data).None? ==> r == Received(s, false)
    ensures r.state.(dice := s.dice, log := s.log) == s
  {
    var x := HandleResult(s.variant, s.dice, data, Active(s.flags));
    var s1 := s.(dice := x.dice);
    match x.logLine
    case None => Received(s1, x.completed)
    case Some(line) => Received(Logged(s1, line), x.completed)
  }

  /** Throw and off packets keep the registry well formed and the log within capacity. */
  lemma PacketsKeepInvariant(s: State, data: seq<byte>)
    requires Invariant(s)
    ensures Invariant(OnThrowPacket(s, data))
    ensures Invariant(OnOffPacket(s, data))
  {
    var t := DecodeThrowId(s.variant, data);
    if t.Some? {
      AddKeepsWellFormed(s.variant, s.dice, Die(t.value, 0, false, true));
    }
    var o := DecodeOffId(s.variant, data);
    if o.Some? {
      AddKeepsWellFormed(s.variant, s.dice, Die(o.value, 0, true, false));
    }
  }

  /** So do result packets and reset. */
  lemma ResultKeepsInvariant(s: State, data: seq<byte>)
    requires Invariant(s)
    ensures Invariant(OnResultPacket(s, data).state)
    ensures Invariant(Reset(s))
  {
    var d := DecodeResult(s.variant, data);
    if d.Some? {
      RecordKeepsWellFormed(s.variant, s.dice, d.value, Active(s.flags));
    }
  }
}

=== FILE: sorting.dfy ===
/**
  The two `sort.Slice` calls of the hand evaluator: runes ascending and
  integers descending. Both are an insertion sort by an integer key, and a
  sorted permutation is unique when the key is injective.
 */
module Sorting {

  ghost predicate Injective<T(!new)>(key: T -> int) {
    forall x, y :: key(x) == key(y) ==> x == y
  }

  predicate SortedBy<T>(s: seq<T>, key: T -> int) {
    forall i, j :: 0 <= i < j < |s| ==> key(s[i]) <= key(s[j])
  }

  function Insert<T>(x: T, s: seq<T>, key: T -> int): (r: seq<T>)
    requires SortedBy(s, key)
    ensures SortedBy(r, key)
    ensures multiset(r) == multiset(s) + multiset{x}
    ensures |r| == |s| + 1
    ensures r[0] == x || (|s| > 0 && r[0] == s[0])
    decreases |s|
  {
    if |s| == 0 then [x]
    else if key(x) <= key(s[0]) then [x] + s
    else
      var t := Insert(x, s[1..], key);
      assert s == [s[0]] + s[1..];
      assert key(s[0]) <= key(t[0]);
      var r := [s[0]] + t;
      assert forall j :: 0 < j < |r| ==> key(r[0]) <= key(r[j]) by {
        forall j | 0 < j < |r| ensures key(r[0]) <= key(r[j]) {
          assert r[j] == t[j - 1];
          if j > 1 {
            assert key(t[0]) <= key(t[j - 1]);
          }
        }
      }
      r
  }

  /** Insertion sort by `key`, keeping the elements and their multiplicities. */
  function SortBy<T>(s: seq<T>, key: T -> int): (r: seq<T>)
    ensures SortedBy(r, key)
    ensures multiset(r) == multiset(s)
    ensures |r| == |s|
    decreases |s|
  {
    if |s| == 0 then []
    else
      assert s == [s[0]] + s[1..];
      Insert(s[0], SortBy(s[1..], key), key)
  }

  /** With an injective key there is exactly one sorted arrangement of a multiset. */
  lemma {:induction false} SortedUnique<T(!new)>(a: seq<T>, b: seq<T>, key: T -> int)
    requires Injective(key)
    requires SortedBy(a, key) && SortedBy(b, key)
    requires multiset(a) == multiset(b)
    ensures a == b
    decreases |a|
  {
    if |a| > 0 {
      assert |b| == |a| by {
        assert |multiset(a)| == |a| && |multiset(b)| == |b|;
      }
      assert b[0] in multiset(a);
      assert a[0] in multiset(b);
      var i :| 0 <= i < |a| && a[i] == b[0];
      var j :| 0 <= j < |b| && b[j] == a[0];
      assert key(a[0]) <= key(b[0]);
      assert key(b[0]) <= key(a[0]);
      assert a[0] == b[0];
      assert a == [a[0]] + a[1..];
      assert b == [b[0]] + b[1..];
      assert multiset(a) == multiset{a[0]} + multiset(a[1..]);
      assert multiset(b) == multiset{b[0]} + multiset(b[1..]);
      assert multiset(a[1..]) == multiset(a) - multiset{a[0]};
      assert multiset(b[1..]) == multiset(b) - multiset{b[0]};
      SortedUnique(a[1..], b[1..], key);
    } else {
      assert |multiset(b)| == 0;
    }
  }

  /** Sorting is determined by the multiset of its input. */
  lemma SortByMultiset<T(!new)>(a: seq<T>, b: seq<T>, key: T -> int)
    requires Injective(key)
    requires multiset(a) == multiset(b)
    ensures SortBy(a, key) == SortBy(b, key)
  {
    SortedUnique(SortBy(a, key), SortBy(b, key), key);
  }

  /** A sequence already sorted is left as it is. */
  lemma SortBySorted<T(!new)>(s: seq<T>, key: T -> int)
    requires Injective(key)
    requires SortedBy(s, key)
    ensures SortBy(s, key) == s
  {
    SortedUnique(SortBy(s, key), s, key);
  }

  function CharKey(c: char): int { c as int }

  function NegKey(x: int): int { -x }

  lemma CharKeyInjective()
    ensures Injective(CharKey)
  {
  }

  lemma NegKeyInjective()
    ensures Injective(NegKey)
  {
  }

  /** The runes of a string in ascending order. */
  function SortRunes(s: string): (r: string)
    ensures multiset(r) == multiset(s)
    ensures forall i, j :: 0 <= i < j < |r| ==> r[i] <= r[j]
  {
    var r := SortBy(s, CharKey);
    assert SortedBy(r, CharKey);
    r
  }

  predicate Descending(s: seq<int>) {
    forall i, j :: 0 <= i < j < |s| ==> s[i] >= s[j]
  }

  /** Integers in descending order. */
  function SortDescending(s: seq<int>): (r: seq<int>)
    ensures multiset(r) == multiset(s)
    ensures Descending(r)
  {
    var r := SortBy(s, NegKey);
    assert SortedBy(r, NegKey);
    r
  }

  lemma SortRunesMultiset(a: string, b: string)
    requires multiset(a) == multiset(b)
    ensures SortRunes(a) == SortRunes(b)
  {
    CharKeyInjective();
    SortByMultiset(a, b, CharKey);
  }

  lemma SortDescendingMultiset(a: seq<int>, b: seq<int>)
    requires multiset(a) == multiset(b)
    ensures SortDescending(a) == SortDescending(b)
  {
    NegKeyInjective();
    SortByMultiset(a, b, NegKey);
  }

  /** A descending sequence with the same elements is the descending sort. */
  lemma SortDescendingIs(s: seq<int>, d: seq<int>)
    requires Descending(d) && multiset(d) == multiset(s)
    ensures SortDescending(s) == d
  {
    NegKeyInjective();
    assert SortedBy(d, NegKey);
    SortedUnique(SortBy(s, NegKey), d, NegKey);
  }

  /** An ascending string with the same runes is the ascending sort. */
  lemma SortRunesIs(s: string, d: string)
    requires (forall i, j :: 0 <= i < j < |d| ==> d[i] <= d[j]) && multiset(d) == multiset(s)
    ensures SortRunes(s) == d
  {
    CharKeyInjective();
    assert SortedBy(d, CharKey);
    SortedUnique(SortBy(s, CharKey), d, CharKey);
  }
}

=== FILE: text.dfy ===
/**
  The `strings` functions the handlers use: `Fields`, `HasPrefix`,
  `HasSuffix`, `TrimPrefix` and `TrimSpace`, over the white space of
  `unicode.IsSpace`.
 */
module Text {

  /**
    White space as Go's `unicode.IsSpace` sees it: tab, line feed, vertical
    tab, form feed, carriage return, space, U+0085 and U+00A0, and the
    Unicode space separators and line/paragraph separators above them.
   */
  predicate IsSpace(c: char) {
    || c == ' ' || '\t' <= c <= '\r' || c == '\U{85}' || c == '\U{A0}'
    || c == '\U{1680}' || '\U{2000}' <= c <= '\U{200A}' || c == '\U{2028}' || c == '\U{2029}'
    || c == '\U{202F}' || c == '\U{205F}' || c == '\U{3000}'
  }

  predicate AllSpace(s: string) {
    forall i :: 0 <= i < |s| ==> IsSpace(s[i])
  }

  predicate NoSpace(s: string) {
    forall i :: 0 <= i < |s| ==> !IsSpace(s[i])
  }

  /** Length of the run of non-space characters that starts `s`. */
  function WordLength(s: string): (n: nat)
    ensures n <= |s|
    ensures NoSpace(s[..n])
    ensures n < |s| ==> IsSpace(s[n])
    decreases |s|
  {
    if |s| == 0 || IsSpace(s[0]) then 0 else 1 + WordLength(s[1..])
  }

  /** `strings.Fields`: the maximal runs of non-space characters, in order. */
  function Fields(s: string): (fs: seq<string>)
    ensures forall i :: 0 <= i < |fs| ==> |fs[i]| > 0 && NoSpace(fs[i])
    decreases |s|
  {
    if |s| == 0 then []
    else if IsSpace(s[0]) then Fields(s[1..])
    else
      var n := WordLength(s);
      [s[..n]] + Fields(s[n..])
  }

  lemma WordLengthAll(s: string)
    requires NoSpace(s)
    ensures WordLength(s) == |s|
    decreases |s|
  {
    if |s| > 0 {
      assert NoSpace(s[1..]);
      WordLengthAll(s[1..]);
    }
  }

  /** A non-empty word is its own single field. */
  lemma FieldsOfWord(w: string)
    requires |w| > 0 && NoSpace(w)
    ensures Fields(w) == [w]
  {
    WordLengthAll(w);
    assert !IsSpace(w[0]);
    assert w[..|w|] == w;
    assert w[|w|..] == [];
    assert Fields(w[|w|..]) == [];
  }

  lemma WordLengthPrefix(w: string, rest: string)
    requires NoSpace(w)
    requires |rest| > 0 && IsSpace(rest[0])
    ensures WordLength(w + rest) == |w|
    decreases |w|
  {
    if |w| > 0 {
      assert (w + rest)[1..] == w[1..] + rest;
      assert NoSpace(w[1..]);
      WordLengthPrefix(w[1..], rest);
    } else {
      assert w + rest == rest;
    }
  }

  /** Two words separated by one space are two fields. */
  lemma FieldsOfTwoWords(a: string, b: string)
    requires |a| > 0 && NoSpace(a)
    requires |b| > 0 && NoSpace(b)
    ensures Fields(a + " " + b) == [a, b]
  {
    var s := a + " " + b;
    WordLengthPrefix(a, " " + b);
    assert s == a + (" " + b);
    assert s[..|a|] == a;
    assert s[|a|..] == " " + b;
    assert (" " + b)[1..] == b;
    FieldsOfWord(b);
  }

  /** Non-empty runs free of white space: what `strings.Fields` returns. */
  predicate AreWords(ws: seq<string>) {
    forall i :: 0 <= i < |ws| ==> |ws[i]| > 0 && NoSpace(ws[i])
  }

  /** The text `gaps[0] ws[0] gaps[1] ... ws[n-1] gaps[n]`. */
  function Interleave(gaps: seq<string>, ws: seq<string>): string
    requires |gaps| == |ws| + 1
    decreases |ws|
  {
    if |ws| == 0 then gaps[0] else gaps[0] + ws[0] + Interleave(gaps[1..], ws[1..])
  }

  /** Gaps of white space only, each gap between two words non-empty. */
  predicate Separates(gaps: seq<string>) {
    && (forall i :: 0 <= i < |gaps| ==> AllSpace(gaps[i]))
    && (forall i :: 0 < i < |gaps| - 1 ==> |gaps[i]| > 0)
  }

  lemma {:induction false} FieldsAfterSpace(g: string, t: string)
    requires AllSpace(g)
    ensures Fields(g + t) == Fields(t)
    decreases |g|
  {
    if |g| > 0 {
      assert (g + t)[0] == g[0];
      assert (g + t)[1..] == g[1..] + t;
      assert AllSpace(g[1..]);
      FieldsAfterSpace(g[1..], t);
    } else {
      assert g + t == t;
    }
  }

  lemma FieldsOfWordThen(w: string, t: string)
    requires |w| > 0 && NoSpace(w)
    requires |t| == 0 || IsSpace(t[0])
    ensures Fields(w + t) == [w] + Fields(t)
  {
    var s := w + t;
    if |t| == 0 {
      assert s == w;
      FieldsOfWord(w);
    } else {
      WordLengthPrefix(w, t);
      assert !IsSpace(s[0]);
      assert s[..|w|] == w;
      assert s[|w|..] == t;
    }
  }

  lemma SeparatesTail(gaps: seq<string>)
    requires |gaps| > 0 && Separates(gaps)
    ensures Separates(gaps[1..])
  {
    forall i | 0 < i < |gaps[1..]| - 1 ensures |gaps[1..][i]| > 0 {
      assert gaps[1..][i] == gaps[i + 1];
    }
  }

  /** A layout that opens with a non-empty gap, or has no words, starts with white space or is empty. */
  lemma InterleaveGapFirst(gaps: seq<string>, ws: seq<string>)
    requires |gaps| == |ws| + 1 && Separates(gaps)
    requires |ws| > 0 ==> |gaps[0]| > 0
    ensures var t := Interleave(gaps, ws); |t| == 0 || IsSpace(t[0])
  {
    var t := Interleave(gaps, ws);
    if |ws| == 0 {
      assert t == gaps[0];
    } else {
      assert t == gaps[0] + (ws[0] + Interleave(gaps[1..], ws[1..]));
      assert t[0] == gaps[0][0];
    }
  }

  /** Words laid out between white-space gaps are exactly the fields of the text. */
  lemma {:induction false} FieldsOfInterleave(gaps: seq<string>, ws: seq<string>)
    requires |gaps| == |ws| + 1 && Separates(gaps) && AreWords(ws)
    ensures Fields(Interleave(gaps, ws)) == ws
    decreases |ws|
  {
    if |ws| == 0 {
      assert gaps[0] + "" == gaps[0];
      FieldsAfterSpace(gaps[0], "");
    } else {
      var rest := Interleave(gaps[1..], ws[1..]);
      assert Interleave(gaps, ws) == gaps[0] + (ws[0] + rest);
      FieldsAfterSpace(gaps[0], ws[0] + rest);
      SeparatesTail(gaps);
      if |ws| > 1 {
        assert |gaps[1..][0]| > 0;
      }
      InterleaveGapFirst(gaps[1..], ws[1..]);
      FieldsOfWordThen(ws[0], rest);
      assert AreWords(ws[1..]);
      FieldsOfInterleave(gaps[1..], ws[1..]);
      assert [ws[0]] + ws[1..] == ws;
    }
  }

  /** Widening the first gap by a prefix widens the text by that prefix. */
  lemma InterleaveWiden(p: string, gaps: seq<string>, ws: seq<string>)
    requires |gaps| == |ws| + 1
    ensures Interleave([p + gaps[0]] + gaps[1..], ws) == p + Interleave(gaps, ws)
  {
    var wide := [p + gaps[0]] + gaps[1..];
    assert wide[0] == p + gaps[0];
    assert wide[1..] == gaps[1..];
  }

  /** Every text is its fields laid out between white-space gaps. */
  lemma {:induction false} FieldsSplit(s: string) returns (gaps: seq<string>)
    ensures |gaps| == |Fields(s)| + 1 && Separates(gaps)
    ensures s == Interleave(gaps, Fields(s))
    decreases |s|
  {
    if |s| == 0 {
      gaps := [""];
    } else if IsSpace(s[0]) {
      var g := FieldsSplit(s[1..]);
      gaps := [[s[0]] + g[0]] + g[1..];
      InterleaveWiden([s[0]], g, Fields(s[1..]));
      assert [s[0]] + s[1..] == s;
      assert AllSpace(gaps[0]) by {
        forall i | 0 <= i < |gaps[0]| ensures IsSpace(gaps[0][i]) {
          if i > 0 { assert gaps[0][i] == g[0][i - 1]; }
        }
      }
      assert forall i :: 0 < i < |gaps| ==> gaps[i] == g[i];
    } else {
      var n := WordLength(s);
      var g := FieldsSplit(s[n..]);
      gaps := FieldsSplitWord(s, g);
    }
  }

  /** The step of `FieldsSplit` for a text that starts with a word: an empty first gap in front of the rest's gaps. */
  lemma FieldsSplitWord(s: string, g: seq<string>) returns (gaps: seq<string>)
    requires |s| > 0 && !IsSpace(s[0])
    requires var t := s[WordLength(s)..];
      |g| == |Fields(t)| + 1 && Separates(g) && t == Interleave(g, Fields(t))
    ensures |gaps| == |Fields(s)| + 1 && Separates(gaps)
    ensures s == Interleave(gaps, Fields(s))
  {
    var n := WordLength(s);
    var w := s[..n];
    var t := s[n..];
    var ft := Fields(t);
    assert Fields(s) == [w] + ft;
    gaps := [""] + g;
    assert gaps[1..] == g;
    assert ([w] + ft)[1..] == ft;
    assert Interleave(gaps, [w] + ft) == "" + w + Interleave(g, ft);
    assert "" + w + t == s;
    if |ft| > 0 {
      assert IsSpace(t[0]);
      assert |g[0]| > 0;
    }
    SeparatesAfterEmpty(g);
  }

  lemma SeparatesAfterEmpty(g: seq<string>)
    requires Separates(g) && (|g| > 1 ==> |g[0]| > 0)
    ensures Separates([""] + g)
  {
    var gaps := [""] + g;
    assert forall i :: 0 < i < |gaps| ==> gaps[i] == g[i - 1];
  }

  /** A no-break space separates fields: "5", U+00A0, "7" splits into "5" and "7". */
  lemma NoBreakSpaceSplits()
    ensures Fields("5\U{A0}7") == ["5", "7"]
  {
    var gaps := ["", "\U{A0}", ""];
    assert Separates(gaps);
    assert AreWords(["5", "7"]);
    assert Interleave(gaps, ["5", "7"]) == "5\U{A0}7" by {
      assert gaps[1..] == ["\U{A0}", ""] && gaps[1..][1..] == [""];
      assert ["5", "7"][1..] == ["7"] && ["7"][1..] == [];
    }
    FieldsOfInterleave(gaps, ["5", "7"]);
  }

  predicate HasPrefix(s: string, p: string) {
    |p| <= |s| && s[..|p|] == p
  }

  predicate HasSuffix(s: string, p: string) {
    |p| <= |s| && s[|s| - |p|..] == p
  }

  /** `strings.TrimPrefix`: drop `p` once from the front when it is there. */
  function TrimPrefix(s: string, p: string): (r: string)
    ensures HasPrefix(s, p) ==> p + r == s
    ensures !HasPrefix(s, p) ==> r == s
  {
    if HasPrefix(s, p) then s[|p|..] else s
  }

  function TrimLeft(s: string): (r: string)
    ensures |r| <= |s| && r == s[|s| - |r|..]
    ensures |r| > 0 ==> !IsSpace(r[0])
    ensures forall i :: 0 <= i < |s| - |r| ==> IsSpace(s[i])
    decreases |s|
  {
    if |s| > 0 && IsSpace(s[0]) then TrimLeft(s[1..]) else s
  }

  function TrimRight(s: string): (r: string)
    ensures |r| <= |s| && r == s[..|r|]
    ensures |r| > 0 ==> !IsSpace(r[|r| - 1])
    ensures forall i :: |r| <= i < |s| ==> IsSpace(s[i])
    decreases |s|
  {
    if |s| > 0 && IsSpace(s[|s| - 1]) then TrimRight(s[..|s| - 1]) else s
  }

  /**
    `strings.TrimSpace`: the text with its leading and trailing white space
    dropped; what is left is the middle of `s` and neither starts nor ends
    with white space.
   */
  function TrimSpace(s: string): (r: string)
    ensures exists lead, trail :: AllSpace(lead) && AllSpace(trail) && s == lead + r + trail
    ensures |r| > 0 ==> !IsSpace(r[0]) && !IsSpace(r[|r| - 1])
    ensures NoSpace(s) ==> r == s
  {
    var l := TrimLeft(s);
    TrimmedMiddle(s, l, TrimRight(l));
    TrimRight(l)
  }

  lemma TrimmedMiddle(s: string, l: string, r: string)
    requires |l| <= |s| && l == s[|s| - |l|..] && forall i :: 0 <= i < |s| - |l| ==> IsSpace(s[i])
    requires |r| <= |l| && r == l[..|r|] && forall i :: |r| <= i < |l| ==> IsSpace(l[i])
    ensures exists lead, trail :: AllSpace(lead) && AllSpace(trail) && s == lead + r + trail
  {
    var lead, trail := s[..|s| - |l|], l[|r|..];
    assert AllSpace(lead);
    assert AllSpace(trail) by {
      forall i | 0 <= i < |trail| ensures IsSpace(trail[i]) {
        assert trail[i] == l[|r| + i];
      }
    }
    assert s == lead + l && l == r + trail;
    assert s == lead + r + trail;
  }
}

=== FILE: wire.dfy ===
/**
  Byte-level helpers of the two wire encodings: Go's `binary.BigEndian`
  32-bit put/get, the `uint32(...)` truncation, and the byte <-> text view of
  an Origins payload.
 */
module Wire {
  import opened Common

  /** `uint32(x)` on a Go `int`: keep the low 32 bits (two's complement). */
  function Truncate32(x: int): (r: nat)
    ensures r < TwoTo32
    ensures (x - r) % TwoTo32 == 0
    ensures 0 <= x < TwoTo32 ==> r == x
  {
    x % TwoTo32
  }

  /** `binary.BigEndian.PutUint32`: most significant byte first. */
  function PutUint32(n: nat): (b: seq<byte>)
    requires n < TwoTo32
    ensures |b| == 4
  {
    [n / 0x100_0000, (n / 0x1_0000) % 0x100, (n / 0x100) % 0x100, n % 0x100]
  }

  /** `binary.BigEndian.Uint32` on exactly four bytes. */
  function Uint32(b: seq<byte>): (n: nat)
    requires |b| == 4
    ensures n < TwoTo32
  {
    (b[0] as int) * 0x100_0000 + (b[1] as int) * 0x1_0000 + (b[2] as int) * 0x100 + b[3] as int
  }

  /** Quotient and remainder are the unique decomposition x == q * a + r with 0 <= r < a. */
  lemma DivModUnique(x: int, a: int, q: int, r: int)
    requires a > 0 && 0 <= r < a && x == q * a + r
    ensures x / a == q && x % a == r
  {
    var q', r' := x / a, x % a;
    assert q' * a + r' == q * a + r;
    if q' > q {
      assert (q' - q) * a == q' * a - q * a;
      MulAtLeast(q' - q, a);
    } else if q' < q {
      assert (q - q') * a == q * a - q' * a;
      MulAtLeast(q - q', a);
    }
  }

  lemma MulAtLeast(d: int, a: int)
    requires d >= 1 && a > 0
    ensures d * a >= a
  {
    assert (d - 1) * a >= 0;
  }

  lemma Uint32PutUint32(n: nat)
    requires n < TwoTo32
    ensures Uint32(PutUint32(n)) == n
  {
    var q1, r3 := n / 0x100, n % 0x100;
    var q2, r2 := q1 / 0x100, q1 % 0x100;
    var q3, r1 := q2 / 0x100, q2 % 0x100;
    assert n == q1 * 0x100 + r3;
    assert q1 == q2 * 0x100 + r2;
    assert q2 == q3 * 0x100 + r1;
    DivModUnique(n, 0x1_0000, q2, r2 * 0x100 + r3);
    DivModUnique(n, 0x100_0000, q3, r1 * 0x1_0000 + r2 * 0x100 + r3);
    assert n == q3 * 0x100_0000 + r1 * 0x1_0000 + r2 * 0x100 + r3;
  }

  lemma PutUint32Uint32(b: seq<byte>)
    requires |b| == 4
    ensures PutUint32(Uint32(b)) == b
  {
    var n := Uint32(b);
    var b0, b1, b2, b3 := b[0] as int, b[1] as int, b[2] as int, b[3] as int;
    DivModUnique(n, 0x100, b0 * 0x1_0000 + b1 * 0x100 + b2, b3);
    DivModUnique(n, 0x1_0000, b0 * 0x100 + b1, b2 * 0x100 + b3);
    DivModUnique(n, 0x100_0000, b0, b1 * 0x1_0000 + b2 * 0x100 + b3);
    DivModUnique(b0 * 0x1_0000 + b1 * 0x100 + b2, 0x100, b0 * 0x100 + b1, b2);
    DivModUnique(b0 * 0x100 + b1, 0x100, b0, b1);
  }

  /** Whether `b` lies in the byte range lo..hi. */
  predicate Between(b: byte, lo: int, hi: int) {
    lo <= b <= hi
  }

  /** Lowest second byte `utf8.DecodeRune` accepts after the lead byte `b0` (no overlong forms). */
  function SecondLo(b0: int): int {
    if b0 == 0xE0 then 0xA0 else if b0 == 0xF0 then 0x90 else 0x80
  }

  /** Highest second byte accepted after `b0` (no surrogates, nothing past U+10FFFF). */
  function SecondHi(b0: int): int {
    if b0 == 0xED then 0x9F else if b0 == 0xF4 then 0x8F else 0xBF
  }

  /**
    `utf8.DecodeRune`: the rune at the front of `data` and the number of bytes
    it takes. A byte below 0x80 is itself; a well-formed two-, three- or
    four-byte sequence is its code point; anything else (a stray continuation
    byte, an overlong or surrogate form, a truncated sequence) reads as
    U+FFFD and takes one byte.
   */
  function DecodeRune(data: seq<byte>): (r: (char, nat))
    requires |data| > 0
    ensures 1 <= r.1 <= 4 && r.1 <= |data|
    ensures data[0] < 0x80 <==> r.0 as int < 0x80
    ensures data[0] < 0x80 ==> r == (data[0] as char, 1)
  {
    var b0 := data[0] as int;
    var b1 := if |data| >= 2 then data[1] as int else 0;
    var b2 := if |data| >= 3 then data[2] as int else 0;
    var b3 := if |data| >= 4 then data[3] as int else 0;
    if b0 < 0x80 then (b0 as char, 1)
    else if 0xC2 <= b0 <= 0xDF && |data| >= 2 && Between(data[1], 0x80, 0xBF) then
      (((b0 - 0xC0) * 0x40 + (b1 - 0x80)) as char, 2)
    else if 0xE0 <= b0 <= 0xEF && |data| >= 3
      && Between(data[1], SecondLo(b0), SecondHi(b0)) && Between(data[2], 0x80, 0xBF) then
      (((b0 - 0xE0) * 0x1000 + (b1 - 0x80) * 0x40 + (b2 - 0x80)) as char, 3)
    else if 0xF0 <= b0 <= 0xF4 && |data| >= 4
      && Between(data[1], SecondLo(b0), SecondHi(b0))
      && Between(data[2], 0x80, 0xBF) && Between(data[3], 0x80, 0xBF) then
      (((b0 - 0xF0) * 0x4_0000 + (b1 - 0x80) * 0x1000 + (b2 - 0x80) * 0x40 + (b3 - 0x80)) as char, 4)
    else ('\U{FFFD}', 1)
  }

  /** `string(data)` read rune by rune, as `strings.Fields` and `range` read it. */
  function TextOf(data: seq<byte>): (s: string)
    ensures |s| <= |data|
    decreases |data|
  {
    if |data| == 0 then ""
    else
      var r := DecodeRune(data);
      [r.0] + TextOf(data[r.1..])
  }

  predicate IsAsciiBytes(data: seq<byte>) {
    forall i :: 0 <= i < |data| ==> data[i] < 0x80
  }

  predicate IsAscii(s: string) {
    forall i :: 0 <= i < |s| ==> s[i] as int < 0x80
  }

  /** ASCII bytes are read one character each, the character with the byte's code. */
  lemma {:induction false} TextOfAscii(data: seq<byte>)
    requires IsAsciiBytes(data)
    ensures |TextOf(data)| == |data|
    ensures forall i :: 0 <= i < |data| ==> TextOf(data)[i] as int == data[i]
    decreases |data|
  {
    if |data| > 0 {
      assert IsAsciiBytes(data[1..]);
      TextOfAscii(data[1..]);
      assert TextOf(data) == [data[0] as char] + TextOf(data[1..]);
    }
  }

  /** The text is ASCII exactly when the bytes are: no multi-byte sequence or U+FFFD decodes to ASCII. */
  lemma {:induction false} TextOfAsciiIff(data: seq<byte>)
    ensures IsAsciiBytes(data) <==> IsAscii(TextOf(data))
    decreases |data|
  {
    if |data| > 0 {
      var r := DecodeRune(data);
      var s := TextOf(data);
      assert s == [r.0] + TextOf(data[r.1..]);
      assert s[0] == r.0;
      TextOfAsciiIff(data[r.1..]);
      if data[0] < 0x80 {
        assert r.1 == 1;
        assert IsAsciiBytes(data) <==> IsAsciiBytes(data[1..]) by {
          if IsAsciiBytes(data[1..]) {
            forall i | 0 <= i < |data| ensures data[i] < 0x80 {
              if i > 0 { assert data[i] == data[1..][i - 1]; }
            }
          }
        }
        assert IsAscii(s) <==> IsAscii(TextOf(data[1..])) by {
          assert TextOf(data[1..]) == s[1..];
          if IsAscii(TextOf(data[1..])) {
            forall i | 0 <= i < |s| ensures s[i] as int < 0x80 {
              if i > 0 { assert s[i] == TextOf(data[1..])[i - 1]; }
            }
          }
        }
      } else {
        assert !IsAscii(s);
      }
    }
  }

  /** `[]byte(s)` for ASCII text (decimal numerals, here): one byte per character. */
  function BytesOf(s: string): (b: seq<byte>)
    requires IsAscii(s)
    ensures |b| == |s| && IsAsciiBytes(b)
    ensures forall i :: 0 <= i < |b| ==> b[i] == s[i] as int
  {
    seq(|s|, i requires 0 <= i < |s| => s[i] as int)
  }

  /** Reading back the bytes of ASCII text gives the text. */
  lemma TextOfBytesOf(s: string)
    requires IsAscii(s)
    ensures TextOf(BytesOf(s)) == s
  {
    TextOfAscii(BytesOf(s));
  }
}
